=== FILE: README.md ===
# captain-grok backend core, modelled in Dafny

captain-grok flies a small camera drone under the direction of a language
model. The backend keeps the vehicle's flight state machine, a controller
that turns tool calls into movement commands and dead-reckons the
position, search and tailing loops that turn the drone and judge camera
frames, a registry of people to look for, a tool layer that the model
calls, and a session recorder. This project models that core: each source
file becomes one Dafny module, in the form of the source (classes with
`modifies` frames where the Python updates fields in place, loops with
invariants where it loops, datatypes and functions where it only
computes).

External services do not appear as code. The language and vision models,
the face-embedding library, the video stream and the clock only feed
values in, so they are parameters: a reply, an abstract distance between
embeddings, a "frame captured" flag, a `now` timestamp. Confidences and
normalised boxes are exact `real`s; pixels, centimetres, degrees and frame
numbers are `int`s.

Each operation has a partner: a specification function the method is
proved to compute, an invariant it keeps, or a lemma that relates it to
another operation (for example subscribe followed by unsubscribe, or the
clusters of a panorama person partitioning its frames).

## Model

Predicates without a contract of their own (`Helpers.IsAbortKeyword`, `Registry.ToolRegistry.Contains`, `FaceRecognition.IsMatch` and similar) have no row; the lemmas and methods whose rows cite the same source lines state their behaviour.

| member | source | states |
|---|---|---|
| VehicleState.Decide | backend/core/state.py:84-114 | a change to the current state is accepted without effect; EMERGENCY and forced changes are always accepted; any other change is accepted exactly when the table lists it, and the state afterwards is the target iff accepted |
| VehicleState.IdleSuccessors | backend/core/state.py:38-39 | from IDLE an unforced change other than staying put succeeds exactly for CONNECTED and EMERGENCY |
| VehicleState.EmergencySuccessors | backend/core/state.py:60-64 | from EMERGENCY an unforced change succeeds exactly for HOVERING, LANDING and CONNECTED (the code allows more than the class comment's "EMERGENCY -> HOVERING") |
| VehicleState.AirborneOnlyThroughHovering | backend/core/state.py:37-65 | in any run of accepted unforced changes from the ground to a flying state, the vehicle first becomes airborne by entering HOVERING from CONNECTED or EMERGENCY |
| VehicleState.Notifications | backend/core/state.py:142-148 | one call per registered observer, in registration order, each with the old and the new state |
| VehicleState.StateMachine.TransitionTo | backend/core/state.py:84-114 | the outcome and new state are those of `Decide`; observers are notified exactly when the state really changed |
| VehicleState.StateMachine.NotifyObservers | backend/core/state.py:142-148 | the loop delivers exactly `Notifications(observers, old, new)` after what was delivered before |
| VehicleState.StateMachine.OnStateChange | backend/core/state.py:132-140 | the observer is appended after those already registered |
| VehicleState.StateMachine.IsFlying | backend/core/state.py:116-122 | true exactly in HOVERING, EXECUTING and SEARCHING |
| VehicleState.StateMachine.CanExecute | backend/core/state.py:124-130 | true exactly in HOVERING, EXECUTING and SEARCHING |
| Events.WithSubscriber | backend/core/events.py:26-36 | after subscribing, the callback is present, nothing else is added, and a list without repeats stays without repeats |
| Events.RemoveFirst | backend/core/events.py:38-48 | an absent callback leaves the list unchanged; a present one shortens it by one and nothing new appears |
| Events.RemoveFirstDistinct | backend/core/events.py:38-48 | in a repeat-free list, removal takes the callback out entirely and keeps every other member |
| Events.UnsubscribeUndoesSubscribe | backend/core/events.py:26-48 | unsubscribing a callback that was just subscribed restores the previous list |
| Events.SubscribeIdempotent | backend/core/events.py:26-36 | subscribing the same callback twice equals subscribing it once |
| Events.EventBus.Subscribe | backend/core/events.py:26-36 | only the named event type's list changes, to `WithSubscriber` of the old one; no list holds a repeat |
| Events.EventBus.Unsubscribe | backend/core/events.py:38-48 | only the named type's list changes, to `RemoveFirst` of the old one, and the callback is no longer subscribed |
| Events.EventBus.Publish | backend/core/events.py:50-68 | every subscriber of the type is called once, in subscription order, after the earlier calls; the callbacks that raise are recorded in order and delivery continues |
| Events.EventBus.Clear | backend/core/events.py:70-81 | a non-empty type name empties that type; no name, or the empty (falsy) name, empties every type |
| Events.EventBus.SubscriberCount | backend/core/events.py:83-94 | the length of the type's list, zero for a type never subscribed |
| Memory.Turned | backend/core/memory.py:86-91 | the new heading lies in [0, 360) and differs from heading plus rotation by a whole number of turns |
| Memory.TurnsCompose | backend/core/memory.py:86-91 | turning back undoes a turn, and two turns equal one turn by their sum |
| Memory.Appended | backend/core/memory.py:127-138 | the new turn is last, and the buffer is the last `min(len + 1, 30)` turns of the old buffer plus the new one |
| Memory.RecentTurns | backend/core/memory.py:140-149 | Python's `[-last_n:]`: 0 gives everything, a positive n the last n (or all), a negative n drops the first abs(n) turns |
| Memory.RecentTurnsAreLast | backend/core/memory.py:140-149 | for a positive n the result is the last `min(n, len)` turns in chronological order |
| Memory.DroneMemory.GetPosition | backend/core/memory.py:80-84 | the position the memory holds |
| Memory.DroneMemory.UpdateHeading | backend/core/memory.py:86-91 | the heading becomes `Turned(old heading, rotation)` |
| Memory.DroneMemory.UpdatePosition | backend/core/memory.py:93-116 | "up"/"down" change only the height by the distance; "forward", "left", "right" add the planar offset and "back" subtracts it; any other word changes nothing |
| Memory.DroneMemory.ResetPosition | backend/core/memory.py:118-125 | heading and position go back to zero; the conversation is kept |
| Memory.DroneMemory.AddConversationTurn | backend/core/memory.py:127-138 | the conversation becomes `Appended(old, turn)`, never more than 30 turns |
| Memory.DroneMemory.GetConversationForAi | backend/core/memory.py:140-149 | the turns `RecentTurns` selects |
| ToolBase.Plain | backend/tools/base.py:12-16 | a result whose data is left at its default, None |
| ToolBase.Construct | backend/tools/base.py:30-37 | construction succeeds iff both name and description are set; a missing name is reported before a missing description, with the class name |
| ToolBase.Schema | backend/tools/base.py:50-68 | the function-calling schema has exactly the keys "type" and "function", names and describes the tool, and uses the empty object schema when the tool has no parameters |
| ToolBase.SchemaNamesTool | backend/tools/base.py:50-68 | the schema's function name is the tool's name; an empty parameter map gives empty "properties", otherwise the tool's own parameters |
| Registry.ToolRegistry.Register | backend/tools/registry.py:22-33 | the tool is stored under its name; a new name is appended to the order, a known name keeps its place |
| Registry.ToolRegistry.Get | backend/tools/registry.py:35-45 | `None` exactly for an unregistered name, otherwise the tool stored under it |
| Registry.ToolRegistry.Len | backend/tools/registry.py:108-110 | the number of registered names |
| Registry.ToolRegistry.ListAll | backend/tools/registry.py:47-54 | one tool per registered name, in registration order |
| Registry.ToolRegistry.GetSchemas | backend/tools/registry.py:56-63 | the schema of each tool of `ListAll`, in the same order |
| Registry.ToolRegistry.Execute | backend/tools/registry.py:65-106 | an unknown name gives the "not found" failure; a tool's result is passed through; a raised exception becomes a failure naming the tool and the message |
| Registry.RegisterThenLookup | backend/tools/registry.py:22-45 | after registering, the name is contained and looks up to that tool, and the count grew by one exactly when the name was new |
| Settings.Validate | backend/config/settings.py:53-66 | valid iff the API key is set and the port lies in [1024, 65535]; a missing key is reported first, then the invalid port with its value |
| Safety.AbortFlag.Set | backend/drone/controller.py:320 | after setting, the flag reads as set |
| Safety.AbortFlag.Clear | backend/drone/safety.py:43-49 | after clearing, the flag reads as clear |
| Safety.FirstDangerous | backend/drone/safety.py:210-230 | `None` iff no keyword's lowercase form occurs in the lowercased code; otherwise the first keyword in list order that occurs |
| Safety.ValidateCode | backend/drone/safety.py:199-240 | a dangerous keyword is reported first, then a length over 10000, then a syntax error; the code passes iff none applies |
| Safety.Execute | backend/drone/safety.py:76-142 | a set abort flag refuses before validation; a validation failure becomes a safety violation; the code runs iff neither applies; an abort raised while running stops the vehicle, any other error makes it hover |
| Safety.FromAlwaysRejected | backend/drone/safety.py:210-230 | any code containing "from " in any letter case is refused, whatever else it holds |
| Helpers.AbortSurvivesContext | backend/utils/helpers.py:8-29 | text around an abort word still aborts |
| Helpers.AbortIgnoresCase | backend/utils/helpers.py:8-29 | lowercasing the text does not change whether it aborts |
| Helpers.AwaitAborts | backend/utils/helpers.py:8-29 | "await" aborts, because the keyword test is a substring test |
| Helpers.StopwatchAborts | backend/utils/helpers.py:8-29 | "stopwatch" aborts for the same reason |
| Helpers.ResultLine | backend/utils/helpers.py:44-52 | each line starts with a tick exactly when the result's `success` is truthy (missing counts as false) |
| Helpers.ResultLines | backend/utils/helpers.py:44-52 | one line per result, in order |
| Helpers.Formatted | backend/utils/helpers.py:32-54 | no results give "No tools executed", otherwise the lines joined by newlines |
| Helpers.SingleResult | backend/utils/helpers.py:32-54 | a single result formats as its own line with nothing added |
| Helpers.FormatToolResults | backend/utils/helpers.py:32-54 | the loop builds exactly `Formatted(results)` |
| Controller.ClampDistance | backend/drone/controller.py:213-217 | every distance is brought into [20, 100]: kept when inside, raised to 20 below, lowered to 100 above |
| Controller.Moved | backend/drone/controller.py:244-256 | an unknown direction word leaves the dead-reckoned position unchanged |
| Controller.MovedOneAxis | backend/drone/controller.py:244-256 | a move along a known direction changes exactly one coordinate, by the distance |
| Controller.MovedUndone | backend/drone/controller.py:244-256 | a move followed by the same distance in the opposite direction restores the position |
| Controller.MovedAdditive | backend/drone/controller.py:244-256 | two moves in one direction equal one move by the summed distance |
| Controller.MoveSpec | backend/drone/controller.py:195-258 | `move` succeeds iff the vehicle accepts commands, the direction is known and an upward move stays under the 200 cm ceiling; on success the vehicle hovers, the position moves by the clamped distance and one command is sent; every refusal leaves position and commands alone; a grounded vehicle is refused with the state's message, the ceiling with its own, and an unknown word as a ValueError raised after the switch to EXECUTING |
| Controller.MoveNotUp | backend/drone/controller.py:195-258 | a flying vehicle moving in a known direction other than up always moves and ends hovering |
| Controller.RotationCommand | backend/drone/controller.py:270-274 | the command turns clockwise exactly for positive degrees, and always by the magnitude |
| Controller.LandOutcome | backend/drone/controller.py:180-193 | landing reaches CONNECTED only from HOVERING; from EXECUTING or SEARCHING the state machine refuses LANDING and the recorded state stays where it was |
| Controller.ChunkCmds | backend/drone/controller.py:421-445 | every command the loop of one axis sends is a move in that axis's direction |
| Controller.ChunksTravel | backend/drone/controller.py:421-445 | the distance flown is the displacement with only its last request replaced by that request clamped to at least 20 |
| Controller.AxisResidueBounds | backend/drone/controller.py:421-445 | after the loop of one axis the vehicle is within 20 cm of home on that axis, overshooting and never falling short, and it is exactly home iff the displacement mod 100 is 0 or at least 20 |
| Controller.ReturnedPositionResidue | backend/drone/controller.py:394-462 | the position return-home leaves, axis by axis: the x and y residues and a single height correction of at most 100 cm |
| Controller.ReturnHomeMissesHome | backend/drone/controller.py:394-462 | from 110 cm forward and 150 cm up, return-home ends 10 cm behind and 50 cm above the take-off point |
| Controller.HomeSteps | backend/drone/controller.py:421-445 | the corrected plan for one axis: every step lies within the move limits [20, 100] and the steps sum to the displacement |
| Controller.ReplayedWithinLimits | backend/drone/controller.py:213-256 | steps within the limits are not changed by the clamp, so replaying them moves by exactly their sum |
| Controller.HeightLegHome | backend/drone/controller.py:412-417 | the corrected height leg ends at the take-off height |
| Controller.XLegHome | backend/drone/controller.py:421-432 | the corrected x leg ends at the take-off x |
| Controller.YLegHome | backend/drone/controller.py:434-445 | the corrected y leg ends at the take-off y |
| Controller.CorrectedReturnReachesHome | backend/drone/controller.py:394-462 | with the corrected plan, return-home ends exactly at the take-off point from every position |
| Controller.DroneController.constructor | backend/drone/controller.py:39-86 | a new controller is IDLE, at the origin, with nothing sent or published |
| Controller.DroneController.GetPosition | backend/drone/controller.py:464-471 | the dead-reckoned position, unchanged by the call |
| Controller.DroneController.Takeoff | backend/drone/controller.py:153-178 | a flying vehicle is left alone; below the battery threshold the takeoff is refused with the battery level; otherwise the positions reset to the origin, the takeoff command is sent and the event published |
| Controller.DroneController.Land | backend/drone/controller.py:180-193 | a grounded vehicle is left alone; a flying one is sent the land command, publishes the event and ends in `LandedState` |
| Controller.DroneController.Move | backend/drone/controller.py:195-258 | error, state, position and commands are exactly those of `MoveSpec` |
| Controller.DroneController.Rotate | backend/drone/controller.py:260-279 | refused without effect unless flying; otherwise the rotation command is sent and the vehicle hovers |
| Controller.DroneController.Flip | backend/drone/controller.py:281-304 | refused unless flying, then refused for a word other than l/r/f/b, each time without effect; otherwise the flip command is sent and the vehicle hovers |
| Controller.DroneController.Hover | backend/drone/controller.py:306-311 | the halt command is always sent; a flying vehicle enters HOVERING, any other state is kept |
| Controller.DroneController.EmergencyStop | backend/drone/controller.py:313-326 | the abort flag is set, the state becomes EMERGENCY, the halt command is sent and the event published |
| Controller.DroneController.EmergencyLand | backend/drone/controller.py:363-392 | the abort flag is set; the land command is sent; if landing succeeds the vehicle is CONNECTED and the event published, otherwise the motors are stopped and the state stays LANDING |
| Controller.DroneController.ReturnAxis | backend/drone/controller.py:421-445 | position and commands after one axis loop are `AxisReturned` and `AxisCommands` of the displacement |
| Controller.DroneController.ChunkLoop | backend/drone/controller.py:421-432 | the while loop flies `ChunkTravel(n)` in the direction and sends `ChunkCmds(n)` |
| Controller.DroneController.ReturnAxes | backend/drone/controller.py:419-445 | the x loop then the y loop, composed |
| Controller.DroneController.CorrectHeight | backend/drone/controller.py:410-417 | reports whether the single height correction hits the ceiling; if not, flies it |
| Controller.DroneController.ReturnHomeAndLand | backend/drone/controller.py:394-462 | a grounded vehicle is left alone; a height correction over the ceiling ends in an emergency landing; otherwise the vehicle flies `ReturnCommands`, ends at `ReturnedPosition` and lands: CONNECTED after any move, and from the origin the state `LandedState` gives (EXECUTING and SEARCHING stay, their landing being refused) |
| DroneTools.Outcome | backend/tools/drone_tools.py:28-39 | success exactly without an exception; a safety violation and any other exception become failures with their own prefix and the exception's text |
| DroneTools.TakeoffResult | backend/tools/drone_tools.py:28-39 | success exactly without an exception, reporting height 50 and status hovering; a safety violation is reported as a failed safety check |
| DroneTools.MoveResult | backend/tools/drone_tools.py:98-112 | success exactly without an exception; the reported distance is the clamped one, within [20, 100]; the two exception kinds get "Movement blocked" and "Movement failed" |
| DroneTools.RotateResult | backend/tools/drone_tools.py:138-148 | success exactly without an exception; every exception is a failed rotation; the direction is clockwise exactly for positive degrees |
| DroneTools.FlipResult | backend/tools/drone_tools.py:173-184 | success exactly without an exception; the two exception kinds get "Flip blocked" and "Flip failed" |
| DroneTools.ClampTwice | backend/tools/drone_tools.py:98-112 | clamping in the tool and again in the controller gives the same distance, so the reported distance is the one flown |
| DroneTools.FlipError | backend/drone/controller.py:281-304 | `flip` raises nothing exactly when flying with a known direction |
| DroneTools.FlipMessages | backend/tools/drone_tools.py:173-184 | a grounded vehicle is reported as blocked before the direction is looked at; a bad direction while flying is reported as failed |
| DroneTools.RotateTool | backend/tools/drone_tools.py:138-148 | the call succeeds exactly when flying, and then sends the rotation the message names; otherwise nothing is sent and the failure names the refusal |
| DroneTools.MoveTool | backend/tools/drone_tools.py:98-112 | result, position and commands are those of `MoveSpec` for the tool's clamped request |
| DroneTools.FlipTool | backend/tools/drone_tools.py:173-184 | the result is that of `FlipError`; exactly a successful call sends one flip command |
| DroneTools.TakeoffTool | backend/tools/drone_tools.py:28-39 | the call succeeds exactly when already flying or the battery is at or above the threshold |
| Recorder.AppendKeepsChronological | backend/drone/recorder.py:269-276 | logging an event stamped with the current frame keeps the frame numbers of the log non-decreasing and within the frame count |
| Recorder.RecordCompletion | backend/drone/recorder.py:230-253 | the call deadlocks exactly when a frame is given and a session directory exists |
| Recorder.FindWhileRecordingDeadlocks | backend/drone/recorder.py:207-253 | while a recording is running a session directory exists, so recording a find with its frame never returns |
| Recorder.SessionRecorder.constructor | backend/drone/recorder.py:36-66 | a new recorder is not recording, holds no session and has an empty log |
| Recorder.SessionRecorder.StopInternal | backend/drone/recorder.py:130-178 | without a recording nothing changes and nothing is returned; otherwise a stop event is logged, the metadata returned carries the session id, frame count, finds and the full log, and the recorder is reset with its log kept |
| Recorder.SessionRecorder.Stop | backend/drone/recorder.py:120-128 | without a recording nothing happens; otherwise exactly `StopInternal`: the stop event is logged, the metadata carries the session id, frame count, finds and full log, and session id, frame count and manual flag are reset with finds and log kept |
| Recorder.SessionRecorder.Start | backend/drone/recorder.py:68-118 | a running session is stopped first; the new session takes the timestamp as its id; if the writer opens, recording starts with a zero frame count, no finds and a log holding only the start event with its manual flag; if it does not, recording is off and the failure is returned |
| Recorder.SessionRecorder.WriteFrame | backend/drone/recorder.py:180-205 | a frame is counted exactly when recording with a writer and the write does not fail |
| Recorder.SessionRecorder.RecordTargetFound | backend/drone/recorder.py:230-267 | with a frame and a session directory the call deadlocks and nothing changes; otherwise the find is appended with the current frame number, no thumbnail, and logged as an event |
| Recorder.SessionRecorder.RecordTargetFoundUnlocked | backend/drone/recorder.py:207-267 | the intended behaviour: the find is appended with the current frame number and logged; it carries a thumbnail name exactly when a frame was given, a session is open and the image was saved |
| Recorder.SessionRecorder.OnTakeoff | backend/drone/recorder.py:278-284 | without a recording an automatic session is started under the timestamp: an opened writer gives a fresh session with zero frames, no finds and the single automatic start event, a failed one leaves recording off and the rest as it was; during one a takeoff event is logged and nothing else changes |
| Recorder.SessionRecorder.OnLand | backend/drone/recorder.py:286-294 | without a recording nothing changes; a manual session logs the landing and keeps recording with its session, flag, frames and finds; an automatic one logs the landing and the stop, then clears the session id, frame count and manual flag, keeping the finds |
| Targets.StringsRoundTrip | backend/core/targets.py:38-70 | a list of strings written as JSON reads back as the same list |
| Targets.NumbersRoundTrip | backend/core/targets.py:38-70 | an embedding's numbers written as JSON read back unchanged |
| Targets.EmbeddingsRoundTrip | backend/core/targets.py:38-70 | a list of embeddings written as JSON reads back unchanged |
| Targets.ToDict | backend/core/targets.py:38-53 | the dictionary has exactly the eleven attribute keys |
| Targets.ToDictLookups | backend/core/targets.py:38-53 | each key holds its attribute, lists as arrays and a missing link or time as null |
| Targets.FromFields | backend/core/targets.py:54-70 | a target read from the fields carries exactly the strings and number it was given |
| Targets.FromDict | backend/core/targets.py:54-70 | without "id" or "name" nothing is read; otherwise id and name are taken as given, and a missing description, status, confidence or creation time defaults to "", "searching", 0.0 and the current time |
| Targets.FromFieldsRoundTrip | backend/core/targets.py:38-70 | the fields of a target's dictionary read back as that target |
| Targets.FromDictToDict | backend/core/targets.py:38-70 | `from_dict(to_dict(t))` is `t` for every target |
| Targets.FromDictDefaults | backend/core/targets.py:54-70 | a dictionary with only id and name gives a searching target with no photos, no embeddings, confidence 0 and the current creation time |
| Targets.NewTarget | backend/core/targets.py:122-191 | a new target is searching, with confidence 0, no matched photos, no entity link and no time found |
| Targets.Added | backend/core/targets.py:122-191 | the target is stored under its id and its lowercase name indexes that id |
| Targets.AddedValid | backend/core/targets.py:122-191 | adding keeps the store consistent in the sense of `Valid`: the order lists the stored ids without repeats |
| Targets.Lookup | backend/core/targets.py:198-220 | an exact case-insensitive hit is returned as is; whatever is returned is a registered target |
| Targets.LookupAfterAdd | backend/core/targets.py:122-220 | once added under a non-empty id, a target is found under any spelling of its name with the same lowercase form |
| Targets.ApplySets | backend/core/targets.py:274-292 | an update leaves photos, embeddings, matched photos and confidence alone, and takes the name and status from the arguments when given |
| Targets.ApplyNothing | backend/core/targets.py:274-292 | arguments that name no string attribute leave the target unchanged |
| Targets.Updated | backend/core/targets.py:274-292 | an unknown id changes nothing and returns None; a rename whose old lowercase name is missing from the index raises; otherwise the target is replaced by the updated one and the order kept; without a rename the index is untouched; after a rename the new lowercase name points at the id, every other entry except the old lowercase name is kept, and no entry is invented |
| Targets.RenameMovesIndex | backend/core/targets.py:274-292 | after a rename the new name finds the updated target, and the old lowercase name no longer indexes anything when it differs from the new lowercase name |
| Targets.UpdatedValid | backend/core/targets.py:274-292 | a successful update keeps the store consistent |
| Targets.Deleted | backend/core/targets.py:294-315 | deletion reports whether the id was known; an unknown id changes nothing; a known one loses its target and its own name's index entry (whichever id that entry points at); every other target is kept unchanged, every other index entry is kept, and the order is the old one without the id |
| Targets.DeletedValid | backend/core/targets.py:294-315 | deletion keeps the store consistent |
| Targets.MarkedFound | backend/core/targets.py:434-472 | an unknown id changes nothing; otherwise only that target changes: status found, the entity link, the time found, the larger of the old and new confidence, the saved frame appended to its matched photos when there is one, and every other attribute kept |
| Targets.CountStatus | backend/core/targets.py:563-575 | a count over the listed ids never exceeds their number |
| Targets.CountDisjoint | backend/core/targets.py:563-575 | counts for disjoint sets of statuses add up to at most the number of ids |
| Targets.CountsBounded | backend/core/targets.py:558-575 | in a consistent store, found plus searching never exceeds the total |
| Targets.SearchRows | backend/core/targets.py:393-398 | at most one row per registered target |
| Targets.SearchRowsQualify | backend/core/targets.py:393-398 | every target offered for matching is registered, still searching and has face data |
| Targets.CandidateIds | backend/core/face_recognition_service.py:207-247 | every candidate embedding belongs to one of the rows' targets |
| Targets.RowMembers | backend/core/face_recognition_service.py:207-247 | every candidate of a row carries that row's target id |
| Targets.MatchesSound | backend/core/targets.py:381-432 | every reported match names a registered target that is still searching and has face data, at confidence 0.5 or more |
| Targets.NoRowsNoMatches | backend/core/targets.py:400-401 | with no target to search for, no frame yields a match |
| Targets.TargetManager.constructor | backend/core/targets.py:90-120 | a new manager holds the empty store |
| Targets.TargetManager.AddTarget | backend/core/targets.py:122-191 | the target created is `NewTarget` of the arguments and the store becomes `Added` |
| Targets.TargetManager.GetTarget | backend/core/targets.py:193-196 | `None` exactly for an unknown id, otherwise the target stored under it |
| Targets.TargetManager.GetTargetByName | backend/core/targets.py:198-220 | the target `Lookup` finds |
| Targets.TargetManager.UpdateTarget | backend/core/targets.py:274-292 | result and new store are those of `Updated`; an error leaves the store unchanged |
| Targets.TargetManager.DeleteTarget | backend/core/targets.py:294-315 | result and new store are those of `Deleted` |
| Targets.TargetManager.MarkFound | backend/core/targets.py:434-472 | result and new store are those of `MarkedFound` |
| Targets.TargetManager.MatchFrame | backend/core/targets.py:381-432 | no matches without the face service or without a target to search for; otherwise the loop collects exactly `Matches`, one best match per detected face, in detection order |
| SafetyTools.Take | backend/tools/safety_tools.py:346-356 | Python's `xs[:n]`: a prefix of at most n elements, the whole list when it is short enough |
| SafetyTools.RequiredClearance | backend/tools/safety_tools.py:36-44 | flips need 200 cm, lateral moves 80 cm, everything else (and any unknown maneuver) 100 cm |
| SafetyTools.ClearanceData | backend/tools/safety_tools.py:124-147 | the data reports the vision model's verdict and the clearance the maneuver needs |
| SafetyTools.CheckClearance | backend/tools/safety_tools.py:52-175 | a successful check carries the analysis's data and message; a failed one carries an error code |
| SafetyTools.ClearanceErrorOrder | backend/tools/safety_tools.py:52-122 | the check succeeds iff all six preconditions hold; otherwise the error reported is that of the first one that fails |
| SafetyTools.FirstFailing | backend/tools/safety_tools.py:52-122 | the index of the first failed precondition: all before it hold, it does not |
| SafetyTools.BatteryCheck | backend/tools/safety_tools.py:270-291 | critical iff the battery cannot be read or is under 30%; a warning iff it reads in [30, 50); the data holds the level or -1 |
| SafetyTools.AltitudeCheck | backend/tools/safety_tools.py:293-321 | critical iff flying and the height reads under 50 cm; a warning iff flying and the height is unreadable or in [50, 100); on the ground the altitude is 0 |
| SafetyTools.ObstacleCheck | backend/tools/safety_tools.py:324-372 | critical iff a scan ran and scored under 50; no warning iff a scan ran, found clear and scored 70 or more; the data holds the score or -1 |
| SafetyTools.HazardWarnings | backend/tools/safety_tools.py:346-352 | one warning per hazard listed |
| SafetyTools.Findings | backend/tools/safety_tools.py:260-372 | three check lines, and no critical failure iff none of the three checks is critical |
| SafetyTools.FlipsNeedFlightAndCharge | backend/tools/safety_tools.py:403-410 | flips are recommended iff nothing is critical, the battery reads at least 50% and the vehicle flies at a height read as at least 100 cm |
| SafetyTools.CarefulMeansModerateBattery | backend/tools/safety_tools.py:403-410 | careful flight is advised iff nothing is critical and the battery is in [30, 50) |
| SafetyTools.Rule | backend/tools/safety_tools.py:393 | a rule of exactly the requested width |
| SafetyTools.PreflightCheck | backend/tools/safety_tools.py:260-418 | the check itself always succeeds, and `all_passed` holds iff nothing is critical |
| SafetyTools.PreflightData | backend/tools/safety_tools.py:375-381 | `all_passed` holds iff the list of critical failures is empty |
| DualVerification.OrElse | backend/core/dual_verification.py:161 | the box the local check found, else the one passed in |
| DualVerification.Clamp01 | backend/core/dual_verification.py:226-236 | the value pinned into [0, 1], unchanged when already inside |
| DualVerification.Remap | backend/core/dual_verification.py:215-224 | without a crop the detection's box is kept; with one, the box is scaled by the crop's size and shifted by its corner, back into whole-frame fractions |
| DualVerification.RemapInside | backend/core/dual_verification.py:215-224 | a box inside a crop inside the frame stays inside the frame |
| DualVerification.DetectionRow | backend/core/dual_verification.py:206-213 | one pair per target embedding, in order, all with the same detection |
| DualVerification.Pairs | backend/core/dual_verification.py:202-213 | every detection paired with every target embedding |
| DualVerification.PairsMembers | backend/core/dual_verification.py:202-213 | a pair is compared exactly when its face is among the detections and its embedding among the target's |
| DualVerification.CvDecide | backend/core/dual_verification.py:226-236 | a match iff the best distance is under 0.5; a match has confidence above 0; a non-match with a non-negative distance has confidence at most 0.5; the confidence always lies in [0, 1] |
| DualVerification.PairsSnoc | backend/core/dual_verification.py:202-213 | one more detection adds its row of pairs at the end |
| DualVerification.ScanTargetsStep | backend/core/dual_verification.py:206-224 | the inner loop keeps a new best exactly when the distance is strictly below the best so far |
| DualVerification.ScanTargets | backend/core/dual_verification.py:206-224 | the inner loop leaves the best distance and box of all pairs seen so far plus this detection's row |
| DualVerification.CvCheck | backend/core/dual_verification.py:164-240 | the loops compute exactly `CvResult`: no service or no face gives no match at confidence 0; otherwise the first pair at the least distance decides |
| DualVerification.CvMatchSound | backend/core/dual_verification.py:164-240 | a local match implies the service runs and some detected face lies under 0.5 from some target embedding |
| DualVerification.CvMatchComplete | backend/core/dual_verification.py:164-240 | conversely, any face under 0.5 from a target embedding makes the local check match |
| DualVerification.SimilarityReadAsDistance | backend/core/dual_verification.py:208-213 | when the comparison returns its similarity `exp(-distance)` (1.0 for identical faces), the very face of the target does not match while a face of similarity 0.1 does |
| DualVerification.IdenticalFaceMatches | backend/core/dual_verification.py:164-240 | with a true distance, the target's own face matches at confidence 1 with its own box |
| DualVerification.ParseGrokResponse | backend/core/dual_verification.py:297-330 | a match from the vision model always carries confidence at least 0.7 |
| DualVerification.GrokMatchMeaning | backend/core/dual_verification.py:297-330 | the vision model matches iff it says a person is visible, that it is the target, and gives a confidence readable as at least 0.7 |
| DualVerification.NoPersonNoMatch | backend/core/dual_verification.py:310-315 | no person visible gives no match, confidence 0 and the fixed description |
| DualVerification.CombineResults | backend/core/dual_verification.py:332-391 | a match iff the level is not low; both confidences and the description are passed through; the box is the local one, else the one given |
| DualVerification.CombineTiers | backend/core/dual_verification.py:332-391 | high iff both agree, with the mean confidence; medium iff only the local check matches and above 0.75, with its confidence |
| DualVerification.CombineConfidenceRange | backend/core/dual_verification.py:332-391 | confidences in [0, 1] combine into one in [0, 1], and a non-match never reports more than 0.5 |
| DualVerification.GrokAgreementNeverLowers | backend/core/dual_verification.py:332-391 | the vision model agreeing never lowers the level |
| DualVerification.NoLocalMatchNoMatch | backend/core/dual_verification.py:332-391 | without a local match there is no match, whatever the vision model says |
| DualVerification.NoFaceData | backend/core/dual_verification.py:99-111 | a target without face data is a low, non-matching result at confidence 0 |
| DualVerification.Verify | backend/core/dual_verification.py:78-122 | no face data gives `NoFaceData`; otherwise the local check and the vision model's answer combined by `CombineResults` |
| DualVerification.QuickLevel | backend/core/dual_verification.py:124-162 | high iff a local match above 0.75; medium iff a local match in (0.5, 0.75] |
| DualVerification.VerifyQuick | backend/core/dual_verification.py:124-162 | the quick result is the local check alone, with the vision model's part zero and the fixed description |
| DualVerification.QuickOutranksDisagreement | backend/core/dual_verification.py:124-391 | when the vision model disagrees, the quick check rates at least as high, and a strong local match is high there but medium in the full check |
| ChatGenerator.Phrases | backend/core/chat_generator.py:68-89 | every phrase list is non-empty |
| ChatGenerator.MessageIdsDistinct | backend/core/chat_generator.py:97-101 | ids with different counters differ, whatever the clock reads |
| ChatGenerator.PhraseAt | backend/core/chat_generator.py:103-111 | the phrase chosen is one of the category's phrases |
| ChatGenerator.PhrasesCycle | backend/core/chat_generator.py:103-111 | the phrases repeat after a full cycle and two successive phrases of a category differ |
| ChatGenerator.ThinkingContent | backend/core/chat_generator.py:122-134 | a non-empty context is echoed as being processed, otherwise the fixed thinking text |
| ChatGenerator.RotatingContent | backend/core/chat_generator.py:153-166 | turning right exactly for positive degrees, left otherwise |
| ChatGenerator.ScanningContent | backend/core/chat_generator.py:136-151 | a non-empty direction is appended in brackets, otherwise the phrase alone |
| ChatGenerator.PeopleClause | backend/core/chat_generator.py:245-268 | no clause for zero people, "one person" for one, the number for more |
| ChatGenerator.SceneParts | backend/core/chat_generator.py:245-268 | the description first, then the people clause, then at most three objects when there are any |
| ChatGenerator.ClarificationContent | backend/core/chat_generator.py:307-323 | the question alone without options, else the options joined by "or" in brackets |
| ChatGenerator.SummaryParts | backend/core/chat_generator.py:357-384 | nothing to report iff no survivors and no objects; survivors first, singular for one; objects last |
| ChatGenerator.SearchCompleteContent | backend/core/chat_generator.py:357-384 | the area is reported clear exactly when nothing was found |
| ChatGenerator.Generator.constructor | backend/core/chat_generator.py:63-95 | counters start at zero |
| ChatGenerator.Generator.NextId | backend/core/chat_generator.py:97-101 | the counter goes up by one and the id carries the new counter and the clock |
| ChatGenerator.Generator.GetPhrase | backend/core/chat_generator.py:103-111 | the phrase at the category's counter is returned and only that counter advances |
| ChatGenerator.Generator.ThinkingMessage | backend/core/chat_generator.py:122-134 | a thinking message with the next id and `ThinkingContent` |
| ChatGenerator.Generator.ScanningMessage | backend/core/chat_generator.py:136-151 | an action message for "look" with the next scanning phrase; the scanning counter advances |
| ChatGenerator.Generator.RotatingMessage | backend/core/chat_generator.py:153-166 | an action message for "rotate" with `RotatingContent` |
| ChatGenerator.Generator.MovingMessage | backend/core/chat_generator.py:168-178 | an action message for "move" with the next moving phrase, the direction and the distance; only the moving counter advances |
| ChatGenerator.Generator.SurvivorFound | backend/core/chat_generator.py:200-224 | an observation message for "search" with the next found phrase, the description, the direction and the distance; only the found counter advances |
| ChatGenerator.MovingContentDiffers | backend/core/chat_generator.py:168-178 | different phrases give different movement texts for the same move |
| ChatGenerator.TwoMoves | backend/core/chat_generator.py:103-178 | two moves announced one after the other are worded differently and leave the scanning phrases where they were |
| ChatGenerator.Generator.SceneObservation | backend/core/chat_generator.py:245-268 | an observation message whose text is the scene parts |
| ChatGenerator.Generator.ClarificationMessage | backend/core/chat_generator.py:307-323 | a clarification message with `ClarificationContent` |
| ChatGenerator.Generator.SearchComplete | backend/core/chat_generator.py:357-384 | a success message with `SearchCompleteContent` |
| ChatGenerator.TwoMessages | backend/core/chat_generator.py:97-101 | two messages made one after the other never share an id |
| FocusedSearch.AngleToDirection | backend/tools/focused_search.py:260-280 | every angle is named by one of the eight compass phrases |
| FocusedSearch.AngleToDirectionNearest | backend/tools/focused_search.py:260-280 | the phrase is that of the nearest multiple of 45 degrees, halves rounding up |
| FocusedSearch.ScanHeadingsNamed | backend/tools/focused_search.py:132-280 | the k-th of the eight scan headings is named by the k-th compass phrase |
| FocusedSearch.Better | backend/tools/focused_search.py:169-174 | the best kept is never less confident than the new result or the previous best |
| FocusedSearch.ScanEnds | backend/tools/focused_search.py:132-181 | the scan stops at the first abort or hit, with every earlier heading quiet; an abort is seen at its step, a hit is a captured frame whose result matched |
| FocusedSearch.ScanOutcome | backend/tools/focused_search.py:132-181 | from the start: the scan ends on the first abort or hit, and finishes all eight headings iff every heading is quiet |
| FocusedSearch.FirstBestIsFirstMax | backend/tools/focused_search.py:169-174 | the best kept is the first captured result of highest confidence, and none iff no frame was captured |
| FocusedSearch.ScanBest | backend/tools/focused_search.py:132-181 | a scan that runs through reports the first most confident result of all eight headings |
| FocusedSearch.ScanRotations | backend/tools/focused_search.py:176-181 | the vehicle turns once after every captured step before the stop, except after the last heading |
| FocusedSearch.Precheck | backend/tools/focused_search.py:71-117 | the checks before the scan: a target passes only without an abort and when the name lookup finds it |
| FocusedSearch.Search | backend/tools/focused_search.py:60-204 | an abort at the start is reported as such; an unknown name as unregistered; a target without face data, already found or scanned is the one the lookup found, and a target without face data is reported as such |
| FocusedSearch.NotFoundData | backend/tools/focused_search.py:183-198 | not found, eight angles checked, and a best match exactly when the best confidence exceeds 0.3, with its angle and confidence |
| FocusedSearch.FoundReport | backend/tools/focused_search.py:213-258 | a successful report with the target id, the angle, its compass phrase, the confidence, and the box as `BoxValue` |
| FocusedSearch.BoxValue | backend/tools/focused_search.py:255 | the box as a dict with keys x, y, width and height holding its fields, or null without a box |
| FocusedSearch.Report | backend/tools/focused_search.py:60-204 | success iff the target was already found or the scan was not aborted; aborts report the steps checked; a hit reports `FoundReport` at its heading; a scan that ran through reports `NotFoundData` |
| FocusedSearch.ScanReport | backend/tools/focused_search.py:132-204 | a scan's report succeeds iff it was not aborted |
| FocusedSearch.Turns | backend/tools/focused_search.py:176-181 | n clockwise turns of 45 degrees |
| FocusedSearch.AfterTurnsStep | backend/tools/focused_search.py:176-181 | one more turn adds a rotation exactly when flying |
| FocusedSearch.TurnOnce | backend/tools/focused_search.py:176-181 | a flying vehicle is sent one 45-degree clockwise rotation; a refused rotation is swallowed |
| FocusedSearch.ScanStep | backend/tools/focused_search.py:133-181 | one step of the loop, as `ScanFrom` takes it |
| FocusedSearch.Scan | backend/tools/focused_search.py:132-181 | the loop's end, best and number of turns are those of `ScanFrom`; the commands sent are those turns |
| FocusedSearch.FindPerson | backend/tools/focused_search.py:60-258 | the call never returns exactly when the scan hits while the recorder is recording; otherwise the result is `Report` of `Search`, only a hit marks the target found, with the hit's confidence; the rotations are those of the scan and the recorder is untouched |
| FaceRecognition.NormalizedBox | backend/core/face_recognition_service.py:184-191 | the box's fractions times the image's width and height give back the face's pixel location |
| FaceRecognition.NormalizedBoxInside | backend/core/face_recognition_service.py:184-191 | a face located inside the image gives a box inside the unit square |
| FaceRecognition.ExtractAllFaces | backend/core/face_recognition_service.py:129-204 | nothing without the service, for an image under 50 pixels, without faces or when encoding fails; otherwise one detection per location paired with its encoding, in order, as far as both lists go |
| FaceRecognition.CompareEmbeddings | backend/core/face_recognition_service.py:206-242 | an empty embedding compares as 0; otherwise the comparison's value |
| FaceRecognition.Row | backend/core/face_recognition_service.py:294-298 | the candidates of one target carry its id and its non-empty embeddings only |
| FaceRecognition.Candidates | backend/core/face_recognition_service.py:294-298 | every candidate embedding is non-empty |
| FaceRecognition.ConfidenceFloor | backend/core/face_recognition_service.py:307-318 | a non-negative distance passes the 0.5 confidence floor exactly when it is at most half the 0.45 threshold, 0.225 |
| FaceRecognition.CandidatesSnoc | backend/core/face_recognition_service.py:294-298 | one more target appends its row of candidates |
| FaceRecognition.RowSnoc | backend/core/face_recognition_service.py:295-298 | one more embedding appends a candidate exactly when it is non-empty |
| FaceRecognition.ScanRow | backend/core/face_recognition_service.py:294-303 | the inner loop keeps the first least distance over the candidates seen so far plus this target's row |
| FaceRecognition.FindBestMatch | backend/core/face_recognition_service.py:271-329 | the loops compute exactly `BestMatch` |
| FaceRecognition.BestMatchSound | backend/core/face_recognition_service.py:271-329 | a reported match names a non-empty id whose embedding is the first at the least distance, with the confidence of that distance, and it passes the match test |
| FaceRecognition.BestMatchComplete | backend/core/face_recognition_service.py:271-329 | conversely, when the first closest candidate lies within half the threshold and has an id, it is reported with its confidence |
| VisionTools.NumSteps | backend/tools/vision_tools.py:166-167 | Python's `360 // step`: for a positive step the largest n with n steps within a turn; a negative step gives no steps |
| VisionTools.HeadingsWithinTurn | backend/tools/vision_tools.py:166-167 | every heading the search visits lies in [0, 360) |
| VisionTools.SearchEnds | backend/tools/vision_tools.py:170-206 | the search stops at the first step that is not quiet: an abort at its step, a confident sighting on a captured frame, or a failure; or in the wait after a captured step's turn, when the abort flag is set there; until then no turn's wait saw the flag |
| VisionTools.SearchTurnsBounded | backend/tools/vision_tools.py:203-206 | the search turns at most once per step before it stops, and never after the last step |
| VisionTools.SearchRunOf | backend/tools/vision_tools.py:155-220 | the scan runs exactly when the video runs, the vehicle flies and the step is not zero, and is then `SearchFrom` over `NumSteps` steps |
| VisionTools.SearchReport | backend/tools/vision_tools.py:155-220 | success exactly for a confident sighting, reporting the angle step times index; an abort at a step reports "Search aborted by user", one during the wait after a turn "Mission aborted during wait" |
| VisionTools.SearchLoop | backend/tools/vision_tools.py:170-206 | the loop ends as `SearchFrom` says, including the stop in the wait after a turn, and sends one rotation by the step per turn |
| VisionTools.Search | backend/tools/vision_tools.py:155-220 | the result is `SearchReport` of `SearchRunOf`; only a scan that ran sends rotations |
| VisionTools.LookTurns | backend/tools/vision_tools.py:260-278 | a completed look-around turns three times; one stopped at a direction turns once per direction it left; one stopped in the wait after a turn has made that turn too |
| VisionTools.LookDescriptionsOrdered | backend/tools/vision_tools.py:260-284 | the descriptions keep those gathered so far and come in direction order, one per direction at most |
| VisionTools.Lines | backend/tools/vision_tools.py:281-284 | one line per description |
| VisionTools.LookAroundRun | backend/tools/vision_tools.py:240-294 | the look-around runs exactly when the video runs and the vehicle flies, and is then `LookFrom` from the first direction |
| VisionTools.LookReport | backend/tools/vision_tools.py:240-294 | success exactly when the look-around ran through all four directions; an abort at a direction reports "Look around aborted", one during the wait after a turn "Mission aborted during wait" |
| VisionTools.LookLoop | backend/tools/vision_tools.py:260-278 | the loop ends as `LookFrom` says, including the stop in the wait after a turn, and sends one 90-degree rotation per turn |
| VisionTools.LookAround | backend/tools/vision_tools.py:240-294 | the result is `LookReport` of `LookAroundRun`; only a run sends rotations |
| Tailing.CalculateRotation | backend/core/tailing.py:267-297 | no turn inside the 100-pixel dead zone; clockwise exactly right of it and anticlockwise left of it; 10 degrees up to 200 pixels off centre, 20 beyond |
| Tailing.RotationMirror | backend/core/tailing.py:267-297 | a face mirrored about the centre line asks for the opposite turn |
| Tailing.RotationMonotone | backend/core/tailing.py:267-297 | a face further right never asks for a smaller clockwise turn |
| Tailing.StartKeepsConsistent | backend/core/tailing.py:106-144 | starting succeeds exactly when not active and the target exists with face data, then resets the rotation time, and keeps the tracker consistent |
| Tailing.ProcessedKeepsConsistent | backend/core/tailing.py:161-265 | a frame keeps the tracker consistent and never lowers the frame counters |
| Tailing.OneCounterPerFrame | backend/core/tailing.py:161-265 | while tailing, each frame adds one to exactly one counter, to the tracked count exactly when the target was seen |
| Tailing.RateLimited | backend/core/tailing.py:221-248 | a rotation is queued only after more than 0.5 s since the last one, it is not zero, and it resets the rotation time |
| Tailing.SearchSpin | backend/core/tailing.py:243-248 | without a sighting, the only rotation queued is the slow spin, after more than 3 s lost |
| Tailing.GiveUpAfterTimeout | backend/core/tailing.py:236-240 | tailing gives up only after more than 10 s without a sighting, with no abort, and ends inactive |
| Tailing.TrackStep | backend/core/tailing.py:195-205 | the loop keeps a face exactly when it lies under 0.5 and strictly closer than the best so far |
| Tailing.StatusOf | backend/core/tailing.py:316-331 | confidence 0.9 exactly when a box is known, else 0, and nothing queued |
| Tailing.TailingController.constructor | backend/core/tailing.py:77-104 | a new controller is inactive with zeroed counters and nothing queued |
| Tailing.TailingController.Start | backend/core/tailing.py:106-144 | the new state and result are `Started` of the old state |
| Tailing.TailingController.Stop | backend/core/tailing.py:146-159 | the new state is `Stopped` of the old |
| Tailing.TailingController.ProcessFrame | backend/core/tailing.py:161-265 | state and report are `Processed` of the closest face; a queued rotation is appended to the queue |
| Tailing.TailingController.GetStatus | backend/core/tailing.py:316-331 | the status is `StatusOf` the current state |
| Panorama.PairAcceptedCases | backend/ai/grok_client.py:1435-1447 | for sorted frames, a pair passes iff the second is the next frame, or the pair is 1 and 8 |
| Panorama.PairsAcceptedForward | backend/ai/grok_client.py:1435-1447 | sorted frames that pass every pair are [1, 8] or a run of consecutive frames within 1..8 |
| Panorama.PairsAcceptedBackward | backend/ai/grok_client.py:1435-1447 | [1, 8] and every run pass every pair |
| Panorama.AreAllAdjacentMeaning | backend/ai/grok_client.py:1435-1447 | two or more frames count as adjacent iff, sorted, they are [1, 8] or a run of consecutive frames |
| Panorama.FirstTouching | backend/ai/grok_client.py:1464-1470 | the first cluster holding a ring neighbour of the frame, or none |
| Panorama.Clusters | backend/ai/grok_client.py:1462-1472 | no cluster is empty |
| Panorama.ClusterFrames | backend/ai/grok_client.py:1462-1472 | the greedy loop builds exactly `Clusters` |
| Panorama.ClustersPartition | backend/ai/grok_client.py:1462-1472 | the clusters together hold exactly the frames, counted with repeats |
| Panorama.ClustersSorted | backend/ai/grok_client.py:1462-1472 | fed sorted frames, every cluster is sorted |
| Panorama.SevenEightOne | backend/ai/grok_client.py:1435-1472 | a person seen in 7, 8 and 1, neighbours all round the ring, is judged not adjacent and split into [1, 8] and [7] |
| Panorama.SevenEightOneBehind | backend/ai/grok_client.py:1452-1514 | a person seen in 7, 8 and 1 is split into [1, 8], reported behind by the plain mean, and [7], to the left |
| Panorama.SingleFrameDirections | backend/ai/grok_client.py:1503-1514 | each single frame maps to the direction it faces |
| Panorama.WrapAroundMeanIsBehind | backend/ai/grok_client.py:1503-1514 | frames 1 and 8 each face ahead, but together are reported behind |
| Panorama.MeanBounds | backend/ai/grok_client.py:1505 | a mean of values within bounds lies within the bounds |
| Panorama.RingDirectionUnanimous | backend/ai/grok_client.py:1503-1514 | on the ring, frames that all face one direction are reported in that direction |
| Panorama.PersonIdInjective | backend/ai/grok_client.py:1456-1476 | different counters give different person ids |
| Panorama.BoxesIn | backend/ai/grok_client.py:1480-1485 | a box is kept exactly when its frame lies in the cluster, with the boxes' order and repeats |
| Panorama.BoxesInConcat | backend/ai/grok_client.py:1480-1485 | filtering a concatenation filters each part, so the kept boxes stay in their original order |
| Panorama.SplitPiece | backend/ai/grok_client.py:1478-1491 | the copy for a cluster holds the cluster's frames, its first frame as best frame, exactly the person's boxes seen in those frames, and the cluster's plain-mean direction; id and description are kept until renumbering |
| Panorama.Split | backend/ai/grok_client.py:1476-1494 | one copy of the person per cluster, in cluster order, copy k being the `SplitPiece` of cluster k |
| Panorama.PiecesSpec | backend/ai/grok_client.py:1452-1494 | an adjacent person is kept whole; otherwise one copy per cluster, with that cluster's frames in order, its first frame as best frame, exactly the person's boxes in that cluster in their order, and the direction `FramesToDirection` of the cluster; the clusters hold exactly the person's frames |
| Panorama.Renumbered | backend/ai/grok_client.py:1449-1494 | the list in order with ids person_{first}, person_{first+1}, ... |
| Panorama.DeduplicatedIds | backend/ai/grok_client.py:1496-1501 | after the repair the ids are person_1 .. person_n in order and pairwise distinct, the count is the list's length and the objects are untouched |
| Panorama.EmitSplitStep | backend/ai/grok_client.py:1474-1494 | one round of the inner loop appends the next cluster's copy, with the cluster's plain-mean direction, under the next id |
| Panorama.EmitWholeStep | backend/ai/grok_client.py:1454-1459 | one round of the outer loop for a kept person appends it under the next id |
| Panorama.EmitSplit | backend/ai/grok_client.py:1460-1494 | the split branch appends exactly the renumbered `Pieces` of the person, in cluster order |
| Panorama.EmitClusters | backend/ai/grok_client.py:1474-1494 | the inner loop appends one renumbered copy per cluster, each with the cluster's frames, boxes and plain-mean direction |
| Panorama.ValidatePanoramaDeduplication | backend/ai/grok_client.py:1422-1501 | the loops compute exactly `Deduplicated`: kept persons whole, split persons as `Pieces` with plain-mean directions, then ids repaired to person_1 .. person_n |
| GrokReplies.StripMarkdownUnfenced | backend/ai/grok_client.py:358-380 | code that does not start with a fence is only stripped |
| GrokReplies.FencedLines | backend/ai/grok_client.py:370-376 | a fenced block splits into the opening line, the body's lines and the closing fence |
| GrokReplies.StripMarkdownFenced | backend/ai/grok_client.py:358-380 | a fenced block with a language tag gives back its body, stripped |
| GrokReplies.ScanClose | backend/ai/grok_client.py:415-441 | the scan ends after some later position of the text, or reports 0 |
| GrokReplies.ScanCloseMeaning | backend/ai/grok_client.py:415-441 | the scan returns the end of the first prefix whose depth returns to zero on a closer, or 0 when there is none |
| GrokReplies.FirstCloseMeaning | backend/ai/grok_client.py:415-441 | from the start of the text, the same |
| GrokReplies.BalancedEnd | backend/ai/grok_client.py:415-441 | the counting loop computes exactly `FirstClose` |
| GrokReplies.StripJsonMarkdown | backend/ai/grok_client.py:382-441 | the method computes exactly `CleanJson` |
| GrokReplies.ScanCloseExtend | backend/ai/grok_client.py:415-441 | text after the first close does not change where the scan stops |
| GrokReplies.CleanJsonDropsTrailingText | backend/ai/grok_client.py:382-441 | a balanced object followed by any text ending in a non-space comes back as the object alone |
| GrokReplies.SearchFound | backend/ai/grok_client.py:309 | a search reply counts as a sighting iff its first three letters are "YES" in any case |
| MemoryTools.AngleBetween | backend/tools/memory_tools.py:180 | the short-way angle between two headings lies in [0, 180] |
| MemoryTools.Closest | backend/tools/memory_tools.py:180 | Python's `min` with a key: a compass key at the least angle, the first such |
| MemoryTools.Rounded | backend/tools/memory_tools.py:168-181 | rounding to the nearest 45 degrees lands on a compass key |
| MemoryTools.RoundedIsNear | backend/tools/memory_tools.py:168-181 | the rounded key lies at most 22 degrees from the heading |
| MemoryTools.SnapWithin22 | backend/tools/memory_tools.py:168-181 | the reported compass point is never more than 22 degrees from the heading |
| MemoryTools.DroneStatus | backend/tools/memory_tools.py:161-195 | always a success, naming the compass point `Closest` picks |
| MemoryTools.PhotoCount | backend/tools/memory_tools.py:128-129 | "1 photo" for one, a plural ending in "s" otherwise |
| MemoryTools.TargetLine | backend/tools/memory_tools.py:125-129 | a tick for a found target, a magnifier for any other status |
| MemoryTools.TargetLines | backend/tools/memory_tools.py:125-129 | one line per target, in order |
| MemoryTools.TargetDicts | backend/tools/memory_tools.py:135 | one dictionary per target |
| MemoryTools.ListTargets | backend/tools/memory_tools.py:113-143 | always a success with the targets and their count; the hint when there are none, else the heading with the count and one line per target |
| MemoryTools.RememberRefusal | backend/tools/memory_tools.py:40-63 | the checks in order (video, capture, face service, a face in view); the person is remembered exactly when all pass |
| MemoryTools.RememberFailed | backend/tools/memory_tools.py:93-95 | an unsuccessful result whose message is "Could not remember person: " and the exception text |
| MemoryTools.RememberPerson | backend/tools/memory_tools.py:40-95 | a refusal changes nothing and reports the check that failed; an exception before the target is added changes nothing and reports `RememberFailed`; otherwise a new target is added to the manager, reported as remembered or, when removing the temporary photo raises, as `RememberFailed` |
| ImageProcessor.Trunc | backend/core/image_processor.py:52-55 | Python's `int()` on a float: truncation toward zero |
| ImageProcessor.ExtractRegion | backend/core/image_processor.py:29-78 | a crop, when returned, has positive size and lies inside the frame |
| ImageProcessor.CropCoversBox | backend/core/image_processor.py:29-78 | with padding, the crop covers the pixel box clipped to the frame, and the crop is refused exactly when the padded, clipped box has no area |
| ImageProcessor.FaceBox | backend/core/image_processor.py:100-107 | the face box is the top 35% of the person box, inside its width |
| ImageProcessor.ExtractFaceRegion | backend/core/image_processor.py:80-111 | the face crop lies inside the frame |
| ImageProcessor.CreateThumbnail | backend/core/image_processor.py:160-192 | an image that fits comes back as is; otherwise the thumbnail has its longer side at the maximum and both sides positive, or the resize is refused and the image comes back whole |
| ImageProcessor.ShortSide | backend/core/image_processor.py:182-186 | the scaled shorter side never exceeds the maximum |
| ImageProcessor.ThumbnailKeepsOrientation | backend/core/image_processor.py:160-192 | the longer side stays the longer (or equal) side |
| ImageProcessor.ThinImageThumbnailTooLarge | backend/core/image_processor.py:160-192 | a 1 by 1000 image asks for a zero-height thumbnail, which is refused, so 1000 pixels come back where at most 150 were asked |
| ImageProcessor.FittedThumbnailFits | backend/core/image_processor.py:160-192 | with the short side kept at one pixel or more, every thumbnail of a non-empty image fits in the maximum |
| ImageProcessor.PositionX | backend/core/image_processor.py:289-309 | the left edge for each position word, 0.35 for an unknown word |
| ImageProcessor.DistanceSize | backend/core/image_processor.py:298-310 | width and height for each distance word, those of "medium" for an unknown word |
| ImageProcessor.EstimateBboxFromPosition | backend/core/image_processor.py:273-315 | the box starts 0.1 from the top, lies inside the frame vertically and takes its x and size from the two tables |
| ImageProcessor.EstimateIgnoresCase | backend/core/image_processor.py:309-310 | the words are looked up lowercased, and two unknown words give the centred, medium box |
| Events.EventBus.constructor | backend/core/events.py:21-24 | a new bus has no subscribers and nothing called or logged |
| Events.EventBus.Subscribers | backend/core/events.py:59-60 | a type never subscribed to has no subscribers, as with a `defaultdict` |
| Events.Raised | backend/core/events.py:62-68 | a raising subscriber logs one error line and never more lines than subscribers |
| Memory.DroneMemory.constructor | backend/core/memory.py:51-70 | a new memory faces heading 0 at the origin with no conversation |
| Registry.ToolRegistry.constructor | backend/tools/registry.py:17-20 | a new registry holds no tools |
| VehicleState.StateMachine.constructor | backend/core/state.py:67-76 | a new machine is in the initial state with no observers |
| Sorting.SortInts | backend/ai/grok_client.py:1439 | Python's `sorted` on frame numbers: the result is sorted and a permutation of the input |
| Sorting.SortSorted | backend/ai/grok_client.py:1439-1466 | sorting sorted frames changes nothing |
| Selection.FirstMin | backend/core/dual_verification.py:199-214 | a minimum exists exactly when there are candidates |
| Selection.FirstMinMeaning | backend/core/dual_verification.py:199-214 | the loop's strict `<` keeps the first candidate at the least cost: everything before it costs more and nothing after costs less |
| Selection.FirstMinSnoc | backend/core/dual_verification.py:213-214 | one more candidate replaces the best so far exactly when it costs strictly less |
| Panorama.PlacePooled | backend/ai/grok_client.py:1464-1472 | placing a frame adds exactly that frame to the frames held by the clusters |
| GrokReplies.FirstClose | backend/ai/grok_client.py:415-441 | the end of the balanced object lies within the text, or is 0 |
| Safety.AbortFlag.constructor | backend/drone/safety.py:17 | the process-wide abort flag starts clear |

## Left out

- Concurrency: every thread lock, the thread pool in dual verification (modelled as the local check followed by the model check, in sequence), the tailing controller's rotation threads (modelled as a queue of requested rotations), and the asynchronous inference engine.
- The process-wide abort flag is a `threading.Event`; here it is a boolean field or parameter.
- Clocks: `time.time`, `datetime` and the sleeping in `smart_sleep`. Its abort check is modelled in the vision tools as each step's `waitAborted` input. Time is a `now` parameter where it decides something (tailing), and recorder durations and message timestamps are left out. The millisecond clock in chat message ids is a parameter.
- Network and model calls (chat, image analysis, clearance analysis, the panorama request, person descriptions): their replies are inputs.
- DualVerification.Verify: the model judge's call into the vision client is an arbitrary reply, because the keyword argument it passes is not accepted by the client and the real call always raises; its reply parser is modelled on its own.
- Floating point: the Euclidean norm and `exp` of the face library become an abstract distance between embeddings; confidences and normalised boxes are exact reals.
- FaceRecognition.CompareEmbeddings: the similarity of two non-empty embeddings is a parameter; only the empty-input case is fixed.
- ImageProcessor.CreateThumbnail: `int(h * max / w)` is computed exactly on integers, so float rounding of the ratio is not modelled.
- Image data: decoding, resizing, colour enhancement, frame annotation, saving and `process_async` in the image processor; only sizes and boxes are modelled, and missing box keys are not.
- Face detection itself: the face locations and encodings of an image are inputs to `extract_all_faces`.
- Memory.DroneMemory.UpdatePosition: the planar offset of a forward, back, left or right move comes from trigonometry on the heading, so it is a parameter.
- Memory: session directories and timestamps of conversation turns.
- Controller: connect, disconnect, status and battery reads, `get_distance_from_home` (a square root) and transport failures of the flight commands. A failed landing is the one hardware failure modelled, as the `landFails` parameter.
- Controller.CorrectedReturn: the corrected return plan does not check the 200 cm height ceiling on its moves.
- Targets: saving and loading, photo copying, `add_photos`, `add_photo_from_bytes` and `save_matched_photo` are file I/O. The fuzzy name match asks the language model, so its proposal is an input.
- Targets.TargetManager.UpdateTarget: only string-valued attributes are modelled as keyword arguments.
- Targets.FromDict: a field of the wrong type gives no target instead of a Python object holding that value.
- Recorder: video files, thumbnails written to disk, durations, and listing and deleting sessions. The lock is modelled only where it decides the outcome, the deadlock of `record_target_found`.
- Safety executor: running the code (`exec`) and its sleep helper; the syntax check is an input.
- Helpers.ResultLine: a value that is not a string is rendered by a `show` parameter standing for Python's `str`.
- Text: upper and lower case are ASCII-only; Unicode case mapping is not modelled. Whitespace for `strip` is the fixed list of characters for which Python's `str.isspace()` holds.
- MemoryTools.RememberPerson: an exception raised during the checks themselves (capturing the frame, extracting faces) is not modelled; one raised while saving the photo, adding the target or removing the temporary file is.
- Chat messages: the builders that only fill a template and use no phrase counter (user, takeoff, landing, object found, success, error, navigation, memory recall, named entity, return home, system), the image and entity links of a survivor message, and `to_dict`.
- Focused search: the percentage text of the confidence, which is a rendering parameter.
- VisionTools.NumSteps: a rotation step of zero raises `ZeroDivisionError` in Python; the tool result carries that error's message.
- Panorama: `_repair_json` (a chain of regular-expression substitutions) and the JSON decoding of the reply.
- Tools outside the modelled files' core: the quick safety check, quick look, look, analyse, land and hover tools, and the system tools.
- Video capture, the web server and its routes, logging, the keyboard listener and the hardware stand-ins.

## Findings

| source | as written | input that shows it | evidently intended | confidence | as-written member | corrected member |
|---|---|---|---|---|---|---|
| backend/ai/grok_client.py:1503-1514 | the direction of a person is the plain mean of frame numbers 1..8 | frames [1, 8]: both face ahead, the mean 4.5 says "behind_me" | frames on either side of frame 1 average around the ring; the modelled split (`SplitPiece`) keeps the plain mean, as the code does | medium, not executed | Panorama.WrapAroundMeanIsBehind | Panorama.RingDirectionUnanimous |
| backend/core/dual_verification.py:208-213 | `compare_embeddings` (a similarity, 1.0 for identical faces) is compared as a distance, matching below 0.5 | the target's own stored face (similarity 1.0) is rejected; a face with similarity 0.1 is accepted | a distance, 0 for identical faces, so the stored face matches with full confidence | high, not executed | DualVerification.SimilarityReadAsDistance | DualVerification.IdenticalFaceMatches |
| backend/drone/controller.py:415-448 | height is corrected by one move of at most 100 cm, and a remainder under 20 cm is flown as 20 cm | dead-reckoned position (110, 0, 150) ends at (-10, 0, 50) | the drone lands where it took off | high, not executed | Controller.ReturnHomeMissesHome | Controller.CorrectedReturnReachesHome |
| backend/core/image_processor.py:178-188 | the shorter side is scaled and truncated, and may reach 0 | a 1 by 1000 image with maximum 150 asks for 0 by 150; the resize is refused and the 1000-pixel image comes back | both sides at most the maximum and at least one pixel | medium, not executed | ImageProcessor.ThinImageThumbnailTooLarge | ImageProcessor.FittedThumbnailFits |
| backend/drone/recorder.py:207-267 | `record_target_found` holds the recorder's non-reentrant lock and, with a frame and a session directory, calls `save_thumbnail`, which takes the same lock again | the person search finding its target while a session is recording: `_handle_found` passes the frame and never returns | the find is recorded with its thumbnail and the search reports it | high, not executed | Recorder.FindWhileRecordingDeadlocks | Recorder.SessionRecorder.RecordTargetFoundUnlocked |

=== FILE: chat_generator.dfy ===
/**
 * The chat-message generator: numbered message ids, phrase cycling per
 * category, and the wording of the status messages the drone posts while
 * it works. The millisecond clock in each id is a parameter.
 */
module ChatGenerator {
  import opened Wrappers
  import Text

  datatype MessageType = User | Thinking | Action | Observation | Success | Error | Memory | Clarification | System

  datatype ChatMessage = ChatMessage(id: string, content: string, messageType: MessageType, toolName: Option<string>)

  datatype Category = Scanning | Found | Moving

  /** The phrases each category cycles through. */
  function Phrases(c: Category): (ps: seq<string>)
    ensures |ps| > 0
  {
    match c
    case Scanning => ["Scanning ahead...", "Checking this direction...", "Searching...", "Looking around...", "Surveying the area..."]
    case Found => ["Survivor found!", "I see someone!", "Found a person!", "Contact! I've spotted someone!"]
    case Moving => ["Moving in...", "On my way...", "Heading there now...", "Flying over..."]
  }

  /** The id of the `n`-th message created at `millis`. */
  function MessageId(n: nat, millis: int): string
  {
    "msg_" + Text.NatToString(n) + "_" + Text.IntToString(millis)
  }

  /** Two digit strings followed by an underscore: different digits give different texts. */
  lemma DigitsThenUnderscore(a: string, b: string, x: string, y: string)
    requires forall i | 0 <= i < |a| :: Text.IsDigit(a[i])
    requires forall i | 0 <= i < |b| :: Text.IsDigit(b[i])
    requires a != b
    ensures a + "_" + x != b + "_" + y
  {
    var s, t := a + "_" + x, b + "_" + y;
    if |a| < |b| {
      assert s[|a|] == '_' && t[|a|] == b[|a|];
    } else if |b| < |a| {
      assert t[|b|] == '_' && s[|b|] == a[|b|];
    } else {
      assert s[..|a|] == a && t[..|b|] == b;
    }
  }

  /** Messages with different counters have different ids, whatever the clock says. */
  lemma MessageIdsDistinct(m: nat, n: nat, t1: int, t2: int)
    requires m != n
    ensures MessageId(m, t1) != MessageId(n, t2)
  {
    var a, b := Text.NatToString(m), Text.NatToString(n);
    var x, y := Text.IntToString(t1), Text.IntToString(t2);
    Text.NatToStringInjective(m, n);
    DigitsThenUnderscore(a, b, x, y);
    assert MessageId(m, t1) == "msg_" + (a + "_" + x);
    assert MessageId(n, t2) == "msg_" + (b + "_" + y);
    assert MessageId(m, t1)[4..] == a + "_" + x;
    assert MessageId(n, t2)[4..] == b + "_" + y;
  }

  /** The phrase handed out on the `k`-th request of a category. */
  function PhraseAt(c: Category, k: nat): (p: string)
    ensures p in Phrases(c)
  {
    Phrases(c)[k % |Phrases(c)|]
  }

  /** Counting on by a whole list length comes back to the same place; counting on by one moves to the next place, wrapping at the end. */
  lemma ModNext(k: nat, n: nat)
    requires n == 4 || n == 5
    ensures (k + n) % n == k % n
    ensures (k + 1) % n == if k % n + 1 == n then 0 else k % n + 1
  {
    if n == 4 {
      assert (k + 4) % 4 == k % 4;
    } else {
      assert (k + 5) % 5 == k % 5;
    }
  }

  /** No phrase appears twice in its category's list. */
  lemma PhrasesDistinct(c: Category, i: int, j: int)
    requires 0 <= i < |Phrases(c)| && 0 <= j < |Phrases(c)| && i != j
    ensures Phrases(c)[i] != Phrases(c)[j]
  {
  }

  /** Phrases repeat with the period of their category's list, and consecutive requests differ. */
  lemma PhrasesCycle(c: Category, k: nat)
    ensures PhraseAt(c, k + |Phrases(c)|) == PhraseAt(c, k)
    ensures PhraseAt(c, k + 1) != PhraseAt(c, k)
  {
    var n := |Phrases(c)|;
    ModNext(k, n);
    PhrasesDistinct(c, k % n, (k + 1) % n);
  }

  /** `thinking`: a context, when one is given and non-empty, is quoted; otherwise a stock phrase. */
  function ThinkingContent(context: Option<string>): (r: string)
    ensures context.Some? && context.value != [] ==> r == "Processing: " + context.value + "..."
    ensures context.None? || context.value == [] ==> r == "Let me think about that..."
  {
    if context.Some? && context.value != [] then "Processing: " + context.value + "..." else "Let me think about that..."
  }

  /** `rotating`: only a positive angle is a right turn. */
  function RotatingContent(degrees: int): (r: string)
    ensures r == "Turning right..." <==> degrees > 0
    ensures r == "Turning left..." <==> degrees <= 0
  {
    if degrees > 0 then "Turning right..." else "Turning left..."
  }

  /** `scanning`: the cycled phrase, followed by the direction in parentheses when there is one. */
  function ScanningContent(base: string, direction: Option<string>): (r: string)
    ensures direction.Some? && direction.value != [] ==> r == base + " (" + direction.value + ")"
    ensures direction.None? || direction.value == [] ==> r == base
  {
    if direction.Some? && direction.value != [] then base + " (" + direction.value + ")" else base
  }

  /** The sentence about people in a scene: none for zero (or fewer), singular for one. */
  function PeopleClause(peopleCount: int): (r: seq<string>)
    ensures |r| <= 1
    ensures r == [] <==> peopleCount <= 0
    ensures peopleCount == 1 ==> r == ["I see one person."]
    ensures peopleCount > 1 ==> r == ["I see " + Text.IntToString(peopleCount) + " people."]
  {
    if peopleCount <= 0 then []
    else if peopleCount == 1 then ["I see one person."]
    else ["I see " + Text.IntToString(peopleCount) + " people."]
  }

  /** `scene_observation`'s sentences: the description, the people clause, and at most three objects. */
  function SceneParts(description: string, peopleCount: int, objects: seq<string>): (parts: seq<string>)
    ensures |parts| == 1 + |PeopleClause(peopleCount)| + (if objects == [] then 0 else 1)
    ensures parts[0] == description
    ensures objects != [] ==>
              parts[|parts| - 1] == "Also visible: " + Text.Join(if |objects| > 3 then objects[..3] else objects, ", ")
  {
    var shown := if |objects| > 3 then objects[..3] else objects;
    [description] + PeopleClause(peopleCount) + (if objects == [] then [] else ["Also visible: " + Text.Join(shown, ", ")])
  }

  function SceneContent(description: string, peopleCount: int, objects: seq<string>): string
  {
    Text.Join(SceneParts(description, peopleCount, objects), " ")
  }

  /** `clarification`: the options, when any, follow the question joined by " or ". */
  function ClarificationContent(question: string, options: seq<string>): (r: string)
    ensures options == [] ==> r == question
    ensures options != [] ==> r == question + " (" + Text.Join(options, " or ") + ")"
  {
    if options == [] then question else question + " (" + Text.Join(options, " or ") + ")"
  }

  /** The clauses of `search_complete`. */
  function SummaryParts(survivors: int, objects: int): (parts: seq<string>)
    ensures parts == [] <==> survivors <= 0 && objects <= 0
    ensures survivors == 1 ==> parts[0] == "1 survivor found"
    ensures survivors > 1 ==> parts[0] == Text.IntToString(survivors) + " survivors found"
    ensures objects > 0 ==> parts[|parts| - 1] == Text.IntToString(objects) + " objects noted"
  {
    (if survivors <= 0 then []
     else if survivors == 1 then ["1 survivor found"]
     else [Text.IntToString(survivors) + " survivors found"])
    + (if objects > 0 then [Text.IntToString(objects) + " objects noted"] else [])
  }

  /** `search_complete`: the clauses joined, or the all-clear when nothing was found. */
  function SearchCompleteContent(survivors: int, objects: int): (r: string)
    ensures r == "Search complete. Area appears clear." <==> survivors <= 0 && objects <= 0
  {
    var parts := SummaryParts(survivors, objects);
    if parts != [] then "Search complete! " + Text.Join(parts, ", ") + " and marked."
    else "Search complete. Area appears clear."
  }

  /** `moving`: the phrase, then the direction and the distance in centimetres in brackets. */
  function MovingContent(base: string, direction: string, distance: int): string
  {
    base + " (" + direction + " " + Text.IntToString(distance) + "cm)"
  }

  class Generator {
    /** How many messages have been created. */
    var messageCounter: nat
    /** How often each category has handed out a phrase. */
    var phraseCounters: map<Category, nat>

    constructor()
      ensures messageCounter == 0 && phraseCounters == map[Scanning := 0, Found := 0, Moving := 0]
    {
      messageCounter := 0;
      phraseCounters := map[Scanning := 0, Found := 0, Moving := 0];
    }

    function Used(c: Category): nat
      reads this
    {
      if c in phraseCounters then phraseCounters[c] else 0
    }

    /** `_next_id`: the counter goes up by one and names the message. */
    method NextId(millis: int) returns (id: string)
      modifies this`messageCounter
      ensures messageCounter == old(messageCounter) + 1
      ensures id == MessageId(messageCounter, millis)
    {
      messageCounter := messageCounter + 1;
      id := MessageId(messageCounter, millis);
    }

    /** `_get_phrase`: the next phrase of the category; only that category's counter moves. */
    method GetPhrase(c: Category) returns (p: string)
      modifies this`phraseCounters
      ensures p == PhraseAt(c, old(Used(c)))
      ensures phraseCounters == old(phraseCounters)[c := old(Used(c)) + 1]
    {
      var idx := Used(c);
      p := Phrases(c)[idx % |Phrases(c)|];
      phraseCounters := phraseCounters[c := idx + 1];
    }

    method ThinkingMessage(context: Option<string>, millis: int) returns (m: ChatMessage)
      modifies this`messageCounter
      ensures messageCounter == old(messageCounter) + 1
      ensures m == ChatMessage(MessageId(messageCounter, millis), ThinkingContent(context), Thinking, None)
    {
      var id := NextId(millis);
      m := ChatMessage(id, ThinkingContent(context), Thinking, None);
    }

    method ScanningMessage(direction: Option<string>, millis: int) returns (m: ChatMessage)
      modifies this`messageCounter, this`phraseCounters
      ensures messageCounter == old(messageCounter) + 1
      ensures phraseCounters == old(phraseCounters)[Scanning := old(Used(Scanning)) + 1]
      ensures m == ChatMessage(MessageId(messageCounter, millis),
                               ScanningContent(PhraseAt(Scanning, old(Used(Scanning))), direction), Action, Some("look"))
    {
      var base := GetPhrase(Scanning);
      var id := NextId(millis);
      m := ChatMessage(id, ScanningContent(base, direction), Action, Some("look"));
    }

    method RotatingMessage(degrees: int, millis: int) returns (m: ChatMessage)
      modifies this`messageCounter
      ensures messageCounter == old(messageCounter) + 1
      ensures m == ChatMessage(MessageId(messageCounter, millis), RotatingContent(degrees), Action, Some("rotate"))
    {
      var id := NextId(millis);
      m := ChatMessage(id, RotatingContent(degrees), Action, Some("rotate"));
    }

    /** `moving`: the next moving phrase, followed by the direction and distance in centimetres. */
    method MovingMessage(direction: string, distance: int, millis: int) returns (m: ChatMessage)
      modifies this`messageCounter, this`phraseCounters
      ensures messageCounter == old(messageCounter) + 1
      ensures phraseCounters == old(phraseCounters)[Moving := old(Used(Moving)) + 1]
      ensures m == ChatMessage(MessageId(messageCounter, millis),
                               MovingContent(PhraseAt(Moving, old(Used(Moving))), direction, distance),
                               Action, Some("move"))
    {
      var base := GetPhrase(Moving);
      var id := NextId(millis);
      m := ChatMessage(id, MovingContent(base, direction, distance), Action, Some("move"));
    }

    /**
     * `survivor_found`: the next found phrase, then what was seen, where,
     * and how far away. The image and entity links are not modelled.
     */
    method SurvivorFound(description: string, direction: string, distanceCm: int, millis: int) returns (m: ChatMessage)
      modifies this`messageCounter, this`phraseCounters
      ensures messageCounter == old(messageCounter) + 1
      ensures phraseCounters == old(phraseCounters)[Found := old(Used(Found)) + 1]
      ensures m == ChatMessage(MessageId(messageCounter, millis),
                               PhraseAt(Found, old(Used(Found))) + " " + description + ", " + direction
                                 + ", about " + Text.IntToString(distanceCm) + "cm away.",
                               Observation, Some("search"))
    {
      var base := GetPhrase(Found);
      var id := NextId(millis);
      m := ChatMessage(id, base + " " + description + ", " + direction + ", about " + Text.IntToString(distanceCm) + "cm away.",
                       Observation, Some("search"));
    }

    method SceneObservation(description: string, peopleCount: int, objects: seq<string>, millis: int)
      returns (m: ChatMessage)
      modifies this`messageCounter
      ensures messageCounter == old(messageCounter) + 1
      ensures m == ChatMessage(MessageId(messageCounter, millis), SceneContent(description, peopleCount, objects),
                               Observation, None)
    {
      var id := NextId(millis);
      m := ChatMessage(id, SceneContent(description, peopleCount, objects), Observation, None);
    }

    method ClarificationMessage(question: string, options: seq<string>, millis: int) returns (m: ChatMessage)
      modifies this`messageCounter
      ensures messageCounter == old(messageCounter) + 1
      ensures m == ChatMessage(MessageId(messageCounter, millis), ClarificationContent(question, options),
                               Clarification, None)
    {
      var id := NextId(millis);
      m := ChatMessage(id, ClarificationContent(question, options), Clarification, None);
    }

    method SearchComplete(survivors: int, objects: int, millis: int) returns (m: ChatMessage)
      modifies this`messageCounter
      ensures messageCounter == old(messageCounter) + 1
      ensures m == ChatMessage(MessageId(messageCounter, millis), SearchCompleteContent(survivors, objects),
                               Success, None)
    {
      var id := NextId(millis);
      m := ChatMessage(id, SearchCompleteContent(survivors, objects), Success, None);
    }
  }

  lemma SuffixCancels(a: string, b: string, tail: string)
    requires a != b
    ensures a + tail != b + tail
  {
    if |a| == |b| {
      var i :| 0 <= i < |a| && a[i] != b[i];
      assert (a + tail)[i] == a[i];
      assert (b + tail)[i] == b[i];
    }
  }

  /** Different phrases give different `moving` texts for the same move. */
  lemma MovingContentDiffers(a: string, b: string, direction: string, distance: int)
    requires a != b
    ensures MovingContent(a, direction, distance) != MovingContent(b, direction, distance)
  {
    var tail := " (" + direction + " " + Text.IntToString(distance) + "cm)";
    assert MovingContent(a, direction, distance) == a + tail;
    assert MovingContent(b, direction, distance) == b + tail;
    SuffixCancels(a, b, tail);
  }

  /** Two moves announced in a row are worded differently, while the scanning phrases stay where they were. */
  method TwoMoves(g: Generator, direction: string, distance: int, millis: int)
    returns (first: ChatMessage, second: ChatMessage)
    modifies g`messageCounter, g`phraseCounters
    ensures first.content != second.content
    ensures g.Used(Scanning) == old(g.Used(Scanning))
  {
    var k := g.Used(Moving);
    first := g.MovingMessage(direction, distance, millis);
    second := g.MovingMessage(direction, distance, millis);
    PhrasesCycle(Moving, k);
    MovingContentDiffers(PhraseAt(Moving, k), PhraseAt(Moving, k + 1), direction, distance);
  }

  /** Two messages made one after the other carry different ids, even at the same millisecond. */
  method TwoMessages(g: Generator, millis: int) returns (first: string, second: string)
    modifies g`messageCounter
    ensures first != second
    ensures g.messageCounter == old(g.messageCounter) + 2
  {
    first := g.NextId(millis);
    second := g.NextId(millis);
    MessageIdsDistinct(g.messageCounter - 1, g.messageCounter, millis, millis);
  }
}

=== FILE: controller.dfy ===
/**
 * The high-level flight controller: state guards in front of every command,
 * move distances clamped to the safe range, the height ceiling, dead
 * reckoning of the position relative to take-off, and the return-home
 * manoeuvre built out of chunked moves.
 *
 * The vehicle itself is reduced to the log of commands sent to it, and the
 * event bus to the log of event names published (every payload is empty).
 */
module Controller {
  import opened Wrappers
  import opened VehicleState
  import opened Settings
  import Text
  import Safety

  /** Dead-reckoned position in centimetres: +x forward, +y right, +z up. */
  datatype Position = Position(x: int, y: int, z: int)

  const Origin: Position := Position(0, 0, 0)

  /** A command sent to the vehicle. */
  datatype Command =
    | TakeoffCmd
    | LandCmd
    | MoveCmd(direction: string, cm: int)
    | RotateClockwise(degrees: int)
    | RotateCounterClockwise(degrees: int)
    | FlipCmd(direction: string)
    | Halt        // all four stick channels set to zero
    | MotorStop   // immediate motor cut-off

  /** The exceptions the controller raises: a safety violation or a bad argument. */
  datatype Failure = SafetyViolation(message: string) | InvalidValue(message: string)

  const CannotRotate: string := "Cannot rotate in current state"

  function Abs(n: int): nat
  {
    if n < 0 then -n else n
  }

  function Min100(n: nat): nat
  {
    if n < 100 then n else 100
  }

  // ------------------------------------------------------------------ moves

  /** `max(MIN_MOVE_DISTANCE, min(distance, MAX_MOVE_DISTANCE))`. */
  function ClampDistance(d: int): (r: int)
    ensures MinMoveDistance <= r <= MaxMoveDistance
    ensures MinMoveDistance <= d <= MaxMoveDistance ==> r == d
    ensures d < MinMoveDistance ==> r == MinMoveDistance
    ensures d > MaxMoveDistance ==> r == MaxMoveDistance
  {
    if d < MinMoveDistance then MinMoveDistance
    else if d > MaxMoveDistance then MaxMoveDistance
    else d
  }

  predicate IsDirection(d: string)
  {
    d == "forward" || d == "back" || d == "left" || d == "right" || d == "up" || d == "down"
  }

  predicate IsFlipDirection(d: string)
  {
    d == "forward" || d == "back" || d == "left" || d == "right"
  }

  function Opposite(d: string): string
  {
    match d
    case "forward" => "back"
    case "back" => "forward"
    case "left" => "right"
    case "right" => "left"
    case "up" => "down"
    case "down" => "up"
    case _ => d
  }

  /** The position after travelling `cm` in `direction`; an unknown direction goes nowhere. */
  function Moved(p: Position, direction: string, cm: int): (r: Position)
    ensures !IsDirection(direction) ==> r == p
  {
    if direction == "forward" then p.(x := p.x + cm)
    else if direction == "back" then p.(x := p.x - cm)
    else if direction == "left" then p.(y := p.y - cm)
    else if direction == "right" then p.(y := p.y + cm)
    else if direction == "up" then p.(z := p.z + cm)
    else if direction == "down" then p.(z := p.z - cm)
    else p
  }

  /** A move changes exactly one coordinate, by exactly the distance travelled. */
  lemma MovedOneAxis(p: Position, direction: string, cm: int)
    requires IsDirection(direction)
    ensures var r := Moved(p, direction, cm);
            (if r.x != p.x then 1 else 0) + (if r.y != p.y then 1 else 0) + (if r.z != p.z then 1 else 0) <= 1
    ensures var r := Moved(p, direction, cm);
            Abs(r.x - p.x) + Abs(r.y - p.y) + Abs(r.z - p.z) == Abs(cm)
  {
  }

  /** The same distance in the opposite direction undoes a move. */
  lemma MovedUndone(p: Position, direction: string, cm: int)
    requires IsDirection(direction)
    ensures Moved(Moved(p, direction, cm), Opposite(direction), cm) == p
  {
  }

  /** Two moves in one direction add up. */
  lemma MovedAdditive(p: Position, direction: string, a: int, b: int)
    ensures Moved(Moved(p, direction, a), direction, b) == Moved(p, direction, a + b)
  {
  }

  /** The message of the refusal to move when the vehicle does not accept commands. */
  function BlockedMessage(s: DroneState): string
  {
    if s == Connected then "Cannot move: Drone is on the ground. Call 'takeoff' first to launch the drone."
    else "Cannot move in current state: " + s.Name()
  }

  const HeightMessage: string := "Would exceed max height of " + Text.IntToString(MaxHeightCm) + "cm"

  /** What one `move` call does: its exception, the state and position after it, the commands sent. */
  datatype MoveStep = MoveStep(error: Option<Failure>, state: DroneState, position: Position, sent: seq<Command>)

  function MoveSpec(s: DroneState, p: Position, direction: string, distance: int, height: int): (r: MoveStep)
    ensures r.error.None? <==>
              && Flying(s)
              && IsDirection(direction)
              && !(direction == "up" && height + ClampDistance(distance) > MaxHeightCm)
    ensures r.error.None? ==>
              && r.state == Hovering
              && r.position == Moved(p, direction, ClampDistance(distance))
              && r.sent == [MoveCmd(direction, ClampDistance(distance))]
    ensures r.error.Some? ==> r.position == p && r.sent == []
    ensures !Flying(s) ==> r == MoveStep(Some(SafetyViolation(BlockedMessage(s))), s, p, [])
    ensures Flying(s) && direction == "up" && height + ClampDistance(distance) > MaxHeightCm ==>
              r == MoveStep(Some(SafetyViolation(HeightMessage)), s, p, [])
    ensures Flying(s) && direction != "up" && !IsDirection(direction) ==>
              && r.error == Some(InvalidValue("Invalid direction: " + direction))
              && r.state == (if s == Searching then Searching else Executing)
  {
    if !Flying(s) then MoveStep(Some(SafetyViolation(BlockedMessage(s))), s, p, [])
    else
      var cm := ClampDistance(distance);
      if direction == "up" && height + cm > MaxHeightCm then
        MoveStep(Some(SafetyViolation(HeightMessage)), s, p, [])
      else
        var executing := Decide(s, Executing, false).next;
        if !IsDirection(direction) then
          MoveStep(Some(InvalidValue("Invalid direction: " + direction)), executing, p, [])
        else
          MoveStep(None, Decide(executing, Hovering, false).next, Moved(p, direction, cm), [MoveCmd(direction, cm)])
  }

  /** A sideways or downward move of a flying vehicle always goes through and ends in HOVERING. */
  lemma MoveNotUp(s: DroneState, p: Position, direction: string, distance: int, height: int)
    requires Flying(s) && IsDirection(direction) && direction != "up"
    ensures MoveSpec(s, p, direction, distance, height)
            == MoveStep(None, Hovering, Moved(p, direction, ClampDistance(distance)), [MoveCmd(direction, ClampDistance(distance))])
  {
  }

  /** `rotate`'s command: clockwise exactly for positive degrees, always by the magnitude. */
  function RotationCommand(degrees: int): (c: Command)
    ensures c.RotateClockwise? <==> degrees > 0
    ensures c.RotateClockwise? || c.RotateCounterClockwise?
    ensures c.degrees == Abs(degrees)
  {
    if degrees > 0 then RotateClockwise(Abs(degrees)) else RotateCounterClockwise(Abs(degrees))
  }

  /**
   * `land` from a flying state asks for LANDING and then CONNECTED without
   * force; only from HOVERING does the state machine accept both, so from
   * EXECUTING or SEARCHING the recorded state stays where it was.
   */
  function LandedState(s: DroneState): DroneState
  {
    Decide(Decide(s, Landing, false).next, Connected, false).next
  }

  lemma LandOutcome(s: DroneState)
    requires Flying(s)
    ensures LandedState(s) == Connected <==> s == Hovering
    ensures s != Hovering ==> LandedState(s) == s
  {
  }

  // ------------------------------------------------------------ return home

  /**
   * The distance flown along one axis while `n` remains: the loop requests
   * min(remaining, 100), `move` clamps the request, and the request (not
   * the distance flown) is subtracted from what remains.
   */
  function ChunkTravel(n: nat): int
    decreases n
  {
    if n == 0 then 0 else ClampDistance(Min100(n)) + ChunkTravel(n - Min100(n))
  }

  /** The move commands that loop sends. */
  function ChunkCmds(direction: string, n: nat): (r: seq<Command>)
    ensures forall i | 0 <= i < |r| :: r[i].MoveCmd? && r[i].direction == direction
    decreases n
  {
    if n == 0 then [] else [MoveCmd(direction, ClampDistance(Min100(n)))] + ChunkCmds(direction, n - Min100(n))
  }

  /** The position after the loop for one axis: `decreasing` while `v > 0`, `increasing` while `v < 0`. */
  function AxisReturned(p: Position, v: int, decreasing: string, increasing: string): Position
  {
    if v > 0 then Moved(p, decreasing, ChunkTravel(v))
    else if v < 0 then Moved(p, increasing, ChunkTravel(-v))
    else p
  }

  function AxisCommands(v: int, decreasing: string, increasing: string): seq<Command>
  {
    if v > 0 then ChunkCmds(decreasing, v)
    else if v < 0 then ChunkCmds(increasing, -v)
    else []
  }

  /** The single height correction: one move of min(|dz|, 100) towards the take-off height. */
  function HeightMove(dz: int): Option<(string, nat)>
  {
    if dz > 0 then Some(("down", Min100(dz)))
    else if dz < 0 then Some(("up", Min100(-dz)))
    else None
  }

  /** Whether the height correction trips the ceiling check, given the measured height. */
  predicate HeightMoveBlocked(dz: int, height: int)
  {
    dz < 0 && height + ClampDistance(Min100(-dz)) > MaxHeightCm
  }

  /** The position after the height correction alone. */
  function AfterHeightMove(p: Position): Position
  {
    match HeightMove(p.z)
    case None => p
    case Some(m) => Moved(p, m.0, ClampDistance(m.1))
  }

  function HeightCommands(dz: int): seq<Command>
  {
    match HeightMove(dz)
    case None => []
    case Some(m) => [MoveCmd(m.0, ClampDistance(m.1))]
  }

  /** The dead-reckoned position after the three corrections, as the loops are written. */
  function ReturnedPosition(p: Position): Position
  {
    AxisReturned(AxisReturned(AfterHeightMove(p), p.x, "back", "forward"), p.y, "left", "right")
  }

  function ReturnCommands(p: Position): seq<Command>
  {
    HeightCommands(p.z) + AxisCommands(p.x, "back", "forward") + AxisCommands(p.y, "left", "right")
  }

  /** The last request of an axis loop for a positive displacement `n`. */
  function LastChunk(n: nat): nat
    requires n > 0
  {
    (n - 1) % 100 + 1
  }

  lemma {:induction false} ChunksTravel(n: nat)
    requires n > 0
    ensures ChunkTravel(n) == n - LastChunk(n) + ClampDistance(LastChunk(n))
    decreases n
  {
    if n > 100 {
      ChunksTravel(n - 100);
      assert (n - 1) % 100 == (n - 101) % 100;
    }
  }

  lemma Associative<T>(a: seq<T>, b: seq<T>, c: seq<T>)
    ensures (a + b) + c == a + (b + c)
  {
  }

  /** What is left of a displacement `v` on one axis after the loop: v minus the distance flown. */
  function AxisResidue(v: int): int
  {
    if v > 0 then v - ChunkTravel(v)
    else if v < 0 then v + ChunkTravel(-v)
    else 0
  }

  /**
   * The axis loop never misses home by a full minimum move, and it ends
   * exactly at home iff the last request is at least the minimum move,
   * i.e. iff |v| is a multiple of 100 or leaves a remainder of at least 20.
   */
  lemma AxisResidueBounds(v: int)
    ensures -MinMoveDistance < AxisResidue(v) < MinMoveDistance
    ensures v > 0 ==> AxisResidue(v) <= 0
    ensures v < 0 ==> AxisResidue(v) >= 0
    ensures AxisResidue(v) == 0 <==> Abs(v) % 100 == 0 || Abs(v) % 100 >= MinMoveDistance
  {
    if v != 0 {
      ChunksTravel(Abs(v));
      var n := Abs(v);
      assert (n % 100 == 0) <==> LastChunk(n) == 100;
      assert n % 100 != 0 ==> LastChunk(n) == n % 100;
    }
  }

  lemma ReturnedPositionResidue(p: Position)
    ensures ReturnedPosition(p).x == AxisResidue(p.x)
    ensures ReturnedPosition(p).y == AxisResidue(p.y)
    ensures ReturnedPosition(p).z == p.z - (if p.z > 0 then ClampDistance(Min100(p.z))
                                            else if p.z < 0 then -ClampDistance(Min100(-p.z))
                                            else 0)
  {
  }

  /**
   * As written, return-home does not reach home: 150 cm above take-off the
   * single height correction leaves 50 cm, and 110 cm forward the x loop
   * requests 100 and then 10, which `move` clamps to 20, ending 10 cm behind.
   */
  lemma ReturnHomeMissesHome()
    ensures ReturnedPosition(Position(110, 0, 150)) == Position(-10, 0, 50)
  {
    assert ChunkTravel(10) == 20;
    assert ChunkTravel(110) == 120;
  }

  /** A signed list of moves towards home (negative: away from it), all within the move limits. */
  function Sum(steps: seq<int>): int
  {
    if steps == [] then 0 else steps[0] + Sum(steps[1..])
  }

  predicate WithinMoveLimits(steps: seq<int>)
  {
    forall i | 0 <= i < |steps| :: MinMoveDistance <= Abs(steps[i]) <= MaxMoveDistance
  }

  /**
   * Corrected plan for closing a displacement `n` on one axis: chunks of 100
   * that never leave a remainder below the minimum move, and for a
   * displacement below the minimum a step away followed by a longer step back.
   */
  function HomeSteps(n: nat): (r: seq<int>)
    ensures WithinMoveLimits(r)
    ensures Sum(r) == n
    decreases n
  {
    if n == 0 then []
    else if n < MinMoveDistance then
      assert [-MinMoveDistance, n + MinMoveDistance][1..] == [n + MinMoveDistance];
      assert Sum([n + MinMoveDistance]) == n + MinMoveDistance;
      [-MinMoveDistance, n + MinMoveDistance]
    else if n <= MaxMoveDistance then [n]
    else if n - MaxMoveDistance >= MinMoveDistance then
      var rest := HomeSteps(n - MaxMoveDistance);
      assert ([MaxMoveDistance] + rest)[1..] == rest;
      [MaxMoveDistance] + rest
    else
      assert [n - MinMoveDistance, MinMoveDistance][1..] == [MinMoveDistance];
      assert Sum([MinMoveDistance]) == MinMoveDistance;
      [n - MinMoveDistance, MinMoveDistance]
  }

  /** Executes signed steps as clamped moves: non-negative ones towards `toward`, negative ones away. */
  function Replayed(p: Position, toward: string, steps: seq<int>): Position
    decreases |steps|
  {
    if steps == [] then p
    else
      var s := steps[0];
      var next := if s >= 0 then Moved(p, toward, ClampDistance(s)) else Moved(p, Opposite(toward), ClampDistance(-s));
      Replayed(next, toward, steps[1..])
  }

  lemma {:induction false} ReplayedWithinLimits(p: Position, toward: string, steps: seq<int>)
    requires IsDirection(toward)
    requires WithinMoveLimits(steps)
    ensures Replayed(p, toward, steps) == Moved(p, toward, Sum(steps))
    decreases |steps|
  {
    if steps != [] {
      var s := steps[0];
      var next := if s >= 0 then Moved(p, toward, ClampDistance(s)) else Moved(p, Opposite(toward), ClampDistance(-s));
      assert next == Moved(p, toward, s);
      ReplayedWithinLimits(next, toward, steps[1..]);
    }
  }

  /** The corrected return: height first, then x, then y, each closed with `HomeSteps`. */
  function CorrectedReturn(p: Position): Position
  {
    var afterZ := if p.z >= 0 then Replayed(p, "down", HomeSteps(p.z)) else Replayed(p, "up", HomeSteps(-p.z));
    var afterX := if p.x >= 0 then Replayed(afterZ, "back", HomeSteps(p.x))
                  else Replayed(afterZ, "forward", HomeSteps(-p.x));
    if p.y >= 0 then Replayed(afterX, "left", HomeSteps(p.y)) else Replayed(afterX, "right", HomeSteps(-p.y))
  }

  /** The corrected plan's first leg brings the height to zero. */
  lemma HeightLegHome(p: Position)
    ensures (if p.z >= 0 then Replayed(p, "down", HomeSteps(p.z)) else Replayed(p, "up", HomeSteps(-p.z)))
            == p.(z := 0)
  {
    if p.z >= 0 {
      ReplayedWithinLimits(p, "down", HomeSteps(p.z));
    } else {
      ReplayedWithinLimits(p, "up", HomeSteps(-p.z));
    }
  }

  /** The second leg brings x to zero. */
  lemma XLegHome(q: Position)
    ensures (if q.x >= 0 then Replayed(q, "back", HomeSteps(q.x)) else Replayed(q, "forward", HomeSteps(-q.x)))
            == q.(x := 0)
  {
    if q.x >= 0 {
      ReplayedWithinLimits(q, "back", HomeSteps(q.x));
    } else {
      ReplayedWithinLimits(q, "forward", HomeSteps(-q.x));
    }
  }

  /** The last leg brings y to zero. */
  lemma YLegHome(q: Position)
    ensures (if q.y >= 0 then Replayed(q, "left", HomeSteps(q.y)) else Replayed(q, "right", HomeSteps(-q.y)))
            == q.(y := 0)
  {
    if q.y >= 0 {
      ReplayedWithinLimits(q, "left", HomeSteps(q.y));
    } else {
      ReplayedWithinLimits(q, "right", HomeSteps(-q.y));
    }
  }

  /** With the corrected plan, every dead-reckoned position returns exactly to take-off. */
  lemma CorrectedReturnReachesHome(p: Position)
    ensures CorrectedReturn(p) == Origin
  {
    HeightLegHome(p);
    XLegHome(p.(z := 0));
    YLegHome(p.(z := 0).(x := 0));
  }

  // ------------------------------------------------------------- controller

  class DroneController {
    const machine: StateMachine
    const abortFlag: Safety.AbortFlag
    var takeoffPosition: Position
    var position: Position
    /** Every command sent to the vehicle, oldest first. */
    var commands: seq<Command>
    /** The name of every event published, oldest first. */
    var published: seq<string>

    constructor(abortFlag: Safety.AbortFlag)
      ensures this.abortFlag == abortFlag
      ensures fresh(machine) && machine.state == Idle && machine.observers == [] && machine.delivered == []
      ensures takeoffPosition == Origin && position == Origin
      ensures commands == [] && published == []
    {
      this.abortFlag := abortFlag;
      machine := new StateMachine(Idle);
      takeoffPosition := Origin;
      position := Origin;
      commands := [];
      published := [];
    }

    /** `get_position`: a copy of the dead-reckoned position. */
    function GetPosition(): (r: Position)
      reads this
      ensures r == position
    {
      position
    }

    /**
     * `takeoff`: nothing when already flying; refused below the battery
     * threshold; otherwise both positions are reset to the origin and
     * HOVERING is requested (which IDLE does not accept).
     */
    method Takeoff(battery: int) returns (err: Option<Failure>)
      modifies this, machine
      ensures machine.observers == old(machine.observers)
      ensures Flying(old(machine.state)) ==>
                && err == None
                && unchanged(this)
                && machine.state == old(machine.state)
      ensures !Flying(old(machine.state)) && battery < LowBatteryThreshold ==>
                && err == Some(SafetyViolation("Battery too low for takeoff: " + Text.IntToString(battery) + "%"))
                && unchanged(this)
                && machine.state == old(machine.state)
      ensures !Flying(old(machine.state)) && battery >= LowBatteryThreshold ==>
                && err == None
                && commands == old(commands) + [TakeoffCmd]
                && takeoffPosition == Origin && position == Origin
                && published == old(published) + ["drone.takeoff"]
                && machine.state == Decide(old(machine.state), Hovering, false).next
    {
      if machine.IsFlying() {
        return None;
      }
      if battery < LowBatteryThreshold {
        return Some(SafetyViolation("Battery too low for takeoff: " + Text.IntToString(battery) + "%"));
      }
      commands := commands + [TakeoffCmd];
      takeoffPosition := Origin;
      position := Origin;
      var ok := machine.TransitionTo(Hovering, false);
      published := published + ["drone.takeoff"];
      err := None;
    }

    /** `land`: nothing unless flying; otherwise LANDING, the land command, then CONNECTED. */
    method Land()
      modifies this`commands, this`published, machine
      ensures machine.observers == old(machine.observers)
      ensures position == old(position) && takeoffPosition == old(takeoffPosition)
      ensures !Flying(old(machine.state)) ==> unchanged(this) && machine.state == old(machine.state)
      ensures Flying(old(machine.state)) ==>
                && commands == old(commands) + [LandCmd]
                && published == old(published) + ["drone.land"]
                && machine.state == LandedState(old(machine.state))
    {
      if !machine.IsFlying() {
        return;
      }
      var ok := machine.TransitionTo(Landing, false);
      commands := commands + [LandCmd];
      ok := machine.TransitionTo(Connected, false);
      published := published + ["drone.land"];
    }

    /** `move`, exactly as `MoveSpec` describes it. */
    method Move(direction: string, distance: int, height: int) returns (err: Option<Failure>)
      modifies this`position, this`commands, machine
      ensures machine.observers == old(machine.observers)
      ensures var r := MoveSpec(old(machine.state), old(position), direction, distance, height);
              && err == r.error
              && machine.state == r.state
              && position == r.position
              && commands == old(commands) + r.sent
    {
      if !machine.CanExecute() {
        return Some(SafetyViolation(BlockedMessage(machine.state)));
      }
      var cm := ClampDistance(distance);
      if direction == "up" && height + cm > MaxHeightCm {
        return Some(SafetyViolation(HeightMessage));
      }
      var ok := machine.TransitionTo(Executing, false);
      if !IsDirection(direction) {
        return Some(InvalidValue("Invalid direction: " + direction));
      }
      commands := commands + [MoveCmd(direction, cm)];
      position := Moved(position, direction, cm);
      ok := machine.TransitionTo(Hovering, false);
      err := None;
    }

    /** `rotate`: refused unless flying; otherwise the rotation command and back to HOVERING. */
    method Rotate(degrees: int) returns (err: Option<Failure>)
      modifies this`commands, machine
      ensures machine.observers == old(machine.observers)
      ensures !Flying(old(machine.state)) ==>
                && err == Some(SafetyViolation(CannotRotate))
                && commands == old(commands)
                && machine.state == old(machine.state)
      ensures Flying(old(machine.state)) ==>
                && err == None
                && commands == old(commands) + [RotationCommand(degrees)]
                && machine.state == Hovering
    {
      if !machine.CanExecute() {
        return Some(SafetyViolation(CannotRotate));
      }
      var ok := machine.TransitionTo(Executing, false);
      commands := commands + [RotationCommand(degrees)];
      ok := machine.TransitionTo(Hovering, false);
      err := None;
    }

    /** `flip`: the direction is checked before EXECUTING is requested. */
    method Flip(direction: string) returns (err: Option<Failure>)
      modifies this`commands, machine
      ensures machine.observers == old(machine.observers)
      ensures !Flying(old(machine.state)) ==>
                && err == Some(SafetyViolation("Cannot flip in current state"))
                && commands == old(commands)
                && machine.state == old(machine.state)
      ensures Flying(old(machine.state)) && !IsFlipDirection(direction) ==>
                && err == Some(InvalidValue("Invalid flip direction: " + direction))
                && commands == old(commands)
                && machine.state == old(machine.state)
      ensures Flying(old(machine.state)) && IsFlipDirection(direction) ==>
                && err == None
                && commands == old(commands) + [FlipCmd(direction)]
                && machine.state == Hovering
    {
      if !machine.CanExecute() {
        return Some(SafetyViolation("Cannot flip in current state"));
      }
      if !IsFlipDirection(direction) {
        return Some(InvalidValue("Invalid flip direction: " + direction));
      }
      var ok := machine.TransitionTo(Executing, false);
      commands := commands + [FlipCmd(direction)];
      ok := machine.TransitionTo(Hovering, false);
      err := None;
    }

    /** `hover`: stop the sticks; back to HOVERING only when commands are accepted. */
    method Hover()
      modifies this`commands, machine
      ensures machine.observers == old(machine.observers)
      ensures commands == old(commands) + [Halt]
      ensures machine.state == (if Flying(old(machine.state)) then Hovering else old(machine.state))
    {
      commands := commands + [Halt];
      if machine.CanExecute() {
        var ok := machine.TransitionTo(Hovering, false);
      }
    }

    /** `emergency_stop`: sets the abort flag, forces EMERGENCY and stops the sticks. */
    method EmergencyStop()
      modifies this`commands, this`published, machine, abortFlag
      ensures machine.observers == old(machine.observers)
      ensures abortFlag.isSet
      ensures machine.state == Emergency
      ensures commands == old(commands) + [Halt]
      ensures published == old(published) + ["emergency_stop"]
    {
      abortFlag.Set();
      var ok := machine.TransitionTo(Emergency, true);
      commands := commands + [Halt];
      published := published + ["emergency_stop"];
    }

    /**
     * `emergency_land`: sets the abort flag and forces LANDING; when the land
     * command goes through the state becomes CONNECTED, and when it fails
     * the motors are cut instead.
     */
    method EmergencyLand(landFails: bool)
      modifies this`commands, this`published, machine, abortFlag
      ensures machine.observers == old(machine.observers)
      ensures abortFlag.isSet
      ensures !landFails ==>
                && machine.state == Connected
                && commands == old(commands) + [LandCmd]
                && published == old(published) + ["emergency_land"]
      ensures landFails ==>
                && machine.state == Landing
                && commands == old(commands) + [LandCmd, MotorStop]
                && published == old(published)
    {
      abortFlag.Set();
      var ok := machine.TransitionTo(Landing, true);
      commands := commands + [LandCmd];
      if !landFails {
        ok := machine.TransitionTo(Connected, false);
        published := published + ["emergency_land"];
      } else {
        commands := commands + [MotorStop];
      }
    }

    /** One axis of `return_home_and_land`: chunked moves until the recorded displacement is used up. */
    method ReturnAxis(v: int, decreasing: string, increasing: string)
      requires IsDirection(decreasing) && decreasing != "up"
      requires IsDirection(increasing) && increasing != "up"
      requires Flying(machine.state)
      modifies this`position, this`commands, machine
      ensures machine.observers == old(machine.observers)
      ensures machine.state == (if v == 0 then old(machine.state) else Hovering)
      ensures position == AxisReturned(old(position), v, decreasing, increasing)
      ensures commands == old(commands) + AxisCommands(v, decreasing, increasing)
    {
      if v > 0 {
        ChunkLoop(v, decreasing);
      } else if v < 0 {
        ChunkLoop(-v, increasing);
      }
    }

    method ChunkLoop(n: nat, direction: string)
      requires IsDirection(direction) && direction != "up"
      requires Flying(machine.state)
      requires n > 0
      modifies this`position, this`commands, machine
      ensures machine.observers == old(machine.observers)
      ensures machine.state == Hovering
      ensures position == Moved(old(position), direction, ChunkTravel(n))
      ensures commands == old(commands) + ChunkCmds(direction, n)
    {
      var rem: nat := n;
      while rem > 0
        invariant Flying(machine.state)
        invariant rem < n ==> machine.state == Hovering
        invariant machine.observers == old(machine.observers)
        invariant position == Moved(old(position), direction, ChunkTravel(n) - ChunkTravel(rem))
        invariant commands + ChunkCmds(direction, rem) == old(commands) + ChunkCmds(direction, n)
        decreases rem
      {
        var dist := Min100(rem);
        MoveNotUp(machine.state, position, direction, dist, 0);
        ghost var sentBefore := commands;
        var err := Move(direction, dist, 0);
        Associative(sentBefore, [MoveCmd(direction, ClampDistance(dist))], ChunkCmds(direction, rem - dist));
        MovedAdditive(old(position), direction, ChunkTravel(n) - ChunkTravel(rem), ClampDistance(dist));
        rem := rem - dist;
      }
    }

    /** The x loop and then the y loop of `return_home_and_land`. */
    method ReturnAxes(x: int, y: int)
      requires Flying(machine.state)
      modifies this`position, this`commands, machine
      ensures machine.observers == old(machine.observers)
      ensures machine.state == (if x == 0 && y == 0 then old(machine.state) else Hovering)
      ensures position == AxisReturned(AxisReturned(old(position), x, "back", "forward"), y, "left", "right")
      ensures commands == old(commands) + (AxisCommands(x, "back", "forward") + AxisCommands(y, "left", "right"))
    {
      ReturnAxis(x, "back", "forward");
      ReturnAxis(y, "left", "right");
    }

    /** The height correction of `return_home_and_land`; `blocked` when it trips the ceiling. */
    method CorrectHeight(height: int) returns (blocked: bool)
      requires Flying(machine.state)
      modifies this`position, this`commands, machine
      ensures machine.observers == old(machine.observers)
      ensures blocked == HeightMoveBlocked(old(position).z, height)
      ensures blocked ==>
                && position == old(position) && commands == old(commands)
                && machine.state == old(machine.state)
      ensures !blocked ==>
                && position == AfterHeightMove(old(position))
                && commands == old(commands) + HeightCommands(old(position).z)
                && machine.state == (if old(position).z == 0 then old(machine.state) else Hovering)
    {
      var dz := position.z;
      if dz > 0 {
        var err := Move("down", Min100(dz), height);
        blocked := false;
      } else if dz < 0 {
        var err := Move("up", Min100(-dz), height);
        blocked := err.Some?;
      } else {
        blocked := false;
      }
    }

    /**
     * `return_home_and_land`: nothing unless flying; one height correction,
     * then the x and y loops over the displacement recorded at the start,
     * then `land`. When the height correction trips the ceiling the
     * exception is caught and an emergency landing follows instead.
     */
    method ReturnHomeAndLand(height: int, landFails: bool)
      modifies this`position, this`commands, this`published, machine, abortFlag
      ensures machine.observers == old(machine.observers)
      ensures !Flying(old(machine.state)) ==>
                && position == old(position) && commands == old(commands) && published == old(published)
                && machine.state == old(machine.state) && abortFlag.isSet == old(abortFlag.isSet)
      ensures Flying(old(machine.state)) && HeightMoveBlocked(old(position).z, height) ==>
                && position == old(position)
                && abortFlag.isSet
                && commands == old(commands) + [LandCmd] + (if landFails then [MotorStop] else [])
                && published == old(published) + (if landFails then [] else ["emergency_land"])
                && machine.state == (if landFails then Landing else Connected)
      ensures Flying(old(machine.state)) && !HeightMoveBlocked(old(position).z, height) ==>
                && position == ReturnedPosition(old(position))
                && commands == old(commands) + ReturnCommands(old(position)) + [LandCmd]
                && published == old(published) + ["drone.land", "return_home_complete"]
                && abortFlag.isSet == old(abortFlag.isSet)
                && machine.state == (if old(position) != Origin then Connected else LandedState(old(machine.state)))
    {
      if !machine.IsFlying() {
        return;
      }
      var p := position;
      var blocked := CorrectHeight(height);
      if blocked {
        EmergencyLand(landFails);
        return;
      }
      ReturnAxes(p.x, p.y);
      assert commands == old(commands) + ReturnCommands(p);
      assert p != Origin || old(machine.state) == Hovering ==> machine.state == Hovering;
      Land();
      published := published + ["return_home_complete"];
    }
  }
}

=== FILE: drone_tools.dfy ===
/**
 * The flight tools the language model calls: each forwards to the
 * controller and turns the outcome, or the exception the controller
 * raised, into a tool result.
 */
module DroneTools {
  import opened Wrappers
  import opened Json
  import opened ToolBase
  import opened Controller
  import opened VehicleState
  import Text

  /** The text of a raised exception, `str(e)`. */
  function ErrorText(f: Failure): string
  {
    match f
    case SafetyViolation(m) => m
    case InvalidValue(m) => m
  }

  /**
   * A controller outcome as a tool result: success with `ok`, a safety
   * violation under `blocked`, and any other exception under `failed`.
   */
  function Outcome(err: Option<Failure>, ok: ToolResult, blocked: string, failed: string): (r: ToolResult)
    requires ok.success
    ensures r.success <==> err.None?
    ensures err.None? ==> r == ok
    ensures err.Some? && err.value.SafetyViolation? ==> r == Plain(false, blocked + err.value.message)
    ensures err.Some? && err.value.InvalidValue? ==> r == Plain(false, failed + err.value.message)
  {
    match err
    case None => ok
    case Some(SafetyViolation(m)) => Plain(false, blocked + m)
    case Some(InvalidValue(m)) => Plain(false, failed + m)
  }

  function TakeoffResult(err: Option<Failure>): (r: ToolResult)
    ensures r.success <==> err.None?
    ensures r.success ==> r.data == Obj(map["height" := Num(50.0), "status" := Str("hovering")])
    ensures err.Some? && err.value.SafetyViolation? ==> r == Plain(false, "Safety check failed: " + err.value.message)
    ensures err.Some? && err.value.InvalidValue? ==> r == Plain(false, "Takeoff failed: " + err.value.message)
  {
    Outcome(err, Success("Drone is now airborne and hovering!",
                         Obj(map["height" := Num(50.0), "status" := Str("hovering")])),
            "Safety check failed: ", "Takeoff failed: ")
  }

  /** `MoveTool`: the distance reported is the one clamped into [20, 100]. */
  function MoveResult(direction: string, distance: int, err: Option<Failure>): (r: ToolResult)
    ensures r.success <==> err.None?
    ensures r.success ==> r.data == Obj(map["direction" := Str(direction), "distance" := Num(ClampDistance(distance) as real)])
    ensures r.success ==> 20.0 <= r.data.fields["distance"].n <= 100.0
    ensures err.Some? && err.value.SafetyViolation? ==> r == Plain(false, "Movement blocked: " + err.value.message)
    ensures err.Some? && err.value.InvalidValue? ==> r == Plain(false, "Movement failed: " + err.value.message)
  {
    var cm := ClampDistance(distance);
    Outcome(err, Success("Moved " + direction + " " + Text.IntToString(cm) + "cm",
                         Obj(map["direction" := Str(direction), "distance" := Num(cm as real)])),
            "Movement blocked: ", "Movement failed: ")
  }

  const RotationFailed: string := "Rotation failed: "

  /** `RotateTool`: "clockwise" exactly for a positive angle; the text gives the magnitude. Every exception is a failed rotation. */
  function RotateResult(degrees: int, err: Option<Failure>): (r: ToolResult)
    ensures r.success <==> err.None?
    ensures err.Some? ==> r == Plain(false, RotationFailed + ErrorText(err.value))
    ensures r.success ==>
              r.data == Obj(map["degrees" := Num(degrees as real),
                                "direction" := Str(if degrees > 0 then "clockwise" else "counter-clockwise")])
  {
    var direction := if degrees > 0 then "clockwise" else "counter-clockwise";
    if err.Some? then Plain(false, RotationFailed + ErrorText(err.value))
    else Success("Rotated " + Text.IntToString(Abs(degrees)) + "° " + direction,
                 Obj(map["degrees" := Num(degrees as real), "direction" := Str(direction)]))
  }

  function FlipResult(direction: string, err: Option<Failure>): (r: ToolResult)
    ensures r.success <==> err.None?
    ensures r.success ==> r.message == "Executed " + direction + " flip!"
    ensures err.Some? && err.value.SafetyViolation? ==> r == Plain(false, "Flip blocked: " + err.value.message)
    ensures err.Some? && err.value.InvalidValue? ==> r == Plain(false, "Flip failed: " + err.value.message)
  {
    Outcome(err, Success("Executed " + direction + " flip!", Obj(map["direction" := Str(direction)])),
            "Flip blocked: ", "Flip failed: ")
  }

  /** The tool clamps before the controller clamps again, so both agree on the distance flown. */
  lemma ClampTwice(d: int)
    ensures ClampDistance(ClampDistance(d)) == ClampDistance(d)
    ensures MoveSpec(Hovering, Origin, "forward", ClampDistance(d), 0).position == Position(ClampDistance(d), 0, 0)
  {
  }

  /** A rotation tool call either fails (not flying) or sends exactly the rotation its message names. */
  method RotateTool(drone: DroneController, degrees: int) returns (r: ToolResult)
    modifies drone`commands, drone.machine
    ensures drone.machine.observers == old(drone.machine.observers)
    ensures r.success <==> Flying(old(drone.machine.state))
    ensures r.success ==> drone.commands == old(drone.commands) + [RotationCommand(degrees)]
    ensures !r.success ==> r.message == RotationFailed + CannotRotate && drone.commands == old(drone.commands)
  {
    var err := drone.Rotate(degrees);
    r := RotateResult(degrees, err);
  }

  method MoveTool(drone: DroneController, direction: string, distance: int, height: int) returns (r: ToolResult)
    modifies drone`position, drone`commands, drone.machine
    ensures drone.machine.observers == old(drone.machine.observers)
    ensures var step := MoveSpec(old(drone.machine.state), old(drone.position), direction, distance, height);
            && r == MoveResult(direction, distance, step.error)
            && drone.position == step.position
            && drone.commands == old(drone.commands) + step.sent
  {
    var err := drone.Move(direction, ClampDistance(distance), height);
    r := MoveResult(direction, distance, err);
  }

  /** What the controller's `flip` raises from a state, for a direction. */
  function FlipError(s: DroneState, direction: string): (e: Option<Failure>)
    ensures e.None? <==> Flying(s) && IsFlipDirection(direction)
  {
    if !Flying(s) then Some(SafetyViolation("Cannot flip in current state"))
    else if !IsFlipDirection(direction) then Some(InvalidValue("Invalid flip direction: " + direction))
    else None
  }

  /** The flip tool blocks a grounded drone before it looks at the direction, and reports a bad direction as failed. */
  lemma FlipMessages(s: DroneState, direction: string)
    ensures !Flying(s) ==> FlipResult(direction, FlipError(s, direction)).message == "Flip blocked: " + "Cannot flip in current state"
    ensures Flying(s) && !IsFlipDirection(direction) ==>
              FlipResult(direction, FlipError(s, direction)).message == "Flip failed: " + ("Invalid flip direction: " + direction)
  {
  }

  method FlipTool(drone: DroneController, direction: string) returns (r: ToolResult)
    modifies drone`commands, drone.machine
    ensures drone.machine.observers == old(drone.machine.observers)
    ensures r == FlipResult(direction, FlipError(old(drone.machine.state), direction))
    ensures r.success ==> drone.commands == old(drone.commands) + [FlipCmd(direction)]
    ensures !r.success ==> drone.commands == old(drone.commands)
  {
    var err := drone.Flip(direction);
    r := FlipResult(direction, err);
  }

  method TakeoffTool(drone: DroneController, battery: int) returns (r: ToolResult)
    modifies drone, drone.machine
    ensures drone.machine.observers == old(drone.machine.observers)
    ensures r.success <==> Flying(old(drone.machine.state)) || battery >= Settings.LowBatteryThreshold
  {
    var err := drone.Takeoff(battery);
    r := TakeoffResult(err);
  }
}

=== FILE: dual_verification.dfy ===
/**
 * Fusion of the local face judge and the vision-model judge into a
 * high/medium/low verdict. The local judge works on an abstract distance
 * between embeddings; the vision model's reply comes in as a decoded value.
 */
module DualVerification {
  import opened Wrappers
  import opened Json
  import opened Selection
  import opened FaceRecognition

  /** Local distance below which the local judge calls a match. */
  const CvMatchThreshold: real := 0.5
  /** Local confidence above which the local judge alone yields 'medium'. */
  const CvStandAlone: real := 0.75
  /** Vision-model confidence at or above which its "is the target" answer counts. */
  const GrokConfidenceThreshold: real := 0.7

  datatype Level = High | Medium | Low
  {
    function Name(): string
    {
      match this
      case High => "high"
      case Medium => "medium"
      case Low => "low"
    }

    function Rank(): nat
    {
      match this
      case High => 2
      case Medium => 1
      case Low => 0
    }
  }

  datatype VerificationResult = VerificationResult(
    isMatch: bool,
    confidence: real,
    level: Level,
    cvMatched: bool,
    cvConfidence: real,
    grokMatched: bool,
    grokConfidence: real,
    grokDescription: Value,
    bbox: Option<Box>)

  /** What `_cv_check` returns: (is_match, confidence, detected_bbox). */
  datatype CvOutcome = CvOutcome(matched: bool, confidence: real, bbox: Option<Box>)

  /** What `_grok_check` returns: (is_match, confidence, description). */
  datatype GrokOutcome = GrokOutcome(matched: bool, confidence: real, description: Value)

  /** `a or b` on two optional boxes. */
  function OrElse(a: Option<Box>, b: Option<Box>): (r: Option<Box>)
    ensures a.Some? ==> r == a
    ensures a.None? ==> r == b
  {
    if a.Some? then a else b
  }

  function Clamp01(x: real): (r: real)
    ensures 0.0 <= r <= 1.0
    ensures 0.0 <= x <= 1.0 ==> r == x
  {
    if x < 0.0 then 0.0 else if x > 1.0 then 1.0 else x
  }

  // ------------------------------------------------------- the local judge

  /** A box found inside the crop `region`, in whole-frame fractions. */
  function Remap(region: Option<Box>, b: Box): (r: Box)
    ensures region.None? ==> r == b
    ensures region.Some? ==>
      r.x == region.value.x + b.x * region.value.width && r.width == b.width * region.value.width
  {
    match region
    case None => b
    case Some(c) => Box(c.x + b.x * c.width, c.y + b.y * c.height, b.width * c.width, b.height * c.height)
  }

  /** A box inside the unit square of a crop inside the frame stays inside the frame. */
  lemma RemapInside(c: Box, b: Box)
    requires InUnitSquare(c) && InUnitSquare(b)
    ensures InUnitSquare(Remap(Some(c), b))
  {
    ScaledInside(b.x, b.width, c.width);
    ScaledInside(b.y, b.height, c.height);
  }

  lemma ScaledInside(p: real, q: real, s: real)
    requires 0.0 <= p && 0.0 <= q && p + q <= 1.0 && 0.0 <= s
    ensures 0.0 <= p * s && 0.0 <= q * s && p * s + q * s <= s
  {
    assert p * s + q * s == (p + q) * s;
    assert (p + q) * s <= 1.0 * s;
  }

  /** The (detection, target embedding) pairs one detection contributes. */
  function DetectionRow(det: FaceDetection, targets: seq<Embedding>): (r: seq<(FaceDetection, Embedding)>)
    ensures |r| == |targets|
    ensures forall j :: 0 <= j < |r| ==> r[j] == (det, targets[j])
  {
    if targets == [] then []
    else DetectionRow(det, targets[..|targets| - 1]) + [(det, targets[|targets| - 1])]
  }

  /** Every pair the nested loops of `_cv_check` compare, in loop order. */
  function Pairs(detections: seq<FaceDetection>, targets: seq<Embedding>): (r: seq<(FaceDetection, Embedding)>)
    ensures |r| == |detections| * |targets|
  {
    if detections == [] then []
    else Pairs(detections[..|detections| - 1], targets) + DetectionRow(detections[|detections| - 1], targets)
  }

  function PairDistance(dist: (Embedding, Embedding) -> real): ((FaceDetection, Embedding)) -> real
  {
    (p: (FaceDetection, Embedding)) => dist(p.0.embedding, p.1)
  }

  /** The running best of `_cv_check`: the distance and the remapped box of its detection. */
  function CvSummary(p: Option<(FaceDetection, Embedding)>, region: Option<Box>, dist: (Embedding, Embedding) -> real)
    : Option<(real, Box)>
  {
    if p.None? then None else Some((dist(p.value.0.embedding, p.value.1), Remap(region, p.value.0.bbox)))
  }

  /** How `_cv_check` turns the running best into its answer (`None` is the initial infinity). */
  function CvDecide(best: Option<(real, Box)>): (r: CvOutcome)
    ensures 0.0 <= r.confidence <= 1.0
    ensures r.matched <==> best.Some? && best.value.0 < CvMatchThreshold
    ensures r.matched ==> r.confidence > 0.0
    ensures !r.matched && best.Some? && best.value.0 >= 0.0 ==> r.confidence <= 0.5
  {
    if best.None? then CvOutcome(false, 0.0, None)
    else
      var (d, box) := best.value;
      if d < CvMatchThreshold then CvOutcome(true, Clamp01(1.0 - d / CvMatchThreshold), Some(box))
      else CvOutcome(false, Max0(1.0 - d), Some(box))
  }

  /** `_cv_check` as a function of the detector's output on the (cropped) frame. */
  function CvResult(available: bool, region: Option<Box>, detections: seq<FaceDetection>,
                    targets: seq<Embedding>, dist: (Embedding, Embedding) -> real): CvOutcome
  {
    if !available || detections == [] then CvOutcome(false, 0.0, None)
    else CvDecide(CvSummary(FirstMin(Pairs(detections, targets), PairDistance(dist)), region, dist))
  }

  lemma PairsSnoc(detections: seq<FaceDetection>, targets: seq<Embedding>, i: nat)
    requires i < |detections|
    ensures Pairs(detections[..i + 1], targets) == Pairs(detections[..i], targets) + DetectionRow(detections[i], targets)
  {
    assert detections[..i + 1][..i] == detections[..i];
  }

  /** One comparison of the inner loop: the running best moves to the pair exactly when it is strictly closer. */
  lemma ScanTargetsStep(det: FaceDetection, targets: seq<Embedding>, j: int, region: Option<Box>,
                        dist: (Embedding, Embedding) -> real, done: seq<(FaceDetection, Embedding)>)
    requires 0 <= j < |targets|
    ensures var b := CvSummary(FirstMin(done + DetectionRow(det, targets[..j]), PairDistance(dist)), region, dist);
            var d := dist(det.embedding, targets[j]);
            CvSummary(FirstMin(done + DetectionRow(det, targets[..j + 1]), PairDistance(dist)), region, dist)
            == if b.None? || d < b.value.0 then Some((d, Remap(region, det.bbox))) else b
  {
    var before := done + DetectionRow(det, targets[..j]);
    assert targets[..j + 1][..j] == targets[..j];
    assert DetectionRow(det, targets[..j + 1]) == DetectionRow(det, targets[..j]) + [(det, targets[j])];
    assert done + DetectionRow(det, targets[..j + 1]) == before + [(det, targets[j])];
    FirstMinSnoc(before, (det, targets[j]), PairDistance(dist));
  }

  /** The inner loop of `_cv_check`: one detection against every target embedding. */
  method ScanTargets(det: FaceDetection, targets: seq<Embedding>, region: Option<Box>,
                     dist: (Embedding, Embedding) -> real, best: Option<(real, Box)>,
                     ghost done: seq<(FaceDetection, Embedding)>)
    returns (best': Option<(real, Box)>)
    requires best == CvSummary(FirstMin(done, PairDistance(dist)), region, dist)
    ensures best' == CvSummary(FirstMin(done + DetectionRow(det, targets), PairDistance(dist)), region, dist)
  {
    best' := best;
    var j := 0;
    assert done + DetectionRow(det, targets[..0]) == done;
    while j < |targets|
      invariant 0 <= j <= |targets|
      invariant best' == CvSummary(FirstMin(done + DetectionRow(det, targets[..j]), PairDistance(dist)), region, dist)
    {
      var d := dist(det.embedding, targets[j]);
      ScanTargetsStep(det, targets, j, region, dist, done);
      if best'.None? || d < best'.value.0 {
        best' := Some((d, Remap(region, det.bbox)));
      }
      j := j + 1;
    }
    assert targets[..j] == targets;
  }

  /** `_cv_check`: the nested scan for the closest detection–target pair. */
  method CvCheck(available: bool, region: Option<Box>, detections: seq<FaceDetection>,
                 targets: seq<Embedding>, dist: (Embedding, Embedding) -> real)
    returns (r: CvOutcome)
    ensures r == CvResult(available, region, detections, targets, dist)
  {
    if !available || detections == [] {
      return CvOutcome(false, 0.0, None);
    }
    var best: Option<(real, Box)> := None;
    var i := 0;
    while i < |detections|
      invariant 0 <= i <= |detections|
      invariant best == CvSummary(FirstMin(Pairs(detections[..i], targets), PairDistance(dist)), region, dist)
    {
      best := ScanTargets(detections[i], targets, region, dist, best, Pairs(detections[..i], targets));
      PairsSnoc(detections, targets, i);
      i := i + 1;
    }
    assert detections[..i] == detections;
    if best.Some? && best.value.0 < CvMatchThreshold {
      var confidence := Clamp01(1.0 - best.value.0 / CvMatchThreshold);
      return CvOutcome(true, confidence, Some(best.value.1));
    } else if best.Some? {
      return CvOutcome(false, Max0(1.0 - best.value.0), Some(best.value.1));
    }
    return CvOutcome(false, 0.0, None);
  }

  /** Some detected face is closer than 0.5 to some stored embedding of the target. */
  ghost predicate SomeCloseFace(detections: seq<FaceDetection>, targets: seq<Embedding>, dist: (Embedding, Embedding) -> real)
  {
    exists d, t :: d in detections && t in targets && dist(d.embedding, t) < CvMatchThreshold
  }

  /** A local match is backed by a close pair. */
  lemma CvMatchSound(available: bool, region: Option<Box>, detections: seq<FaceDetection>,
                     targets: seq<Embedding>, dist: (Embedding, Embedding) -> real)
    requires CvResult(available, region, detections, targets, dist).matched
    ensures available && SomeCloseFace(detections, targets, dist)
  {
    var ps := Pairs(detections, targets);
    var cost := PairDistance(dist);
    FirstMinMeaning(ps, cost);
    var k :| IsFirstMin(ps, cost, k) && FirstMin(ps, cost) == Some(ps[k]);
    PairsMembers(detections, targets);
    assert ps[k] in ps;
    assert dist(ps[k].0.embedding, ps[k].1) < CvMatchThreshold;
  }

  /** A close pair makes a local match whenever the library is available. */
  lemma CvMatchComplete(available: bool, region: Option<Box>, detections: seq<FaceDetection>,
                        targets: seq<Embedding>, dist: (Embedding, Embedding) -> real)
    requires available && SomeCloseFace(detections, targets, dist)
    ensures CvResult(available, region, detections, targets, dist).matched
  {
    var ps := Pairs(detections, targets);
    var cost := PairDistance(dist);
    var d, t :| d in detections && t in targets && dist(d.embedding, t) < CvMatchThreshold;
    PairsMembers(detections, targets);
    assert (d, t) in ps;
    var m :| 0 <= m < |ps| && ps[m] == (d, t);
    FirstMinMeaning(ps, cost);
    var k :| IsFirstMin(ps, cost, k) && FirstMin(ps, cost) == Some(ps[k]);
    assert cost(ps[k]) <= cost(ps[m]);
  }

  /** Every pair of a detection and a target embedding is scanned, and nothing else is. */
  lemma {:induction false} PairsMembers(detections: seq<FaceDetection>, targets: seq<Embedding>)
    ensures forall d, t :: d in detections && t in targets ==> (d, t) in Pairs(detections, targets)
    ensures forall p :: p in Pairs(detections, targets) ==> p.0 in detections && p.1 in targets
  {
    if detections != [] {
      var n := |detections| - 1;
      var init := detections[..n];
      PairsMembers(init, targets);
      var a, row := Pairs(init, targets), DetectionRow(detections[n], targets);
      assert Pairs(detections, targets) == a + row;
      assert detections == init + [detections[n]];
      forall t | t in targets
        ensures (detections[n], t) in row
      {
        var j :| 0 <= j < |targets| && targets[j] == t;
        assert row[j] == (detections[n], t);
      }
      forall p | p in row
        ensures p.0 == detections[n] && p.1 in targets
      {
        var j :| 0 <= j < |row| && row[j] == p;
      }
    }
  }

  /** The distance the Python callers actually use: the service's similarity score. */
  function SimilarityAsDistance(similarity: (Embedding, Embedding) -> real): (Embedding, Embedding) -> real
  {
    (a: Embedding, b: Embedding) => CompareEmbeddings(a, b, similarity)
  }

  /**
   * As written, the local judge reads `compare_embeddings` (a similarity,
   * 1.0 for identical faces) as a distance: the very face stored for the
   * target is rejected, and a face with similarity 0.1 is accepted.
   */
  lemma SimilarityReadAsDistance(e: Embedding, other: Embedding, box: Box, similarity: (Embedding, Embedding) -> real)
    requires e != [] && other != []
    requires similarity(e, e) == 1.0 && similarity(other, e) == 0.1
    ensures !CvResult(true, None, [FaceDetection(e, box, 1.0)], [e], SimilarityAsDistance(similarity)).matched
    ensures CvResult(true, None, [FaceDetection(other, box, 1.0)], [e], SimilarityAsDistance(similarity)).matched
  {
    var dist := SimilarityAsDistance(similarity);
    var same, diff := FaceDetection(e, box, 1.0), FaceDetection(other, box, 1.0);
    assert Pairs([same], [e]) == [(same, e)] by {
      assert [same][..0] == [];
      assert DetectionRow(same, [e]) == [(same, e)];
    }
    assert Pairs([diff], [e]) == [(diff, e)] by {
      assert [diff][..0] == [];
      assert DetectionRow(diff, [e]) == [(diff, e)];
    }
    assert [(same, e)][..0] == [] && [(diff, e)][..0] == [];
  }

  /** With a real distance (0 for identical faces) the stored face is accepted with full confidence. */
  lemma IdenticalFaceMatches(e: Embedding, box: Box, dist: (Embedding, Embedding) -> real)
    requires dist(e, e) == 0.0
    ensures CvResult(true, None, [FaceDetection(e, box, 1.0)], [e], dist) == CvOutcome(true, 1.0, Some(box))
  {
    var same := FaceDetection(e, box, 1.0);
    assert Pairs([same], [e]) == [(same, e)] by {
      assert [same][..0] == [];
      assert DetectionRow(same, [e]) == [(same, e)];
    }
    assert [(same, e)][..0] == [];
  }

  // ------------------------------------------------ the vision-model judge

  /** The vision model's reply: already a dict, or text that `json.loads` may decode. */
  datatype GrokReply = Dict(fields: map<string, Value>) | Text(raw: string, decoded: Option<Value>)

  /**
   * `_parse_grok_response`. `parseFloat` is Python's `float` on a string and
   * `repr` its `str` on a decoded value; both are inputs of the model.
   */
  function ParseGrokResponse(reply: GrokReply, parseFloat: string -> Option<real>, repr: Value -> string)
    : (g: GrokOutcome)
    ensures g.matched ==> g.confidence >= GrokConfidenceThreshold
  {
    match reply
    case Text(raw, None) => GrokOutcome(false, 0.0, Str(raw))
    case Text(_, Some(v)) => ParseDecoded(v, parseFloat, repr)
    case Dict(fields) => ParseDecoded(Obj(fields), parseFloat, repr)
  }

  function ParseDecoded(v: Value, parseFloat: string -> Option<real>, repr: Value -> string): GrokOutcome
  {
    if !v.Obj? then GrokOutcome(false, 0.0, Str(repr(v)))
    else
      var f := v.fields;
      var confidence := ToFloat(Get(f, "confidence", Num(0.0)), parseFloat);
      if confidence.None? then
        GrokOutcome(false, 0.0, Get(f, "error", Str(repr(v))))
      else
        var description := Get(f, "person_description", Get(f, "reasoning", Str("")));
        if !Truthy(Get(f, "person_visible", Bool(false))) then GrokOutcome(false, 0.0, Str("No person visible"))
        else if Truthy(Get(f, "is_target", Bool(false))) && confidence.value >= GrokConfidenceThreshold then
          GrokOutcome(true, confidence.value, description)
        else GrokOutcome(false, confidence.value, description)
  }

  /**
   * The vision judge says "match" exactly for an object reply with a truthy
   * person_visible and is_target and a numeric confidence of at least 0.7.
   */
  lemma GrokMatchMeaning(fields: map<string, Value>, parseFloat: string -> Option<real>, repr: Value -> string)
    ensures ParseGrokResponse(Dict(fields), parseFloat, repr).matched
        <==> Truthy(Get(fields, "person_visible", Bool(false))) && Truthy(Get(fields, "is_target", Bool(false)))
             && ToFloat(Get(fields, "confidence", Num(0.0)), parseFloat).Some?
             && ToFloat(Get(fields, "confidence", Num(0.0)), parseFloat).value >= GrokConfidenceThreshold
  {
  }

  /** A reply without a visible person never matches and reports zero confidence, whatever else it says. */
  lemma NoPersonNoMatch(fields: map<string, Value>, parseFloat: string -> Option<real>, repr: Value -> string)
    requires "person_visible" !in fields || !Truthy(fields["person_visible"])
    requires "confidence" in fields && fields["confidence"].Num?
    ensures ParseGrokResponse(Dict(fields), parseFloat, repr) == GrokOutcome(false, 0.0, Str("No person visible"))
  {
  }

  // ------------------------------------------------------------ fusion

  /** `_combine_results`. */
  function CombineResults(cv: CvOutcome, grok: GrokOutcome, original: Option<Box>): (r: VerificationResult)
    ensures r.isMatch <==> r.level != Low
    ensures r.cvConfidence == cv.confidence && r.grokConfidence == grok.confidence
    ensures r.grokDescription == grok.description && r.bbox == OrElse(cv.bbox, original)
  {
    var box := OrElse(cv.bbox, original);
    if cv.matched && grok.matched then
      VerificationResult(true, (cv.confidence + grok.confidence) / 2.0, High, true, cv.confidence,
                         true, grok.confidence, grok.description, box)
    else if cv.matched && cv.confidence > CvStandAlone then
      VerificationResult(true, cv.confidence, Medium, true, cv.confidence,
                         false, grok.confidence, grok.description, box)
    else
      VerificationResult(false, (if cv.confidence >= grok.confidence then cv.confidence else grok.confidence) * 0.5,
                         Low, cv.matched, cv.confidence, grok.matched, grok.confidence, grok.description, box)
  }

  /** The three tiers: both judges agree, the local judge alone is very sure, or no match. */
  lemma CombineTiers(cv: CvOutcome, grok: GrokOutcome, original: Option<Box>)
    ensures var r := CombineResults(cv, grok, original);
      && (r.level == High <==> cv.matched && grok.matched)
      && (r.level == Medium <==> cv.matched && !grok.matched && cv.confidence > CvStandAlone)
      && (r.level == Medium ==> r.confidence == cv.confidence)
      && (r.level == High ==> r.confidence == (cv.confidence + grok.confidence) / 2.0)
  {
  }

  predicate UnitInterval(x: real)
  {
    0.0 <= x <= 1.0
  }

  /** Confidences in [0, 1] give a fused confidence in [0, 1], at most 0.5 when there is no match. */
  lemma CombineConfidenceRange(cv: CvOutcome, grok: GrokOutcome, original: Option<Box>)
    requires UnitInterval(cv.confidence) && UnitInterval(grok.confidence)
    ensures UnitInterval(CombineResults(cv, grok, original).confidence)
    ensures !CombineResults(cv, grok, original).isMatch ==> CombineResults(cv, grok, original).confidence <= 0.5
  {
  }

  /** A vision-model match never lowers the tier. */
  lemma GrokAgreementNeverLowers(cv: CvOutcome, grok: GrokOutcome, original: Option<Box>)
    ensures CombineResults(cv, grok.(matched := true), original).level.Rank()
         >= CombineResults(cv, grok, original).level.Rank()
  {
  }

  /** Without a local match nothing the vision model says yields a match. */
  lemma NoLocalMatchNoMatch(cv: CvOutcome, grok: GrokOutcome, original: Option<Box>)
    requires !cv.matched
    ensures !CombineResults(cv, grok, original).isMatch
  {
  }

  /** The answer for a target without stored faces. */
  function NoFaceData(): (r: VerificationResult)
    ensures !r.isMatch && r.level == Low && r.confidence == 0.0 && !r.cvMatched && !r.grokMatched
  {
    VerificationResult(false, 0.0, Low, false, 0.0, false, 0.0, Str("No face data for target"), None)
  }

  /**
   * `verify`, with the two judges run one after the other; `grok` is whatever
   * `_grok_check` returned.
   */
  method Verify(targets: seq<Embedding>, available: bool, region: Option<Box>, detections: seq<FaceDetection>,
                dist: (Embedding, Embedding) -> real, grok: GrokOutcome)
    returns (r: VerificationResult)
    ensures targets == [] ==> r == NoFaceData()
    ensures targets != [] ==> r == CombineResults(CvResult(available, region, detections, targets, dist), grok, region)
  {
    if targets == [] {
      return NoFaceData();
    }
    var cv := CvCheck(available, region, detections, targets, dist);
    r := CombineResults(cv, grok, region);
  }

  /** The tier `verify_quick` gives from the local judge alone. */
  function QuickLevel(cv: CvOutcome): (l: Level)
    ensures l == High <==> cv.matched && cv.confidence > CvStandAlone
    ensures l == Medium <==> cv.matched && 0.5 < cv.confidence <= CvStandAlone
  {
    if cv.matched && cv.confidence > CvStandAlone then High
    else if cv.matched && cv.confidence > 0.5 then Medium
    else Low
  }

  /** `verify_quick`. */
  method VerifyQuick(available: bool, region: Option<Box>, detections: seq<FaceDetection>,
                     targets: seq<Embedding>, dist: (Embedding, Embedding) -> real)
    returns (r: VerificationResult)
    ensures var cv := CvResult(available, region, detections, targets, dist);
      r == VerificationResult(cv.matched, cv.confidence, QuickLevel(cv), cv.matched, cv.confidence,
                              false, 0.0, Str("Quick verification (CV only)"), OrElse(cv.bbox, region))
  {
    var cv := CvCheck(available, region, detections, targets, dist);
    r := VerificationResult(cv.matched, cv.confidence, QuickLevel(cv), cv.matched, cv.confidence,
                            false, 0.0, Str("Quick verification (CV only)"), OrElse(cv.bbox, region));
  }

  /**
   * The quick check ranks a local-only match at least as high as the full
   * check does when the vision model disagrees: a very sure local match is
   * 'high' there but only 'medium' here.
   */
  lemma QuickOutranksDisagreement(cv: CvOutcome, grok: GrokOutcome, original: Option<Box>)
    requires !grok.matched
    ensures QuickLevel(cv).Rank() >= CombineResults(cv, grok, original).level.Rank()
    ensures cv.matched && cv.confidence > CvStandAlone ==>
      QuickLevel(cv) == High && CombineResults(cv, grok, original).level == Medium
  {
  }
}

=== FILE: events.dfy ===
/**
 * The publish/subscribe event bus: per event type, a list of callbacks in
 * subscription order, each at most once. Callbacks are identified by a
 * number; what a callback does is outside the model, except whether it
 * raised, which the bus reports and then carries on.
 */
module Events {
  import opened Wrappers
  import opened OrderedKeys

  type Callback = nat

  /** The subscribers of one event type after `subscribe`: appended unless already present. */
  function WithSubscriber(subs: seq<Callback>, cb: Callback): (r: seq<Callback>)
    ensures cb in r
    ensures forall c :: c in r <==> c in subs || c == cb
    ensures Distinct(subs) ==> Distinct(r)
  {
    if cb in subs then subs else subs + [cb]
  }

  /** `list.remove`: drops the first occurrence, if any. */
  function RemoveFirst(subs: seq<Callback>, cb: Callback): (r: seq<Callback>)
    ensures cb !in subs ==> r == subs
    ensures cb in subs ==> |r| == |subs| - 1
    ensures forall c :: c in r ==> c in subs
  {
    if subs == [] then []
    else if subs[0] == cb then subs[1..]
    else [subs[0]] + RemoveFirst(subs[1..], cb)
  }

  /** In a list without repeats, removal takes the callback out entirely and keeps the rest in order. */
  lemma {:induction false} RemoveFirstDistinct(subs: seq<Callback>, cb: Callback)
    requires Distinct(subs)
    ensures Distinct(RemoveFirst(subs, cb))
    ensures cb !in RemoveFirst(subs, cb)
    ensures forall c :: c in RemoveFirst(subs, cb) <==> c in subs && c != cb
  {
    if subs != [] {
      assert Distinct(subs[1..]);
      if subs[0] == cb {
        assert cb !in subs[1..];
      } else {
        RemoveFirstDistinct(subs[1..], cb);
        assert subs[0] !in subs[1..];
      }
    }
  }

  /** Unsubscribing a callback that subscribing just added restores the list. */
  lemma {:induction false} UnsubscribeUndoesSubscribe(subs: seq<Callback>, cb: Callback)
    requires cb !in subs
    ensures RemoveFirst(WithSubscriber(subs, cb), cb) == subs
  {
    if subs != [] {
      UnsubscribeUndoesSubscribe(subs[1..], cb);
      assert (subs + [cb])[1..] == subs[1..] + [cb];
    }
  }

  /** Subscribing twice is subscribing once. */
  lemma SubscribeIdempotent(subs: seq<Callback>, cb: Callback)
    ensures WithSubscriber(WithSubscriber(subs, cb), cb) == WithSubscriber(subs, cb)
  {
  }

  class EventBus {
    /** The subscriber lists; a missing key is the empty list of a `defaultdict`. */
    var subscribers: map<string, seq<Callback>>
    /** Every delivery made, oldest first: the event type and the callback called. */
    var calls: seq<(string, Callback)>
    /** The deliveries whose callback raised, which the bus reports and then continues. */
    var errors: seq<(string, Callback)>

    ghost predicate Valid()
      reads this
    {
      forall t | t in subscribers :: Distinct(subscribers[t])
    }

    constructor()
      ensures Valid() && subscribers == map[] && calls == [] && errors == []
    {
      subscribers := map[];
      calls := [];
      errors := [];
    }

    function Subscribers(eventType: string): (r: seq<Callback>)
      reads this
      ensures eventType !in subscribers ==> r == []
    {
      if eventType in subscribers then subscribers[eventType] else []
    }

    method Subscribe(eventType: string, cb: Callback)
      requires Valid()
      modifies this`subscribers
      ensures Valid()
      ensures subscribers == old(subscribers)[eventType := WithSubscriber(old(Subscribers(eventType)), cb)]
    {
      subscribers := subscribers[eventType := WithSubscriber(Subscribers(eventType), cb)];
    }

    method Unsubscribe(eventType: string, cb: Callback)
      requires Valid()
      modifies this`subscribers
      ensures Valid()
      ensures subscribers == old(subscribers)[eventType := RemoveFirst(old(Subscribers(eventType)), cb)]
      ensures cb !in Subscribers(eventType)
    {
      RemoveFirstDistinct(Subscribers(eventType), cb);
      subscribers := subscribers[eventType := RemoveFirst(Subscribers(eventType), cb)];
    }

    /**
     * `publish`: every subscriber in the snapshot is called, in
     * subscription order, whether or not an earlier one raised.
     */
    method Publish(eventType: string, raises: Callback -> bool)
      modifies this`calls, this`errors
      ensures |calls| == |old(calls)| + |Subscribers(eventType)|
      ensures calls[..|old(calls)|] == old(calls)
      ensures forall k | 0 <= k < |Subscribers(eventType)| ::
                calls[|old(calls)| + k] == (eventType, Subscribers(eventType)[k])
      ensures errors == old(errors) + Raised(eventType, Subscribers(eventType), raises)
    {
      var snapshot := Subscribers(eventType);
      var i := 0;
      while i < |snapshot|
        invariant 0 <= i <= |snapshot|
        invariant |calls| == |old(calls)| + i
        invariant calls[..|old(calls)|] == old(calls)
        invariant forall k | 0 <= k < i :: calls[|old(calls)| + k] == (eventType, snapshot[k])
        invariant errors == old(errors) + Raised(eventType, snapshot[..i], raises)
      {
        assert snapshot[..i + 1][..i] == snapshot[..i];
        calls := calls + [(eventType, snapshot[i])];
        if raises(snapshot[i]) {
          errors := errors + [(eventType, snapshot[i])];
        }
        i := i + 1;
      }
      assert snapshot[..i] == snapshot;
    }

    /** `clear`: a named type is emptied; no type, or the empty name (falsy in Python), empties every type. */
    method Clear(eventType: Option<string>)
      requires Valid()
      modifies this`subscribers
      ensures Valid()
      ensures eventType.Some? && eventType.value != [] ==>
                subscribers == old(subscribers)[eventType.value := []]
      ensures eventType.None? || eventType.value == [] ==> subscribers == map[]
    {
      if eventType.Some? && eventType.value != [] {
        subscribers := subscribers[eventType.value := []];
      } else {
        subscribers := map[];
      }
    }

    function SubscriberCount(eventType: string): (n: nat)
      reads this
      ensures n == |Subscribers(eventType)|
    {
      |Subscribers(eventType)|
    }
  }

  /** The deliveries among `subs` whose callback raised, in order. */
  function Raised(eventType: string, subs: seq<Callback>, raises: Callback -> bool): (r: seq<(string, Callback)>)
    ensures |r| <= |subs|
  {
    if subs == [] then []
    else
      var front := Raised(eventType, subs[..|subs| - 1], raises);
      if raises(subs[|subs| - 1]) then front + [(eventType, subs[|subs| - 1])] else front
  }
}

=== FILE: face_recognition.dfy ===
/**
 * The face service's decisions once the embedding library is replaced by
 * inputs: the detections it reports for an image, the empty-input cases of
 * comparison and matching, and the choice of the best-matching target.
 * Distances between embeddings are an abstract function `dist`.
 */
module FaceRecognition {
  import opened Wrappers
  import opened Selection

  type Embedding = seq<real>

  /** A box in fractions of the image size: left, top, width, height. */
  datatype Box = Box(x: real, y: real, width: real, height: real)

  datatype FaceDetection = FaceDetection(embedding: Embedding, bbox: Box, confidence: real)

  /** A face location as the detector reports it, in pixels: (top, right, bottom, left). */
  datatype Location = Location(top: int, right: int, bottom: int, left: int)

  /** Distance at or below which two faces are the same person. */
  const MatchThreshold: real := 0.45
  /** Smallest confidence `find_best_match` reports. */
  const MinConfidence: real := 0.5
  /** Images narrower or lower than this many pixels are not searched for faces. */
  const MinImageSide: int := 50

  // ------------------------------------------------------------ detection

  /** A pixel location as fractions of a w×h image. */
  function NormalizedBox(loc: Location, w: int, h: int): (b: Box)
    requires w > 0 && h > 0
    ensures b.x * (w as real) == loc.left as real
    ensures b.y * (h as real) == loc.top as real
    ensures b.width * (w as real) == (loc.right - loc.left) as real
    ensures b.height * (h as real) == (loc.bottom - loc.top) as real
  {
    Box(loc.left as real / w as real, loc.top as real / h as real,
        (loc.right - loc.left) as real / w as real, (loc.bottom - loc.top) as real / h as real)
  }

  predicate InsideImage(loc: Location, w: int, h: int)
  {
    0 <= loc.left <= loc.right <= w && 0 <= loc.top <= loc.bottom <= h
  }

  predicate InUnitSquare(b: Box)
  {
    0.0 <= b.x && 0.0 <= b.width && b.x + b.width <= 1.0
    && 0.0 <= b.y && 0.0 <= b.height && b.y + b.height <= 1.0
  }

  /** A face inside the image gives a box inside the unit square. */
  lemma NormalizedBoxInside(loc: Location, w: int, h: int)
    requires w > 0 && h > 0 && InsideImage(loc, w, h)
    ensures InUnitSquare(NormalizedBox(loc, w, h))
  {
    var b := NormalizedBox(loc, w, h);
    var W, H := w as real, h as real;
    assert (b.x + b.width) * W == loc.right as real;
    assert (b.y + b.height) * H == loc.bottom as real;
    assert loc.right as real <= W;
    assert loc.bottom as real <= H;
  }

  /** Whether the detector is run at all on a w×h image. */
  predicate Searchable(available: bool, w: int, h: int)
  {
    available && w >= MinImageSide && h >= MinImageSide
  }

  /**
   * `extract_all_faces`: one detection per (location, encoding) pair, in the
   * detector's order. `encodings` is `None` when the encoder raised.
   */
  method ExtractAllFaces(available: bool, w: int, h: int, locations: seq<Location>, encodings: Option<seq<Embedding>>)
    returns (detections: seq<FaceDetection>)
    ensures !Searchable(available, w, h) || locations == [] || encodings.None? ==> detections == []
    ensures Searchable(available, w, h) && encodings.Some? ==>
      |detections| == (if |locations| <= |encodings.value| then |locations| else |encodings.value|)
      && forall i :: 0 <= i < |detections| ==>
           detections[i] == FaceDetection(encodings.value[i], NormalizedBox(locations[i], w, h), 1.0)
  {
    if !available || h < MinImageSide || w < MinImageSide || locations == [] || encodings.None? {
      return [];
    }
    var es := encodings.value;
    detections := [];
    var i := 0;
    while i < |locations| && i < |es|
      invariant 0 <= i <= |locations| && i <= |es| && |detections| == i
      invariant forall k :: 0 <= k < i ==> detections[k] == FaceDetection(es[k], NormalizedBox(locations[k], w, h), 1.0)
    {
      detections := detections + [FaceDetection(es[i], NormalizedBox(locations[i], w, h), 1.0)];
      i := i + 1;
    }
  }

  // ----------------------------------------------------------- comparison

  /**
   * `compare_embeddings`: 0.0 when either side is empty, otherwise the
   * library's similarity (higher is more alike).
   */
  function CompareEmbeddings(e1: Embedding, e2: Embedding, similarity: (Embedding, Embedding) -> real): (r: real)
    ensures e1 == [] || e2 == [] ==> r == 0.0
    ensures e1 != [] && e2 != [] ==> r == similarity(e1, e2)
  {
    if e1 == [] || e2 == [] then 0.0 else similarity(e1, e2)
  }

  /** `is_match`: both present, library available, and no farther apart than the threshold (0.45 by default). */
  predicate IsMatch(available: bool, e1: Embedding, e2: Embedding, threshold: Option<real>, dist: (Embedding, Embedding) -> real)
  {
    available && e1 != [] && e2 != [] && dist(e1, e2) <= threshold.UnwrapOr(MatchThreshold)
  }

  // ----------------------------------------------------------- best match

  type TargetEmbeddings = seq<(string, seq<Embedding>)>

  /** The (id, embedding) pairs one target contributes, empty embeddings skipped. */
  function Row(id: string, embs: seq<Embedding>): (r: seq<(string, Embedding)>)
    ensures forall k :: 0 <= k < |r| ==> r[k].0 == id && r[k].1 != [] && r[k].1 in embs
  {
    if embs == [] then []
    else
      var e := embs[|embs| - 1];
      Row(id, embs[..|embs| - 1]) + (if e == [] then [] else [(id, e)])
  }

  /** Every (id, embedding) pair the nested loops compare, in loop order. */
  function Candidates(targets: TargetEmbeddings): (r: seq<(string, Embedding)>)
    ensures forall k :: 0 <= k < |r| ==> r[k].1 != []
  {
    if targets == [] then []
    else
      var t := targets[|targets| - 1];
      Candidates(targets[..|targets| - 1]) + Row(t.0, t.1)
  }

  /** The cost the scan minimises: distance from the query. */
  function DistanceFrom(query: Embedding, dist: (Embedding, Embedding) -> real): ((string, Embedding)) -> real
  {
    (c: (string, Embedding)) => dist(query, c.1)
  }

  function Max0(x: real): real
  {
    if x >= 0.0 then x else 0.0
  }

  /** Confidence of a match at distance d. */
  function MatchConfidence(d: real): real
  {
    Max0(1.0 - d / MatchThreshold)
  }

  /** For a non-negative distance, the confidence floor is the same as halving the threshold. */
  lemma ConfidenceFloor(d: real)
    requires d >= 0.0
    ensures MatchConfidence(d) >= MinConfidence <==> d <= MatchThreshold / 2.0
  {
  }

  /** The decision `find_best_match` takes about the running best (id, distance) after the scan. */
  function Decide(best: Option<(string, real)>): (r: Option<(string, real)>)
  {
    if best.Some? && best.value.0 != [] && best.value.1 <= MatchThreshold
       && MatchConfidence(best.value.1) >= MinConfidence
    then Some((best.value.0, MatchConfidence(best.value.1)))
    else None
  }

  /** The running best as the Python loop keeps it: the id and its distance. */
  function Summary(c: Option<(string, Embedding)>, query: Embedding, dist: (Embedding, Embedding) -> real): Option<(string, real)>
  {
    if c.None? then None else Some((c.value.0, dist(query, c.value.1)))
  }

  /** `find_best_match` as a function of its inputs. */
  function BestMatch(query: Embedding, targets: TargetEmbeddings, dist: (Embedding, Embedding) -> real): Option<(string, real)>
  {
    if query == [] || targets == [] then None
    else Decide(Summary(FirstMin(Candidates(targets), DistanceFrom(query, dist)), query, dist))
  }

  lemma CandidatesSnoc(targets: TargetEmbeddings, i: nat)
    requires i < |targets|
    ensures Candidates(targets[..i + 1]) == Candidates(targets[..i]) + Row(targets[i].0, targets[i].1)
  {
    assert targets[..i + 1][..i] == targets[..i];
  }

  lemma RowSnoc(id: string, embs: seq<Embedding>, j: nat)
    requires j < |embs|
    ensures Row(id, embs[..j + 1]) == Row(id, embs[..j]) + (if embs[j] == [] then [] else [(id, embs[j])])
  {
    assert embs[..j + 1][..j] == embs[..j];
  }

  /** The inner loop of `find_best_match`: one target's embeddings against the running best. */
  method ScanRow(query: Embedding, id: string, embs: seq<Embedding>, dist: (Embedding, Embedding) -> real,
                 best: Option<(string, real)>, ghost done: seq<(string, Embedding)>)
    returns (best': Option<(string, real)>)
    requires best == Summary(FirstMin(done, DistanceFrom(query, dist)), query, dist)
    ensures best' == Summary(FirstMin(done + Row(id, embs), DistanceFrom(query, dist)), query, dist)
  {
    ghost var cost := DistanceFrom(query, dist);
    best' := best;
    var j := 0;
    assert done + Row(id, embs[..0]) == done;
    while j < |embs|
      invariant 0 <= j <= |embs|
      invariant best' == Summary(FirstMin(done + Row(id, embs[..j]), cost), query, dist)
    {
      RowSnoc(id, embs, j);
      if embs[j] != [] {
        var d := dist(query, embs[j]);
        FirstMinSnoc(done + Row(id, embs[..j]), (id, embs[j]), cost);
        assert done + Row(id, embs[..j + 1]) == (done + Row(id, embs[..j])) + [(id, embs[j])];
        if best'.None? || d < best'.value.1 {
          best' := Some((id, d));
        }
      } else {
        assert Row(id, embs[..j + 1]) == Row(id, embs[..j]);
      }
      j := j + 1;
    }
    assert embs[..j] == embs;
  }

  /** `find_best_match`: the nested scan over every target's embeddings. */
  method FindBestMatch(query: Embedding, targets: TargetEmbeddings, dist: (Embedding, Embedding) -> real)
    returns (r: Option<(string, real)>)
    ensures r == BestMatch(query, targets, dist)
  {
    if query == [] || targets == [] {
      return None;
    }
    var best: Option<(string, real)> := None;
    var i := 0;
    while i < |targets|
      invariant 0 <= i <= |targets|
      invariant best == Summary(FirstMin(Candidates(targets[..i]), DistanceFrom(query, dist)), query, dist)
    {
      var (id, embs) := targets[i];
      best := ScanRow(query, id, embs, dist, best, Candidates(targets[..i]));
      CandidatesSnoc(targets, i);
      i := i + 1;
    }
    assert targets[..i] == targets;
    if best.Some? && best.value.0 != [] && best.value.1 <= MatchThreshold {
      var confidence := MatchConfidence(best.value.1);
      if confidence >= MinConfidence {
        return Some((best.value.0, confidence));
      }
      return None;
    }
    return None;
  }

  /**
   * A reported match names the first closest candidate, which belongs to a
   * non-empty id, lies within the threshold and matches the query under
   * `is_match` with the default threshold.
   */
  lemma BestMatchSound(query: Embedding, targets: TargetEmbeddings, dist: (Embedding, Embedding) -> real,
                       id: string, conf: real)
    requires BestMatch(query, targets, dist) == Some((id, conf))
    ensures id != []
    ensures exists k ::
      && IsFirstMin(Candidates(targets), DistanceFrom(query, dist), k)
      && Candidates(targets)[k].0 == id
      && conf == MatchConfidence(dist(query, Candidates(targets)[k].1))
      && IsMatch(true, query, Candidates(targets)[k].1, None, dist)
  {
    var cands := Candidates(targets);
    var cost := DistanceFrom(query, dist);
    FirstMinMeaning(cands, cost);
    var k :| IsFirstMin(cands, cost, k) && FirstMin(cands, cost) == Some(cands[k]);
    assert cands[k].1 != [];
    assert IsMatch(true, query, cands[k].1, None, dist);
  }

  /**
   * Conversely, when the first closest candidate has a non-empty id and a
   * distance in [0, 0.225], that target is reported.
   */
  lemma BestMatchComplete(query: Embedding, targets: TargetEmbeddings, dist: (Embedding, Embedding) -> real, k: int)
    requires query != []
    requires IsFirstMin(Candidates(targets), DistanceFrom(query, dist), k)
    requires Candidates(targets)[k].0 != []
    requires 0.0 <= dist(query, Candidates(targets)[k].1) <= MatchThreshold / 2.0
    ensures BestMatch(query, targets, dist) == Some((Candidates(targets)[k].0, MatchConfidence(dist(query, Candidates(targets)[k].1))))
  {
    var cands := Candidates(targets);
    var cost := DistanceFrom(query, dist);
    FirstMinMeaning(cands, cost);
    var m :| IsFirstMin(cands, cost, m) && FirstMin(cands, cost) == Some(cands[m]);
    FirstMinUnique(cands, cost, k, m);
    assert targets != [];
    ConfidenceFloor(dist(query, cands[k].1));
  }
}

=== FILE: focused_search.dfy ===
/**
 * The focused person search (`find_person`): pre-scan checks on the named
 * target, then a scan of eight headings 45 degrees apart in which each
 * captured frame is judged by the dual verifier; the first confident match
 * marks the target found, and otherwise the best partial result is reported.
 *
 * The camera, the verifier and the abort flag are read once per step; a
 * step's readings are an `Observation`, and `observe(i)` is what step `i`
 * saw. The drone is the `DroneController` model, and the target registry is
 * the `TargetManager` model.
 */
module FocusedSearch {
  import opened Wrappers
  import opened Json
  import opened FaceRecognition
  import opened DualVerification
  import opened Targets
  import opened VehicleState
  import opened Controller
  import opened ToolBase
  import Recorder

  const AnglesToCheck: nat := 8
  const RotationPerStep: int := 45
  /** A non-matching best result is reported only above this confidence. */
  const ReportThreshold: real := 0.3

  // ------------------------------------------------------------ directions

  /** The eight compass phrases, starting straight ahead and turning clockwise. */
  const CompassNames: seq<string> := [
    "directly ahead", "slightly to your right", "to your right", "behind and to your right",
    "behind you", "behind and to your left", "to your left", "slightly to your left"]

  /** `_angle_to_direction`: 45-degree bands centred on the compass points, boundaries at 22.5 + 45k. */
  function AngleToDirection(angle: int): (d: string)
    ensures d in CompassNames
  {
    var a := (angle % 360) as real;
    if a < 22.5 || a >= 337.5 then CompassNames[0]
    else if a < 67.5 then CompassNames[1]
    else if a < 112.5 then CompassNames[2]
    else if a < 157.5 then CompassNames[3]
    else if a < 202.5 then CompassNames[4]
    else if a < 247.5 then CompassNames[5]
    else if a < 292.5 then CompassNames[6]
    else CompassNames[7]
  }

  /** The band is that of the nearest multiple of 45 degrees, ties going clockwise. */
  lemma AngleToDirectionNearest(angle: int)
    ensures AngleToDirection(angle) == CompassNames[((2 * (angle % 360) + 45) / 90) % 8]
  {
    var a := angle % 360;
    if a <= 22 {
      assert (2 * a + 45) / 90 == 0;
    } else if a <= 67 {
      assert (2 * a + 45) / 90 == 1;
    } else if a <= 112 {
      assert (2 * a + 45) / 90 == 2;
    } else if a <= 157 {
      assert (2 * a + 45) / 90 == 3;
    } else if a <= 202 {
      assert (2 * a + 45) / 90 == 4;
    } else if a <= 247 {
      assert (2 * a + 45) / 90 == 5;
    } else if a <= 292 {
      assert (2 * a + 45) / 90 == 6;
    } else if a <= 337 {
      assert (2 * a + 45) / 90 == 7;
    } else {
      assert (2 * a + 45) / 90 == 8;
    }
  }

  /** The eight scan headings are named by the eight compass phrases, in order. */
  lemma ScanHeadingsNamed(k: nat)
    requires k < AnglesToCheck
    ensures AngleToDirection(k * RotationPerStep) == CompassNames[k]
  {
    AngleToDirectionNearest(k * RotationPerStep);
    assert (k * 45) % 360 == k * 45;
    assert (2 * (k * 45) + 45) / 90 == k;
  }

  // ------------------------------------------------------------------ scan

  /** What one step saw: the abort flag, whether a frame was captured, and the verifier's verdict on it. */
  datatype Observation = Observation(aborted: bool, captured: bool, result: VerificationResult)

  /** How the scan ended; `best` is the step and verdict of the best non-matching frame. */
  datatype ScanEnd =
    | AbortedAt(step: nat)
    | HitAt(step: nat, result: VerificationResult)
    | Exhausted(best: Option<(nat, VerificationResult)>)

  /** A verdict that ends the scan: a match at high or medium confidence. */
  predicate IsHit(r: VerificationResult)
  {
    r.isMatch && (r.level == High || r.level == Medium)
  }

  /** A step that neither aborts nor ends the scan with a match. */
  predicate Quiet(o: Observation)
  {
    !o.aborted && !(o.captured && IsHit(o.result))
  }

  /** The best result is replaced only by a strictly more confident one. */
  function Better(best: Option<(nat, VerificationResult)>, i: nat, r: VerificationResult): (b: Option<(nat, VerificationResult)>)
    ensures b.Some?
    ensures b.value.1.confidence >= r.confidence
    ensures best.Some? ==> b.value.1.confidence >= best.value.1.confidence
  {
    if best.None? || r.confidence > best.value.1.confidence then Some((i, r)) else best
  }

  /** The best result after a quiet step: changed only by a captured frame. */
  function Kept(best: Option<(nat, VerificationResult)>, i: nat, o: Observation): Option<(nat, VerificationResult)>
  {
    if o.captured then Better(best, i, o.result) else best
  }

  /** The turns after a quiet step: one after a captured frame, except on the last step. */
  function Turn(i: nat, o: Observation): nat
  {
    if o.captured && i < AnglesToCheck - 1 then 1 else 0
  }

  /**
   * The scan from step `i` on, given the best result so far: how it ends and
   * how many 45-degree turns it asks for (one after every captured,
   * non-matching frame except on the last step).
   */
  function ScanFrom(observe: nat -> Observation, i: nat, best: Option<(nat, VerificationResult)>): (ScanEnd, nat)
    decreases AnglesToCheck - i
  {
    if i >= AnglesToCheck then (Exhausted(best), 0)
    else
      var o := observe(i);
      if o.aborted then (AbortedAt(i), 0)
      else if o.captured && IsHit(o.result) then (HitAt(i, o.result), 0)
      else
        var rest := ScanFrom(observe, i + 1, Kept(best, i, o));
        (rest.0, rest.1 + Turn(i, o))
  }

  /** The step at which a scan ended; a full scan ends after the last step. */
  function StopStep(e: ScanEnd): nat
  {
    if e.Exhausted? then AnglesToCheck else e.step
  }

  /**
   * The scan ends at the first step that is not quiet: by abort, or by a
   * confident match whose verdict it returns; it runs to the end exactly
   * when every step is quiet.
   */
  lemma {:induction false} ScanEnds(observe: nat -> Observation, i: nat, best: Option<(nat, VerificationResult)>)
    requires i <= AnglesToCheck
    ensures var e := ScanFrom(observe, i, best).0;
            && i <= StopStep(e) <= AnglesToCheck
            && (forall j | i <= j < StopStep(e) :: Quiet(observe(j)))
            && (e.AbortedAt? ==> e.step < AnglesToCheck && observe(e.step).aborted)
            && (e.HitAt? ==> e.step < AnglesToCheck && !Quiet(observe(e.step)) && !observe(e.step).aborted
                             && observe(e.step).captured && e.result == observe(e.step).result)
    decreases AnglesToCheck - i
  {
    if i < AnglesToCheck {
      if Quiet(observe(i)) {
        ScanEnds(observe, i + 1, Kept(best, i, observe(i)));
      }
    }
  }

  /** The whole scan in terms of the steps' readings. */
  lemma ScanOutcome(observe: nat -> Observation)
    ensures var e := ScanFrom(observe, 0, None).0;
            && (e.AbortedAt? ==> e.step < AnglesToCheck && observe(e.step).aborted)
            && (e.HitAt? ==> e.step < AnglesToCheck && observe(e.step).captured
                             && IsHit(e.result) && e.result == observe(e.step).result)
            && (forall j: nat | j < StopStep(e) :: Quiet(observe(j)))
            && (e.Exhausted? <==> forall j: nat | j < AnglesToCheck :: Quiet(observe(j)))
  {
    ScanEnds(observe, 0, None);
  }

  /** The first most confident captured frame among steps `0 .. n-1`. */
  function FirstBest(observe: nat -> Observation, n: nat): Option<(nat, VerificationResult)>
  {
    if n == 0 then None
    else
      var b := FirstBest(observe, n - 1);
      var o := observe(n - 1);
      if o.captured then Better(b, n - 1, o.result) else b
  }

  /** `FirstBest` is the earliest captured frame of greatest confidence, and exists iff some frame was captured. */
  lemma {:induction false} FirstBestIsFirstMax(observe: nat -> Observation, n: nat)
    ensures FirstBest(observe, n).None? <==> forall j: nat | j < n :: !observe(j).captured
    ensures FirstBest(observe, n).Some? ==>
              var (k, r) := FirstBest(observe, n).value;
              && k < n && observe(k).captured && r == observe(k).result
              && (forall j: nat | j < n && observe(j).captured :: observe(j).result.confidence <= r.confidence)
              && (forall j: nat | j < k && observe(j).captured :: observe(j).result.confidence < r.confidence)
  {
    if n > 0 {
      FirstBestIsFirstMax(observe, n - 1);
      if observe(n - 1).captured {
        assert FirstBest(observe, n).Some?;
      } else {
        assert FirstBest(observe, n) == FirstBest(observe, n - 1);
      }
    }
  }

  /** A scan that runs to the end reports `FirstBest` over all eight steps. */
  lemma {:induction false} ScanBest(observe: nat -> Observation, i: nat)
    requires i <= AnglesToCheck
    ensures var e := ScanFrom(observe, i, FirstBest(observe, i)).0;
            e.Exhausted? ==> e.best == FirstBest(observe, AnglesToCheck)
    decreases AnglesToCheck - i
  {
    if i < AnglesToCheck {
      assert FirstBest(observe, i + 1) == Kept(FirstBest(observe, i), i, observe(i));
      ScanBest(observe, i + 1);
    }
  }

  /** How many of the steps `lo .. hi-1` captured a frame. */
  function Captured(observe: nat -> Observation, lo: nat, hi: nat): nat
    decreases hi - lo
  {
    if lo >= hi then 0
    else (if observe(lo).captured then 1 else 0) + Captured(observe, lo + 1, hi)
  }

  function Min(a: nat, b: nat): nat
  {
    if a <= b then a else b
  }

  /** The drone turns once per captured frame before the scan stopped, never after the last heading. */
  lemma {:induction false} ScanRotations(observe: nat -> Observation, i: nat, best: Option<(nat, VerificationResult)>)
    requires i <= AnglesToCheck
    ensures var (e, turns) := ScanFrom(observe, i, best);
            turns == Captured(observe, i, Min(StopStep(e), AnglesToCheck - 1))
    decreases AnglesToCheck - i
  {
    if i < AnglesToCheck {
      if Quiet(observe(i)) {
        ScanRotations(observe, i + 1, Kept(best, i, observe(i)));
        ScanEnds(observe, i + 1, Kept(best, i, observe(i)));
      }
    }
  }

  // --------------------------------------------------------------- outcome

  datatype Outcome =
    | AbortedBeforeStart
    | NotRegistered
    | NoFaceData(target: Target)
    | AlreadyFound(target: Target)
    | Scanned(target: Target, end: ScanEnd, rotations: nat)

  /**
   * The pre-scan checks in their order (abort, unknown name, no face
   * embeddings, status 'found'): the outcome that ends the search before
   * the scan, or the target to scan for.
   */
  function Precheck(s: Store, name: string, fuzzy: Option<string>, abortAtStart: bool): (r: Result<Target, Outcome>)
    ensures r.Err? ==> !r.error.Scanned?
    ensures r.Ok? ==> !abortAtStart && Lookup(s, name, true, fuzzy) == Some(r.value)
  {
    if abortAtStart then Err(AbortedBeforeStart)
    else match Lookup(s, name, true, fuzzy)
      case None => Err(NotRegistered)
      case Some(t) =>
        if t.faceEmbeddings == [] then Err(NoFaceData(t))
        else if t.status == "found" then Err(AlreadyFound(t))
        else Ok(t)
  }

  /** The checks, then the scan from the first heading. */
  function Search(s: Store, name: string, fuzzy: Option<string>, abortAtStart: bool,
                  observe: nat -> Observation): (o: Outcome)
    ensures abortAtStart <==> o.AbortedBeforeStart?
    ensures !abortAtStart ==> (o.NotRegistered? <==> Lookup(s, name, true, fuzzy).None?)
    ensures (o.NoFaceData? || o.AlreadyFound? || o.Scanned?) ==>
              !abortAtStart && Lookup(s, name, true, fuzzy) == Some(o.target)
    ensures o.NoFaceData? <==> !abortAtStart && Lookup(s, name, true, fuzzy).Some?
                                 && Lookup(s, name, true, fuzzy).value.faceEmbeddings == []
    ensures o.AlreadyFound? ==> o.target.faceEmbeddings != [] && o.target.status == "found"
    ensures o.Scanned? ==> o.target.faceEmbeddings != [] && o.target.status != "found"
                           && (o.end, o.rotations) == ScanFrom(observe, 0, None)
  {
    match Precheck(s, name, fuzzy, abortAtStart)
    case Err(o) => o
    case Ok(t) =>
      var scan := ScanFrom(observe, 0, None);
      Scanned(t, scan.0, scan.1)
  }

  /** The verifier's box as the dict `result.bbox`: keys x, y, width and height, or `None`. */
  function BoxValue(b: Option<Box>): (v: Value)
    ensures b.None? <==> v == Null
    ensures b.Some? ==> v.Obj? && v.fields.Keys == {"x", "y", "width", "height"}
    ensures b.Some? ==> v.fields["x"] == Num(b.value.x) && v.fields["y"] == Num(b.value.y)
                        && v.fields["width"] == Num(b.value.width) && v.fields["height"] == Num(b.value.height)
  {
    match b
    case None => Null
    case Some(b) => Obj(map["x" := Num(b.x), "y" := Num(b.y), "width" := Num(b.width), "height" := Num(b.height)])
  }

  /** The data of a scan that found no confident match; `best_match` only above the report threshold. */
  function NotFoundData(name: string, best: Option<(nat, VerificationResult)>): (d: map<string, Value>)
    ensures "found" in d && d["found"] == Bool(false)
    ensures "angles_checked" in d && d["angles_checked"] == Num(AnglesToCheck as real)
    ensures "best_match" in d <==> best.Some? && best.value.1.confidence > ReportThreshold
    ensures "best_match" in d ==>
              && d["best_match"].Obj?
              && "angle" in d["best_match"].fields && "confidence" in d["best_match"].fields
              && d["best_match"].fields["angle"] == Num((best.value.0 * RotationPerStep) as real)
              && d["best_match"].fields["confidence"] == Num(best.value.1.confidence)
  {
    var base := map["found" := Bool(false), "target_name" := Str(name), "angles_checked" := Num(AnglesToCheck as real)];
    if best.Some? && best.value.1.confidence > ReportThreshold then
      base["best_match" := Obj(map[
        "angle" := Num((best.value.0 * RotationPerStep) as real),
        "confidence" := Num(best.value.1.confidence),
        "grok_description" := best.value.1.grokDescription])]
    else base
  }

  /**
   * `_handle_found`'s reply: the target's own name, the confidence
   * (rendered by `percent`, the `:.0%` format) and the compass phrase.
   */
  function FoundReport(t: Target, res: VerificationResult, angle: int, percent: real -> string): (r: ToolResult)
    ensures r.success && r.data.Obj?
    ensures {"found", "angle", "direction", "confidence"} <= r.data.fields.Keys
    ensures r.data.fields["found"] == Bool(true) && r.data.fields["angle"] == Num(angle as real)
    ensures r.data.fields["direction"] == Str(AngleToDirection(angle))
    ensures r.data.fields["confidence"] == Num(res.confidence)
    ensures "bbox" in r.data.fields && r.data.fields["bbox"] == BoxValue(res.bbox)
    ensures "target_id" in r.data.fields && r.data.fields["target_id"] == Str(t.id)
  {
    var direction := AngleToDirection(angle);
    Success("FOUND: " + t.name + "! " + percent(res.confidence) + " confidence. Location: " + direction,
      Obj(map[
        "found" := Bool(true),
        "target_id" := Str(t.id),
        "target_name" := Str(t.name),
        "confidence" := Num(res.confidence),
        "confidence_level" := Str(res.level.Name()),
        "angle" := Num(angle as real),
        "direction" := Str(direction),
        "cv_confidence" := Num(res.cvConfidence),
        "grok_confidence" := Num(res.grokConfidence),
        "grok_description" := res.grokDescription,
        "bbox" := BoxValue(res.bbox)]))
  }

  /** The tool's reply for each outcome. */
  function Report(name: string, o: Outcome, percent: real -> string): (r: ToolResult)
    ensures r.success <==> o.AlreadyFound? || (o.Scanned? && !o.end.AbortedAt?)
    ensures o.AbortedBeforeStart? || (o.Scanned? && o.end.AbortedAt?) ==> r.message == "Search aborted"
    ensures o.Scanned? && o.end.AbortedAt? ==>
              r.data == Obj(map["aborted" := Bool(true), "angles_checked" := Num(o.end.step as real)])
    ensures o.Scanned? && o.end.HitAt? ==> r == FoundReport(o.target, o.end.result, o.end.step * RotationPerStep, percent)
    ensures o.Scanned? && o.end.Exhausted? ==> r.data == Obj(NotFoundData(name, o.end.best))
  {
    match o
    case AbortedBeforeStart =>
      ToolBase.Failure("Search aborted", Obj(map["aborted" := Bool(true)]))
    case NotRegistered =>
      ToolBase.Failure("'" + name + "' is not a registered target. Please add them first with a photo.",
        Obj(map["error" := Str("target_not_found"),
                "suggestion" := Str("Add target via the web UI or say 'remember [name]'")]))
    case NoFaceData(t) =>
      ToolBase.Failure("'" + name + "' has no face photo. Please add a clear face photo first.",
        Obj(map["error" := Str("no_face_data"), "target_id" := Str(t.id)]))
    case AlreadyFound(t) =>
      Success("'" + name + "' was already found! Use 'tail' to follow them.",
        Obj(map["already_found" := Bool(true), "target_id" := Str(t.id), "target_name" := Str(t.name),
                "confidence" := Num(t.matchConfidence)]))
    case Scanned(t, e, _) => ScanReport(name, t, e, percent)
  }

  /** The tool's reply once the scan has run. */
  function ScanReport(name: string, t: Target, e: ScanEnd, percent: real -> string): (r: ToolResult)
    ensures r.success <==> !e.AbortedAt?
  {
    match e
    case AbortedAt(i) =>
      ToolBase.Failure("Search aborted", Obj(map["aborted" := Bool(true), "angles_checked" := Num(i as real)]))
    case HitAt(i, res) =>
      FoundReport(t, res, i * RotationPerStep, percent)
    case Exhausted(best) =>
      Success("Completed 360° search. '" + name + "' not found in the area.", Obj(NotFoundData(name, best)))
  }

  /** `n` turns of one step each. */
  function Turns(n: nat): (cs: seq<Command>)
    ensures |cs| == n
    ensures forall i | 0 <= i < n :: cs[i] == RotateClockwise(RotationPerStep)
  {
    if n == 0 then [] else Turns(n - 1) + [RotationCommand(RotationPerStep)]
  }

  /** The drone's command log after `n` turns requested of it: each one is sent only while it flies. */
  function AfterTurns(log: seq<Command>, flying: bool, n: nat): seq<Command>
  {
    log + if flying then Turns(n) else []
  }

  lemma AfterTurnsStep(log: seq<Command>, flying: bool, n: nat)
    ensures AfterTurns(log, flying, n + 1) == AfterTurns(log, flying, n) + (if flying then [RotateClockwise(RotationPerStep)] else [])
  {
    assert Turns(n + 1) == Turns(n) + [RotateClockwise(RotationPerStep)];
  }

  /** One 45-degree turn requested of the drone; a drone that is not flying refuses it. */
  method TurnOnce(drone: DroneController)
    modifies drone`commands, drone.machine
    ensures drone.commands == old(drone.commands) + (if Flying(old(drone.machine.state)) then [RotateClockwise(RotationPerStep)] else [])
    ensures Flying(drone.machine.state) == Flying(old(drone.machine.state))
    ensures drone.machine.observers == old(drone.machine.observers)
  {
    var _ := drone.Rotate(RotationPerStep);
  }

  /**
   * One heading of the scan: stop on an abort or a confident match; else
   * keep the better result and, after a captured frame, turn to the next
   * heading unless this was the last one.
   */
  method ScanStep(drone: DroneController, observe: nat -> Observation, i: nat, best: Option<(nat, VerificationResult)>,
                  rotations: nat, ghost log: seq<Command>, ghost flying: bool)
    returns (stop: Option<ScanEnd>, best': Option<(nat, VerificationResult)>, rotations': nat)
    requires i < AnglesToCheck
    requires Flying(drone.machine.state) == flying
    requires drone.commands == AfterTurns(log, flying, rotations)
    modifies drone`commands, drone.machine
    ensures drone.machine.observers == old(drone.machine.observers)
    ensures Flying(drone.machine.state) == flying
    ensures drone.commands == AfterTurns(log, flying, rotations')
    ensures stop.Some? ==> ScanFrom(observe, i, best) == (stop.value, 0) && rotations' == rotations
    ensures stop.None? ==>
              && ScanFrom(observe, i, best).0 == ScanFrom(observe, i + 1, best').0
              && ScanFrom(observe, i, best).1 + rotations == ScanFrom(observe, i + 1, best').1 + rotations'
  {
    best', rotations' := best, rotations;
    var step := observe(i);
    if step.aborted {
      return Some(AbortedAt(i)), best', rotations';
    }
    if step.captured {
      if IsHit(step.result) {
        return Some(HitAt(i, step.result)), best', rotations';
      }
      best' := Better(best, i, step.result);
      if i < AnglesToCheck - 1 {
        TurnOnce(drone);
        AfterTurnsStep(log, flying, rotations);
        rotations' := rotations + 1;
      }
    }
    stop := None;
  }

  /** The scan loop of `FindPersonTool.execute`: the steps' readings, turning after each captured, non-matching frame. */
  method Scan(drone: DroneController, observe: nat -> Observation) returns (e: ScanEnd, rotations: nat)
    modifies drone`commands, drone.machine
    ensures e == ScanFrom(observe, 0, None).0 && rotations == ScanFrom(observe, 0, None).1
    ensures drone.commands == AfterTurns(old(drone.commands), Flying(old(drone.machine.state)), rotations)
    ensures Flying(drone.machine.state) == Flying(old(drone.machine.state))
    ensures drone.machine.observers == old(drone.machine.observers)
  {
    ghost var flying := Flying(drone.machine.state);
    ghost var whole := ScanFrom(observe, 0, None);
    var best: Option<(nat, VerificationResult)> := None;
    rotations := 0;
    var i: nat := 0;
    while i < AnglesToCheck
      invariant i <= AnglesToCheck
      invariant whole.0 == ScanFrom(observe, i, best).0
      invariant whole.1 == ScanFrom(observe, i, best).1 + rotations
      invariant drone.machine.observers == old(drone.machine.observers)
      invariant Flying(drone.machine.state) == flying
      invariant drone.commands == AfterTurns(old(drone.commands), flying, rotations)
      decreases AnglesToCheck - i
    {
      var stop;
      stop, best, rotations := ScanStep(drone, observe, i, best, rotations, old(drone.commands), flying);
      if stop.Some? {
        return stop.value, rotations;
      }
      i := i + 1;
    }
    assert ScanFrom(observe, i, best) == (Exhausted(best), 0);
    e := Exhausted(best);
  }

  /**
   * `FindPersonTool.execute`. A rotation the drone refuses (it is not
   * flying) is skipped, as the tool ignores the error. On a confident match
   * `_handle_found` first records the find, with its frame, in the session
   * recorder when it is recording; that call never returns (see
   * `Recorder.FindWhileRecordingDeadlocks`), and the result is then `None`.
   * Otherwise the target is marked found with the confidence of the match,
   * `photo` standing for the path under which the frame was saved.
   */
  method FindPerson(drone: DroneController, manager: TargetManager, recorder: Recorder.SessionRecorder,
                    name: string, fuzzy: Option<string>,
                    abortAtStart: bool, observe: nat -> Observation, photo: Option<string>, now: string,
                    percent: real -> string)
    returns (r: Option<ToolResult>)
    requires recorder.Valid()
    modifies drone`commands, drone.machine, manager, recorder`targetsFound, recorder`events
    ensures var o := Search(old(manager.Snapshot()), name, fuzzy, abortAtStart, observe);
            var hangs := o.Scanned? && o.end.HitAt? && old(recorder.recording);
            && (r.None? <==> hangs)
            && (r.Some? ==> r.value == Report(name, o, percent))
            && manager.Snapshot() ==
                 (if o.Scanned? && o.end.HitAt? && !hangs
                  then MarkedFound(old(manager.Snapshot()), o.target.id, None, photo, o.end.result.confidence, now).0
                  else old(manager.Snapshot()))
            && drone.commands ==
                 AfterTurns(old(drone.commands), Flying(old(drone.machine.state)), if o.Scanned? then o.rotations else 0)
    ensures recorder.targetsFound == old(recorder.targetsFound) && recorder.events == old(recorder.events)
    ensures Flying(drone.machine.state) == Flying(old(drone.machine.state))
    ensures drone.machine.observers == old(drone.machine.observers)
  {
    var pre := Precheck(manager.Snapshot(), name, fuzzy, abortAtStart);
    if pre.Err? {
      assert Search(manager.Snapshot(), name, fuzzy, abortAtStart, observe) == pre.error;
      return Some(Report(name, pre.error, percent));
    }
    var target := pre.value;
    var e, rotations := Scan(drone, observe);
    assert Search(old(manager.Snapshot()), name, fuzzy, abortAtStart, observe) == Scanned(target, e, rotations);
    if e.HitAt? {
      if recorder.recording {
        Recorder.FindWhileRecordingDeadlocks(recorder);
        var c := recorder.RecordTargetFound(target.id, target.name, e.result.confidence, true);
        assert c == Recorder.Deadlocked;
        return None;
      }
      var _ := manager.MarkFound(target.id, None, photo, e.result.confidence, now);
    }
    r := Some(Report(name, Scanned(target, e, rotations), percent));
  }
}

=== FILE: grok_replies.dfy ===
/**
 * Clean-up of the vision model's text replies: the markdown fence strip
 * applied to generated code and to JSON answers, the cut after the first
 * balanced JSON value, and the YES-prefix test of a search answer.
 */
module GrokReplies {
  import opened Text

  const Fence := "```"

  // ------------------------------------------------------------- fences

  /** Drops a leading fence line and a trailing fence line (text already stripped). */
  function Unfence(s: string): string
  {
    if StartsWith(s, Fence) then
      var lines := Split(s, '\n')[1..];
      var body := if |lines| > 0 && Strip(lines[|lines| - 1]) == Fence then lines[..|lines| - 1] else lines;
      Join(body, "\n")
    else s
  }

  /** `_strip_markdown`. */
  function StripMarkdown(code: string): string
  {
    Strip(Unfence(Strip(code)))
  }

  lemma StripUnchanged(s: string)
    requires s != [] && !IsSpace(s[0]) && !IsSpace(s[|s| - 1])
    ensures Strip(s) == s
  {
  }

  /** Code without a fence is only stripped. */
  lemma StripMarkdownUnfenced(code: string)
    requires !StartsWith(Strip(code), Fence)
    ensures StripMarkdown(code) == Strip(code)
  {
    StripIdempotent(code);
  }

  /** The lines of a fenced block: the opening fence line, the body's lines, the closing fence. */
  lemma FencedLines(lang: string, body: string)
    requires forall i :: 0 <= i < |lang| ==> lang[i] != '\n'
    ensures Split(Fence + lang + "\n" + body + "\n" + Fence, '\n') == [Fence + lang] + Split(body, '\n') + [Fence]
  {
    var head := Fence + lang;
    assert head + "\n" + body + "\n" + Fence == head + ['\n'] + (body + ['\n'] + Fence);
    SplitConcat(head, body + ['\n'] + Fence, '\n');
    SplitNoSeparator(head, '\n');
    SplitNoSeparator(Fence, '\n');
    SplitConcat(body, Fence, '\n');
  }

  /** A fenced block with a language tag gives back its body, stripped. */
  lemma StripMarkdownFenced(lang: string, body: string)
    requires forall i :: 0 <= i < |lang| ==> lang[i] != '\n'
    ensures StripMarkdown(Fence + lang + "\n" + body + "\n" + Fence) == Strip(body)
  {
    var s := Fence + lang + "\n" + body + "\n" + Fence;
    assert s[0] == '`' && s[|s| - 1] == '`';
    StripUnchanged(s);
    assert s[..|Fence|] == Fence;
    FencedLines(lang, body);
    var lines := Split(s, '\n')[1..];
    assert lines == Split(body, '\n') + [Fence];
    assert Strip(Fence) == Fence;
    assert lines[..|lines| - 1] == Split(body, '\n');
    JoinSplit(body, '\n');
    assert Unfence(s) == body;
  }

  // ----------------------------------------------------- the JSON cut

  /** Nesting depth after reading `s`: openers minus closers. */
  function Depth(s: string, opener: char, closer: char): int
  {
    if s == [] then 0
    else Depth(s[..|s| - 1], opener, closer)
         + (if s[|s| - 1] == opener then 1 else if s[|s| - 1] == closer then -1 else 0)
  }

  /** Reading the first k characters ends on a closer that brings the depth back to 0. */
  predicate ClosesAt(s: string, opener: char, closer: char, k: int)
  {
    0 < k <= |s| && s[k - 1] == closer && Depth(s[..k], opener, closer) == 0
  }

  /** The counting scan from position i with the given depth: end index after the first close, or 0. */
  function ScanClose(s: string, opener: char, closer: char, i: nat, depth: int): (e: nat)
    requires i <= |s|
    ensures e == 0 || i < e <= |s|
    decreases |s| - i
  {
    if i == |s| then 0
    else if s[i] == opener then ScanClose(s, opener, closer, i + 1, depth + 1)
    else if s[i] == closer then
      if depth - 1 == 0 then i + 1 else ScanClose(s, opener, closer, i + 1, depth - 1)
    else ScanClose(s, opener, closer, i + 1, depth)
  }

  function FirstClose(s: string, opener: char, closer: char): (e: nat)
    ensures e <= |s|
  {
    ScanClose(s, opener, closer, 0, 0)
  }

  lemma {:induction false} ScanCloseMeaning(s: string, opener: char, closer: char, i: nat, depth: int)
    requires opener != closer
    requires i <= |s| && depth == Depth(s[..i], opener, closer)
    requires forall k :: 0 < k <= i ==> !ClosesAt(s, opener, closer, k)
    ensures var e := ScanClose(s, opener, closer, i, depth);
      (e == 0 ==> forall k :: 0 < k <= |s| ==> !ClosesAt(s, opener, closer, k))
      && (e > 0 ==> ClosesAt(s, opener, closer, e) && forall k :: 0 < k < e ==> !ClosesAt(s, opener, closer, k))
    decreases |s| - i
  {
    if i < |s| {
      assert s[..i + 1][..i] == s[..i];
      var d := Depth(s[..i + 1], opener, closer);
      assert d == depth + (if s[i] == opener then 1 else if s[i] == closer then -1 else 0);
      if !(s[i] == closer && d == 0) {
        assert !ClosesAt(s, opener, closer, i + 1);
        ScanCloseMeaning(s, opener, closer, i + 1, d);
      }
    } else {
      assert s[..i] == s;
    }
  }

  /**
   * The value found by the scan is the shortest prefix that ends on a closer
   * at depth 0; 0 means there is none.
   */
  lemma FirstCloseMeaning(s: string, opener: char, closer: char)
    requires opener != closer
    ensures var e := FirstClose(s, opener, closer);
      (e == 0 ==> forall k :: 0 < k <= |s| ==> !ClosesAt(s, opener, closer, k))
      && (e > 0 ==> ClosesAt(s, opener, closer, e) && forall k :: 0 < k < e ==> !ClosesAt(s, opener, closer, k))
  {
    ScanCloseMeaning(s, opener, closer, 0, 0);
  }

  /** The counting loop of `_strip_json_markdown` (one copy serves braces and brackets). */
  method BalancedEnd(s: string, opener: char, closer: char) returns (end: nat)
    ensures end == FirstClose(s, opener, closer)
  {
    var count := 0;
    end := 0;
    var i := 0;
    while i < |s|
      invariant 0 <= i <= |s|
      invariant FirstClose(s, opener, closer) == ScanClose(s, opener, closer, i, count)
    {
      if s[i] == opener {
        count := count + 1;
      } else if s[i] == closer {
        count := count - 1;
        if count == 0 {
          end := i + 1;
          return;
        }
      }
      i := i + 1;
    }
  }

  /** The text after fence removal, cut after the first balanced value when it starts one. */
  function CutJson(t: string): string
  {
    if StartsWith(t, "{") then
      var e := FirstClose(t, '{', '}');
      if e > 0 then t[..e] else t
    else if StartsWith(t, "[") then
      var e := FirstClose(t, '[', ']');
      if e > 0 then t[..e] else t
    else t
  }

  function CleanJson(content: string): string
  {
    Strip(CutJson(Strip(Unfence(Strip(content)))))
  }

  /** `_strip_json_markdown`. */
  method StripJsonMarkdown(content: string) returns (r: string)
    ensures r == CleanJson(content)
  {
    var t := Strip(Unfence(Strip(content)));
    if StartsWith(t, "{") {
      var e := BalancedEnd(t, '{', '}');
      if e > 0 {
        t := t[..e];
      }
    } else if StartsWith(t, "[") {
      var e := BalancedEnd(t, '[', ']');
      if e > 0 {
        t := t[..e];
      }
    }
    r := Strip(t);
  }

  lemma {:induction false} ScanCloseExtend(s: string, tail: string, opener: char, closer: char, i: nat, depth: int)
    requires i <= |s| && ScanClose(s, opener, closer, i, depth) > 0
    ensures ScanClose(s + tail, opener, closer, i, depth) == ScanClose(s, opener, closer, i, depth)
    decreases |s| - i
  {
    assert (s + tail)[i] == s[i];
    if s[i] == opener {
      ScanCloseExtend(s, tail, opener, closer, i + 1, depth + 1);
    } else if s[i] == closer {
      if depth - 1 != 0 {
        ScanCloseExtend(s, tail, opener, closer, i + 1, depth - 1);
      }
    } else {
      ScanCloseExtend(s, tail, opener, closer, i + 1, depth);
    }
  }

  /**
   * A JSON object followed by trailing prose is cut back to the object:
   * whatever follows the closing brace that balances the first one is dropped.
   */
  lemma CleanJsonDropsTrailingText(obj: string, tail: string)
    requires |obj| > 0 && obj[0] == '{' && FirstClose(obj, '{', '}') == |obj|
    requires tail == [] || !IsSpace(tail[|tail| - 1])
    ensures CleanJson(obj + tail) == obj
  {
    FirstCloseMeaning(obj, '{', '}');
    var s := obj + tail;
    assert s[0] == '{';
    StripUnchanged(s);
    assert !StartsWith(s, Fence);
    StripUnchanged(s);
    ScanCloseExtend(obj, tail, '{', '}', 0, 0);
    assert s[..|obj|] == obj;
    StripUnchanged(obj);
  }

  // ------------------------------------------------------ search answer

  /** `result.upper().startswith('YES')`: the search reply counts as a sighting. */
  function SearchFound(reply: string): (found: bool)
    ensures found <==> |reply| >= 3 && UpperChar(reply[0]) == 'Y'
                       && UpperChar(reply[1]) == 'E' && UpperChar(reply[2]) == 'S'
  {
    StartsWith(Upper(reply), "YES")
  }
}

=== FILE: helpers.dfy ===
/**
 * Two helpers of the agent loop: spotting an abort word in what the
 * operator typed, and summarising tool results as text.
 */
module Helpers {
  import opened Json
  import Text

  const AbortKeywords: seq<string> := ["stop", "halt", "wait", "abort", "emergency", "cancel", "freeze"]

  /** `is_abort_keyword`: some keyword occurs anywhere in the lowercased text, even inside another word. */
  predicate IsAbortKeyword(text: string)
  {
    HasKeyword(Text.Lower(text))
  }

  predicate HasKeyword(s: string)
  {
    exists k | k in AbortKeywords :: Text.Contains(s, k)
  }

  /** Lowercasing is done piecewise. */
  lemma LowerConcat(a: string, b: string)
    ensures Text.Lower(a + b) == Text.Lower(a) + Text.Lower(b)
  {
    var l, r := Text.Lower(a + b), Text.Lower(a) + Text.Lower(b);
    assert |l| == |r|;
    forall i | 0 <= i < |l|
      ensures l[i] == r[i]
    {
      if i < |a| {
        assert (a + b)[i] == a[i];
      } else {
        assert (a + b)[i] == b[i - |a|];
      }
    }
  }

  lemma ContainsExtends(s: string, t: string, k: string)
    requires Text.Contains(s, k)
    ensures Text.Contains(s + t, k) && Text.Contains(t + s, k)
  {
    var i :| 0 <= i <= |s| - |k| && k <= s[i..];
    assert k <= (s + t)[i..];
    assert k <= (t + s)[|t| + i..];
  }

  lemma HasKeywordExtends(s: string, before: string, after: string)
    requires HasKeyword(s)
    ensures HasKeyword(before + s + after)
  {
    var k :| k in AbortKeywords && Text.Contains(s, k);
    ContainsExtends(s, after, k);
    ContainsExtends(s + after, before, k);
    assert before + (s + after) == before + s + after;
  }

  /** Text around an abort word still aborts: nothing typed before or after cancels it. */
  lemma AbortSurvivesContext(before: string, text: string, after: string)
    requires IsAbortKeyword(text)
    ensures IsAbortKeyword(before + text + after)
  {
    LowerConcat(before, text);
    LowerConcat(before + text, after);
    HasKeywordExtends(Text.Lower(text), Text.Lower(before), Text.Lower(after));
  }

  /** Case does not matter: the lowercased text aborts exactly when the text does. */
  lemma AbortIgnoresCase(text: string)
    ensures IsAbortKeyword(Text.Lower(text)) <==> IsAbortKeyword(text)
  {
    Text.LowerIdempotent(text);
  }

  /** Text without capitals is its own lowercase form. */
  lemma LowerOfLowercase(s: string)
    requires forall i | 0 <= i < |s| :: !('A' <= s[i] <= 'Z')
    ensures Text.Lower(s) == s
  {
  }

  /** A keyword found at some offset of the text. */
  lemma KeywordAt(s: string, k: string, i: int)
    requires k in AbortKeywords && 0 <= i <= |s| - |k| && k <= s[i..]
    ensures HasKeyword(s)
  {
    assert Text.Contains(s, k);
  }

  /** Words that merely contain a keyword abort too: "await" holds "wait". */
  lemma AwaitAborts()
    ensures IsAbortKeyword("await")
  {
    LowerOfLowercase("await");
    assert "await"[1..] == "wait";
    KeywordAt("await", "wait", 1);
  }

  /** "stopwatch" holds "stop". */
  lemma StopwatchAborts()
    ensures IsAbortKeyword("stopwatch")
  {
    LowerOfLowercase("stopwatch");
    assert "stopwatch"[0..] == "stop" + "watch";
    KeywordAt("stopwatch", "stop", 0);
  }

  // ------------------------------------------------------------ tool results

  /**
   * One result line: a tick when `success` is truthy (missing is false),
   * then the tool name (default "unknown") and the message (default "").
   * `show` renders a value that is not a string, as Python's `str` would.
   */
  function ResultLine(result: map<string, Value>, show: Value -> string): (line: string)
    ensures |line| > 0
    ensures line[0] == if Truthy(Get(result, "success", Bool(false))) then '✅' else '❌'
  {
    var tool := Get(result, "tool", Str("unknown"));
    var message := Get(result, "message", Str(""));
    var status := if Truthy(Get(result, "success", Bool(false))) then "✅" else "❌";
    status + " " + Render(tool, show) + ": " + Render(message, show)
  }

  function Render(v: Value, show: Value -> string): string
  {
    if v.Str? then v.s else show(v)
  }

  function ResultLines(results: seq<map<string, Value>>, show: Value -> string): (lines: seq<string>)
    ensures |lines| == |results|
    ensures forall i | 0 <= i < |results| :: lines[i] == ResultLine(results[i], show)
  {
    if results == [] then [] else ResultLines(results[..|results| - 1], show) + [ResultLine(results[|results| - 1], show)]
  }

  /** `format_tool_results` as a value: the fixed text for no results, else the lines joined by newlines. */
  function Formatted(results: seq<map<string, Value>>, show: Value -> string): (s: string)
    ensures results == [] ==> s == "No tools executed"
    ensures results != [] ==> s == Text.Join(ResultLines(results, show), "\n")
  {
    if results == [] then "No tools executed" else Text.Join(ResultLines(results, show), "\n")
  }

  /** A single result is its own line, with nothing added. */
  lemma SingleResult(result: map<string, Value>, show: Value -> string)
    ensures Formatted([result], show) == ResultLine(result, show)
  {
    assert ResultLines([result], show) == [ResultLine(result, show)];
  }

  /** `format_tool_results`: the lines are built in a loop, in the order of the results. */
  method FormatToolResults(results: seq<map<string, Value>>, show: Value -> string) returns (s: string)
    ensures s == Formatted(results, show)
  {
    if results == [] {
      return "No tools executed";
    }
    var lines: seq<string> := [];
    var i := 0;
    while i < |results|
      invariant 0 <= i <= |results|
      invariant lines == ResultLines(results[..i], show)
    {
      assert results[..i + 1][..i] == results[..i];
      lines := lines + [ResultLine(results[i], show)];
      i := i + 1;
    }
    assert results[..i] == results;
    s := Text.Join(lines, "\n");
  }
}

=== FILE: image_processor.dfy ===
/**
 * The crop and thumbnail arithmetic of the image processor. Images are
 * reduced to their height and width in pixels; boxes arrive as fractions
 * of the frame. Fractions are exact reals.
 */
module ImageProcessor {
  import opened Wrappers
  import Text

  /** A box as fractions of the frame: left, top, width, height. */
  datatype FracBox = FracBox(x: real, y: real, width: real, height: real)

  /** A crop in pixels: left column, top row, width, height. */
  datatype Crop = Crop(x: int, y: int, width: int, height: int)

  /** Python's `int()` on a float: truncation toward zero. */
  function Trunc(r: real): (n: int)
    ensures r >= 0.0 ==> n as real <= r < n as real + 1.0
    ensures r < 0.0 ==> n as real - 1.0 < r <= n as real
  {
    if r >= 0.0 then r.Floor else -((-r).Floor)
  }

  function Max(a: int, b: int): int { if a >= b then a else b }
  function Min(a: int, b: int): int { if a <= b then a else b }

  /**
   * `extract_region` on an `h` by `w` frame: the box is converted to whole
   * pixels, widened by `padding` on each side and clipped at the frame's
   * right and bottom edges; a crop with no area is refused.
   */
  function ExtractRegion(h: nat, w: nat, b: FracBox, padding: int): (r: Option<Crop>)
    ensures r.Some? ==> 0 <= r.value.x && 0 < r.value.width && r.value.x + r.value.width <= w
    ensures r.Some? ==> 0 <= r.value.y && 0 < r.value.height && r.value.y + r.value.height <= h
  {
    var x0 := Trunc(b.x * w as real);
    var y0 := Trunc(b.y * h as real);
    var bw0 := Trunc(b.width * w as real);
    var bh0 := Trunc(b.height * h as real);
    var x := Max(0, x0 - padding);
    var y := Max(0, y0 - padding);
    var bw := Min(w - x, bw0 + 2 * padding);
    var bh := Min(h - y, bh0 + 2 * padding);
    if bw <= 0 || bh <= 0 then None else Some(Crop(x, y, bw, bh))
  }

  /** The pixel box before padding. */
  function PixelBox(h: nat, w: nat, b: FracBox): Crop
  {
    Crop(Trunc(b.x * w as real), Trunc(b.y * h as real), Trunc(b.width * w as real), Trunc(b.height * h as real))
  }

  /**
   * With non-negative padding the crop covers the pixel box, clipped to the
   * frame: it starts no later and ends no earlier (or at the frame's edge).
   * The crop is refused exactly when the clipped, padded box has no area.
   */
  lemma CropCoversBox(h: nat, w: nat, b: FracBox, padding: int)
    requires padding >= 0
    ensures var p := PixelBox(h, w, b);
            var r := ExtractRegion(h, w, b, padding);
            (r.None? <==> Min(w - Max(0, p.x - padding), p.width + 2 * padding) <= 0
                          || Min(h - Max(0, p.y - padding), p.height + 2 * padding) <= 0)
            && (r.Some? ==>
                  && r.value.x <= Max(0, p.x) && r.value.y <= Max(0, p.y)
                  && r.value.x + r.value.width >= Min(w, p.x + p.width)
                  && r.value.y + r.value.height >= Min(h, p.y + p.height))
  {
  }

  /** The face is looked for in the upper 35% of a person box, trimmed by a tenth on each side. */
  function FaceBox(person: FracBox): (f: FracBox)
    ensures f.y == person.y && f.height == person.height * 0.35
    ensures person.width >= 0.0 ==> person.x <= f.x && f.x + f.width <= person.x + person.width
  {
    FracBox(person.x + person.width * 0.1, person.y, person.width * 0.8, person.height * 0.35)
  }

  const FacePadding: int := 10

  /** `extract_face_region`: the region of the face box with 10 pixels of padding. */
  function ExtractFaceRegion(h: nat, w: nat, person: FracBox): (r: Option<Crop>)
    ensures r.Some? ==> r.value.x + r.value.width <= w && r.value.y + r.value.height <= h
  {
    ExtractRegion(h, w, FaceBox(person), FacePadding)
  }

  /**
   * `create_thumbnail`'s requested size: the image itself when it already
   * fits, else the longer side becomes `maxSize` and the other is scaled
   * and truncated. OpenCV refuses a requested size with a side of zero or
   * less, and the error path returns the image unchanged.
   */
  function CreateThumbnail(h: nat, w: nat, maxSize: int): (r: (int, int))
    ensures r == (h, w) || (0 < r.0 <= maxSize && 0 < r.1 <= maxSize && (r.0 == maxSize || r.1 == maxSize))
    ensures Max(h, w) <= maxSize ==> r == (h, w)
  {
    if Max(h, w) <= maxSize || (h == 0 && w == 0) then (h, w)
    else
      var size := if w > h then (ShortSide(h, w, maxSize), maxSize) else (maxSize, ShortSide(w, h, maxSize));
      if size.0 <= 0 || size.1 <= 0 then (h, w) else size
  }

  /** The shorter side `a` scaled by `m / b`, floored. */
  function ShortSide(a: nat, b: nat, m: int): (s: int)
    requires a <= b && b > 0
    ensures m > 0 ==> s <= m
  {
    if m > 0 then ScaledAtMost(a, b, m); a * m / b else a * m / b
  }

  /** Scaling the shorter side by `m / b` never makes it longer than `m`. */
  lemma ScaledAtMost(a: nat, b: nat, m: int)
    requires a <= b && b > 0 && m > 0
    ensures a * m / b <= m
  {
    assert a * m <= b * m;
  }

  /** A thumbnail keeps the orientation: the longer side stays the longer (or equal) side. */
  lemma ThumbnailKeepsOrientation(h: nat, w: nat, maxSize: int)
    requires maxSize > 0
    ensures var r := CreateThumbnail(h, w, maxSize);
            (w > h ==> r.1 >= r.0) && (h >= w ==> r.0 >= r.1)
  {
    if Max(h, w) > maxSize {
      if w > h {
        ScaledAtMost(h, w, maxSize);
      } else {
        ScaledAtMost(w, h, maxSize);
      }
    }
  }

  /** A 1 by 1000 image asks for a 0 by 150 thumbnail, which is refused, so the image comes back whole. */
  lemma ThinImageThumbnailTooLarge()
    ensures CreateThumbnail(1, 1000, 150) == (1, 1000)
    ensures CreateThumbnail(1, 1000, 150).1 > 150
  {
    assert 1 * 150 / 1000 == 0;
  }

  /** The thumbnail size with the short side kept at least one pixel. */
  function FittedThumbnail(h: nat, w: nat, maxSize: int): (r: (int, int))
    requires maxSize > 0
  {
    if Max(h, w) <= maxSize || (h == 0 && w == 0) then (h, w)
    else if w > h then (Max(1, h * maxSize / w), maxSize)
    else (maxSize, Max(1, w * maxSize / h))
  }

  /** With the short side kept at one pixel or more, every thumbnail of a non-empty image fits. */
  lemma FittedThumbnailFits(h: nat, w: nat, maxSize: int)
    requires maxSize > 0 && h > 0 && w > 0
    ensures var r := FittedThumbnail(h, w, maxSize);
            0 < r.0 <= maxSize && 0 < r.1 <= maxSize
    ensures Max(h, w) <= maxSize ==> FittedThumbnail(h, w, maxSize) == (h, w)
  {
    if Max(h, w) > maxSize {
      if w > h {
        ScaledAtMost(h, w, maxSize);
      } else {
        ScaledAtMost(w, h, maxSize);
      }
    }
  }

  /** Left edge for a frame position word; an unknown word is the centre, 0.35. */
  function PositionX(framePosition: string): (x: real)
    ensures 0.0 <= x <= 0.75
  {
    match Text.Lower(framePosition)
    case "far_left" => 0.0
    case "left" => 0.15
    case "center" => 0.35
    case "right" => 0.55
    case "far_right" => 0.75
    case _ => 0.35
  }

  /** Width and height for a distance word; an unknown word is "medium". */
  function DistanceSize(estimatedDistance: string): (s: (real, real))
    ensures 0.1 <= s.0 <= 0.4 && 0.25 <= s.1 <= 0.7
  {
    match Text.Lower(estimatedDistance)
    case "very_close" => (0.4, 0.7)
    case "close" => (0.3, 0.6)
    case "medium" => (0.25, 0.5)
    case "far" => (0.15, 0.35)
    case "very_far" => (0.1, 0.25)
    case _ => (0.25, 0.5)
  }

  /** `estimate_bbox_from_position`: the box always starts 0.1 from the top and its left edge and bottom lie inside the frame. */
  function EstimateBboxFromPosition(framePosition: string, estimatedDistance: string): (b: FracBox)
    ensures b.y == 0.1
    ensures 0.0 <= b.x < 1.0 && b.y + b.height <= 1.0
    ensures b.x == PositionX(framePosition) && (b.width, b.height) == DistanceSize(estimatedDistance)
  {
    var s := DistanceSize(estimatedDistance);
    FracBox(PositionX(framePosition), 0.1, s.0, s.1)
  }

  /** Lookups ignore case, and a word outside the tables reads as centred at medium range. */
  lemma EstimateIgnoresCase(framePosition: string, estimatedDistance: string)
    ensures EstimateBboxFromPosition(Text.Lower(framePosition), Text.Lower(estimatedDistance))
            == EstimateBboxFromPosition(framePosition, estimatedDistance)
    ensures EstimateBboxFromPosition("", "") == FracBox(0.35, 0.1, 0.25, 0.5)
  {
    Text.LowerIdempotent(framePosition);
    Text.LowerIdempotent(estimatedDistance);
  }
}

=== FILE: json.dfy ===
/**
 * The JSON-shaped values the Python code passes around as dicts and lists
 * (oracle replies, tool arguments, stored records), with Python's truthiness
 * and `dict.get(key, default)`.
 */
module Json {
  import opened Wrappers

  datatype Value =
    | Null
    | Bool(b: bool)
    | Num(n: real)
    | Str(s: string)
    | Arr(items: seq<Value>)
    | Obj(fields: map<string, Value>)

  /** Python's `bool(v)`: `None`, `False`, zero and empty containers are false. */
  predicate Truthy(v: Value)
  {
    match v
    case Null => false
    case Bool(b) => b
    case Num(n) => n != 0.0
    case Str(s) => s != []
    case Arr(items) => items != []
    case Obj(fields) => fields != map[]
  }

  /** `d.get(key, default)`. */
  function Get(fields: map<string, Value>, key: string, default: Value): (r: Value)
    ensures key in fields ==> r == fields[key]
    ensures key !in fields ==> r == default
  {
    if key in fields then fields[key] else default
  }

  /**
   * Python's `float(v)` on a decoded value: numbers as they are, booleans as
   * 1 and 0, strings through `parseFloat`; anything else raises.
   */
  function ToFloat(v: Value, parseFloat: string -> Option<real>): (r: Option<real>)
    ensures v.Num? ==> r == Some(v.n)
    ensures v.Null? || v.Arr? || v.Obj? ==> r == None
  {
    match v
    case Num(n) => Some(n)
    case Bool(b) => Some(if b then 1.0 else 0.0)
    case Str(s) => parseFloat(s)
    case _ => None
  }
}

=== FILE: memory.dfy ===
/**
 * The drone's working memory: heading relative to take-off, a
 * dead-reckoned position, and the recent conversation kept for the language
 * model's context.
 */
module Memory {

  /** Python's `xs[start:]` for any integer `start`: a negative start counts from the end, and both ends are clamped. */
  function SliceFrom<T>(xs: seq<T>, start: int): seq<T>
  {
    var s := if start < 0 then (if start + |xs| < 0 then 0 else start + |xs|) else (if start > |xs| then |xs| else start);
    xs[s..]
  }

  /** The heading after turning `rotation` degrees clockwise, normalised into [0, 360) as Python's `%` does. */
  function Turned(heading: int, rotation: int): (h: int)
    ensures 0 <= h < 360
    ensures (h - heading - rotation) % 360 == 0
  {
    (heading + rotation) % 360
  }

  /** Turning back undoes a turn, and two turns compose into one. */
  lemma TurnsCompose(heading: int, a: int, b: int)
    requires 0 <= heading < 360
    ensures Turned(Turned(heading, a), -a) == heading
    ensures Turned(Turned(heading, a), b) == Turned(heading, a + b)
  {
    var h1 := Turned(heading, a);
    var k := (heading + a) / 360;
    assert h1 == heading + a - 360 * k;
    assert h1 - a == heading + 360 * (-k);
    assert (h1 - a) % 360 == heading;
    assert h1 + b == heading + a + b + 360 * (-k);
  }

  datatype Position = Position(x: int, y: int, z: int)

  datatype Turn = Turn(role: string, content: string)

  const MaxTurns: nat := 30

  /** The conversation after appending `t`: only the last thirty turns are kept. */
  function Appended(conversation: seq<Turn>, t: Turn): (r: seq<Turn>)
    ensures |r| == if |conversation| + 1 > MaxTurns then MaxTurns else |conversation| + 1
    ensures r[|r| - 1] == t
    ensures r == (conversation + [t])[|conversation| + 1 - |r|..]
  {
    var all := conversation + [t];
    if |all| > MaxTurns then all[|all| - MaxTurns..] else all
  }

  /** `get_conversation_for_ai`: the `[-last_n:]` slice as (role, content) pairs. */
  function RecentTurns(conversation: seq<Turn>, lastN: int): (r: seq<Turn>)
    ensures lastN == 0 ==> r == conversation
    ensures lastN > 0 ==> r == conversation[(if lastN >= |conversation| then 0 else |conversation| - lastN)..]
    ensures lastN < 0 ==> r == conversation[(if -lastN > |conversation| then |conversation| else -lastN)..]
  {
    SliceFrom(conversation, -lastN)
  }

  /** For a positive `n` the result is the last `min(n, len)` turns, in chronological order. */
  lemma RecentTurnsAreLast(conversation: seq<Turn>, n: int)
    requires n > 0
    ensures |RecentTurns(conversation, n)| == if n < |conversation| then n else |conversation|
    ensures RecentTurns(conversation, n) == conversation[|conversation| - |RecentTurns(conversation, n)|..]
  {
  }

  class DroneMemory {
    var heading: int
    var position: Position
    var conversation: seq<Turn>

    ghost predicate Valid()
      reads this
    {
      0 <= heading < 360 && |conversation| <= MaxTurns
    }

    constructor()
      ensures Valid()
      ensures heading == 0 && position == Position(0, 0, 0) && conversation == []
    {
      heading := 0;
      position := Position(0, 0, 0);
      conversation := [];
    }

    /** The `position` property: a copy the caller cannot alter. */
    function GetPosition(): (p: Position)
      reads this
      ensures p == position
    {
      position
    }

    method UpdateHeading(rotation: int)
      requires Valid()
      modifies this`heading
      ensures Valid()
      ensures heading == Turned(old(heading), rotation)
    {
      heading := (heading + rotation) % 360;
    }

    /**
     * `update_position`. Vertical moves change only `z`, by exactly the
     * distance. A horizontal move adds the heading-dependent offset
     * `planar` (the truncated `distance·cos`/`distance·sin` of the
     * heading, turned a quarter for left and right); `back` subtracts it.
     * Any other direction changes nothing.
     */
    method UpdatePosition(direction: string, distance: int, planar: (int, int))
      modifies this`position
      ensures direction == "up" ==> position == old(position).(z := old(position).z + distance)
      ensures direction == "down" ==> position == old(position).(z := old(position).z - distance)
      ensures direction in {"forward", "left", "right"} ==>
                position == old(position).(x := old(position).x + planar.0, y := old(position).y + planar.1)
      ensures direction == "back" ==>
                position == old(position).(x := old(position).x - planar.0, y := old(position).y - planar.1)
      ensures direction !in {"forward", "back", "left", "right", "up", "down"} ==> position == old(position)
    {
      if direction == "forward" || direction == "left" || direction == "right" {
        position := position.(x := position.x + planar.0, y := position.y + planar.1);
      } else if direction == "back" {
        position := position.(x := position.x - planar.0, y := position.y - planar.1);
      } else if direction == "up" {
        position := position.(z := position.z + distance);
      } else if direction == "down" {
        position := position.(z := position.z - distance);
      }
    }

    /** `reset_position`: heading and position back to the take-off origin; the conversation stays. */
    method ResetPosition()
      requires Valid()
      modifies this`heading, this`position
      ensures Valid()
      ensures heading == 0 && position == Position(0, 0, 0)
    {
      heading := 0;
      position := Position(0, 0, 0);
    }

    method AddConversationTurn(role: string, content: string)
      requires Valid()
      modifies this`conversation
      ensures Valid()
      ensures conversation == Appended(old(conversation), Turn(role, content))
    {
      conversation := conversation + [Turn(role, content)];
      if |conversation| > MaxTurns {
        conversation := conversation[|conversation| - MaxTurns..];
      }
    }

    function GetConversationForAi(lastN: int): (r: seq<Turn>)
      reads this
      ensures r == RecentTurns(conversation, lastN)
    {
      RecentTurns(conversation, lastN)
    }
  }
}

=== FILE: memory_tools.dfy ===
/**
 * The memory tools: reporting the drone's heading as the nearest compass
 * word, listing the registered search targets, and remembering the person
 * in view as a new target.
 */
module MemoryTools {
  import opened Wrappers
  import opened Json
  import opened ToolBase
  import Text
  import Memory
  import Targets
  import FaceRecognition

  // ------------------------------------------------------------ drone status

  const CompassKeys: seq<int> := [0, 45, 90, 135, 180, 225, 270, 315]

  function CompassLabel(k: int): string
  {
    match k
    case 0 => "forward (original)"
    case 45 => "front-right"
    case 90 => "right"
    case 135 => "back-right"
    case 180 => "behind"
    case 225 => "back-left"
    case 270 => "left"
    case _ => "front-left"
  }

  /** The angle between two headings going the short way round: `abs((h - k + 180) % 360 - 180)`. */
  function AngleBetween(h: int, k: int): (d: int)
    ensures 0 <= d <= 180
  {
    var r := (h - k + 180) % 360 - 180;
    if r < 0 then -r else r
  }

  /** Python's `min(keys, key=...)`: the first key at the least angle from `h`. */
  function Closest(h: int, keys: seq<int>): (k: int)
    requires |keys| > 0
    ensures k in keys
    ensures forall j | 0 <= j < |keys| :: AngleBetween(h, k) <= AngleBetween(h, keys[j])
    ensures AngleBetween(h, keys[0]) == AngleBetween(h, k) ==> k == keys[0]
  {
    if |keys| == 1 then keys[0]
    else
      var r := Closest(h, keys[1..]);
      if AngleBetween(h, keys[0]) <= AngleBetween(h, r) then keys[0] else r
  }

  /** The compass point that rounding the heading to the nearest 45 degrees gives. */
  function Rounded(h: int): (k: int)
    ensures k in CompassKeys
  {
    45 * (((h % 360) + 22) / 45 % 8)
  }

  /** The remainder of a whole number of turns plus an angle within one turn. */
  lemma TurnsRemainder(m: int, e: int)
    requires 0 <= e < 360
    ensures (360 * m + e) % 360 == e
  {
  }

  lemma RoundedIsNear(h: int)
    ensures AngleBetween(h, Rounded(h)) <= 22
  {
    var a, m := h % 360, h / 360;
    assert h == 360 * m + a;
    var q := (a + 22) / 45;
    assert 45 * q <= a + 22 < 45 * q + 45;
    assert 0 <= q <= 8;
    var k := Rounded(h);
    if q == 8 {
      assert k == 0;
      assert h - k + 180 == 360 * (m + 1) + (a - 180);
      TurnsRemainder(m + 1, a - 180);
    } else {
      assert k == 45 * q;
      assert h - k + 180 == 360 * m + (a - k + 180);
      TurnsRemainder(m, a - k + 180);
    }
  }

  /** The reported compass point is never more than 22 degrees from the heading. */
  lemma SnapWithin22(h: int)
    ensures AngleBetween(h, Closest(h, CompassKeys)) <= 22
  {
    RoundedIsNear(h);
    var r := Rounded(h);
    var j :| 0 <= j < |CompassKeys| && CompassKeys[j] == r;
  }

  /** The `drone_status` tool over the memory's heading and position. */
  function DroneStatus(heading: int, pos: Memory.Position): (r: ToolResult)
    ensures r.success
    ensures r.data.Obj? && "direction" in r.data.fields
    ensures r.data.fields["direction"] == Str(CompassLabel(Closest(heading, CompassKeys)))
  {
    var direction := CompassLabel(Closest(heading, CompassKeys));
    var I := Text.IntToString;
    Success("Heading: " + I(heading) + "° (" + direction + ")\nPosition: x=" + I(pos.x) + "cm, y=" + I(pos.y)
            + "cm, height=" + I(pos.z) + "cm",
            Obj(map["heading" := Num(heading as real), "direction" := Str(direction),
                    "position" := Obj(map["x" := Num(pos.x as real), "y" := Num(pos.y as real), "z" := Num(pos.z as real)])]))
  }

  // ------------------------------------------------------------ list targets

  const NoTargetsMessage: string :=
    "No search targets registered yet. Add targets via the web UI or by looking at someone and saying 'remember this person as [name]'."

  /** "1 photo", otherwise "N photos". */
  function PhotoCount(n: nat): (r: string)
    ensures n == 1 ==> r == "1 photo"
    ensures |r| > 0
    ensures n != 1 ==> r[|r| - 1] == 's'
  {
    Text.NatToString(n) + " photo" + (if n != 1 then "s" else "")
  }

  /** One target's line: a tick for a found target, a magnifier for any other status. */
  function TargetLine(t: Targets.Target): (line: string)
    ensures |line| > 3
    ensures line[..3] == "  " + [if t.status == "found" then '✅' else '🔍']
    ensures line[3] == ' '
  {
    var emoji := if t.status == "found" then "✅" else "🔍";
    var description := if t.description != [] then t.description else "No description";
    "  " + emoji + " " + t.name + ": " + description + " (" + PhotoCount(|t.referencePhotos|) + ")"
  }

  function TargetLines(ts: seq<Targets.Target>): (lines: seq<string>)
    ensures |lines| == |ts|
    ensures forall i | 0 <= i < |ts| :: lines[i] == TargetLine(ts[i])
  {
    if ts == [] then [] else [TargetLine(ts[0])] + TargetLines(ts[1..])
  }

  function TargetDicts(ts: seq<Targets.Target>): (r: seq<Value>)
    ensures |r| == |ts|
  {
    if ts == [] then [] else [Obj(Targets.ToDict(ts[0]))] + TargetDicts(ts[1..])
  }

  /**
   * `list_targets` over the registered targets in registration order: a
   * heading line with the count and one line per target, or the hint when
   * there are none. It always succeeds.
   */
  function ListTargets(ts: seq<Targets.Target>): (r: ToolResult)
    ensures r.success
    ensures r.data == Obj(map["targets" := Arr(TargetDicts(ts)), "count" := Num(|ts| as real)])
    ensures ts == [] ==> r.message == NoTargetsMessage
    ensures ts != [] ==>
              r.message == Text.Join(["**Registered Targets (" + Text.NatToString(|ts|) + "):**"] + TargetLines(ts), "\n")
  {
    var data := Obj(map["targets" := Arr(TargetDicts(ts)), "count" := Num(|ts| as real)]);
    if ts == [] then Success(NoTargetsMessage, data)
    else
      var lines := ["**Registered Targets (" + Text.NatToString(|ts|) + "):**"] + TargetLines(ts);
      Success(Text.Join(lines, "\n"), data)
  }

  // ---------------------------------------------------------- remember person

  /** What `remember_person` finds before it creates a target. */
  datatype View = View(videoRunning: bool, captured: bool, faceServiceAvailable: bool, facesFound: nat)

  /** The checks of `remember_person`, in the order the tool makes them. */
  function RememberRefusal(v: View): (r: Option<string>)
    ensures r.None? <==> v.videoRunning && v.captured && v.faceServiceAvailable && v.facesFound > 0
    ensures !v.videoRunning ==> r == Some("Video stream not available")
    ensures v.videoRunning && !v.captured ==> r == Some("Could not capture frame")
    ensures v.videoRunning && v.captured && !v.faceServiceAvailable ==>
              r == Some("Face recognition is not available. Cannot create target.")
  {
    if !v.videoRunning then Some("Video stream not available")
    else if !v.captured then Some("Could not capture frame")
    else if !v.faceServiceAvailable then Some("Face recognition is not available. Cannot create target.")
    else if v.facesFound == 0 then Some("No face detected in current view. Please make sure a person's face is visible.")
    else None
  }

  function Remembered(t: Targets.Target, name: string): ToolResult
  {
    Success("Got it! I'll remember '" + name + "' and can find them using facial recognition.",
            Obj(map["target_id" := Str(t.id), "name" := Str(t.name),
                    "has_face_embedding" := Bool(|t.faceEmbeddings| > 0)]))
  }

  /**
   * An exception raised by the steps after the checks: writing the reference
   * photo or adding the target (`BeforeAdd`), or removing the temporary file
   * once the target exists (`AfterAdd`).
   */
  datatype Fault = NoFault | BeforeAdd(message: string) | AfterAdd(message: string)

  /** The `except Exception` branch of `remember_person`. */
  function RememberFailed(message: string): (r: ToolResult)
    ensures !r.success && r.data == Null
    ensures r.message == "Could not remember person: " + message
  {
    Plain(false, "Could not remember person: " + message)
  }

  /**
   * `remember_person`: after the checks pass, the current view becomes the
   * reference photo of a new target. `id`, `photos` and `embeddings` stand
   * for what the target manager generated and extracted; `fault` for an
   * exception raised on the way, which the tool turns into a failure.
   */
  method RememberPerson(manager: Targets.TargetManager, v: View, name: string, description: string,
                        id: string, photos: seq<string>, embeddings: seq<FaceRecognition.Embedding>, now: string,
                        fault: Fault)
    returns (r: ToolResult)
    modifies manager
    ensures RememberRefusal(v).Some? ==>
              r == Plain(false, RememberRefusal(v).value) && manager.Snapshot() == old(manager.Snapshot())
    ensures RememberRefusal(v).None? && fault.BeforeAdd? ==>
              r == RememberFailed(fault.message) && manager.Snapshot() == old(manager.Snapshot())
    ensures RememberRefusal(v).None? && !fault.BeforeAdd? ==>
              var t := Targets.NewTarget(id, name, description, photos, embeddings, now);
              && manager.Snapshot() == Targets.Added(old(manager.Snapshot()), t)
              && r == (if fault.AfterAdd? then RememberFailed(fault.message) else Remembered(t, name))
  {
    var refusal := RememberRefusal(v);
    if refusal.Some? {
      return Plain(false, refusal.value);
    }
    if fault.BeforeAdd? {
      return RememberFailed(fault.message);
    }
    var t := manager.AddTarget(id, name, description, photos, embeddings, now);
    if fault.AfterAdd? {
      return RememberFailed(fault.message);
    }
    r := Remembered(t, name);
  }
}

=== FILE: ordered_keys.dfy ===
/**
 * Python dictionaries remember insertion order. A dictionary is modelled
 * as a map together with the sequence of its keys in insertion order; this
 * module holds what is shared about such key sequences.
 */
module OrderedKeys {

  predicate Distinct<T(==)>(xs: seq<T>)
  {
    forall i, j | 0 <= i < j < |xs| :: xs[i] != xs[j]
  }

  /** `order` lists every key of `m` exactly once. */
  predicate KeysInOrder<K(==), V>(m: map<K, V>, order: seq<K>)
  {
    && (forall k | k in order :: k in m)
    && (forall k | k in m :: k in order)
    && Distinct(order)
  }

  /** The key sequence after `del d[x]`. */
  function Without<T(==,!new)>(xs: seq<T>, x: T): (r: seq<T>)
    ensures forall y :: y in r <==> y in xs && y != x
  {
    if xs == [] then []
    else if xs[0] == x then Without(xs[1..], x)
    else
      var rest := Without(xs[1..], x);
      assert forall y | y in rest :: y in xs[1..];
      [xs[0]] + rest
  }

  lemma {:induction false} WithoutDistinct<T(!new)>(xs: seq<T>, x: T)
    requires Distinct(xs)
    ensures Distinct(Without(xs, x))
  {
    if xs != [] {
      assert Distinct(xs[1..]);
      WithoutDistinct(xs[1..], x);
      if xs[0] != x {
        var rest := Without(xs[1..], x);
        assert xs[0] !in xs[1..];
        assert forall j | 0 <= j < |rest| :: rest[j] != xs[0];
        assert Without(xs, x) == [xs[0]] + rest;
      }
    }
  }

  lemma {:induction false} DistinctCard<T>(xs: seq<T>)
    requires Distinct(xs)
    ensures |set x | x in xs| == |xs|
  {
    if xs != [] {
      DistinctCard(xs[1..]);
      assert (set x | x in xs) == {xs[0]} + (set x | x in xs[1..]);
      assert xs[0] !in (set x | x in xs[1..]);
    }
  }

  /** The number of entries of a dictionary is the length of its key sequence. */
  lemma SizeIsOrderLength<K, V>(m: map<K, V>, order: seq<K>)
    requires KeysInOrder(m, order)
    ensures |m| == |order|
  {
    DistinctCard(order);
    assert m.Keys == set x | x in order;
  }
}

=== FILE: panorama.dfy ===
/**
 * The post-pass that repairs the vision model's panorama answer: a person
 * reported in frames that are not neighbours on the ring of eight frames is
 * split into one person per cluster of neighbouring frames, and everybody is
 * renumbered person_1 .. person_n.
 */
module Panorama {
  import Text
  import opened Sorting

  // ------------------------------------------------------------ the ring

  /** `adjacent_pairs`: the eight frames of a panorama form a ring. */
  const AdjacentPairs: map<int, set<int>> :=
    map[1 := {8, 2}, 2 := {1, 3}, 3 := {2, 4}, 4 := {3, 5},
        5 := {4, 6}, 6 := {5, 7}, 7 := {6, 8}, 8 := {7, 1}]

  /** `adjacent_pairs.get(f, set())`: frames outside 1..8 have no neighbour. */
  function Neighbours(f: int): set<int>
  {
    if f in AdjacentPairs then AdjacentPairs[f] else {}
  }

  /** The test applied to each consecutive pair of the sorted frame list. */
  predicate PairAccepted(f1: int, f2: int)
  {
    f2 in Neighbours(f1) || (f1 == 1 && f2 == 8) || (f1 == 8 && f2 == 1)
  }

  /** Every consecutive pair passes the neighbour test. */
  predicate PairsAccepted(s: seq<int>)
  {
    forall i :: 0 <= i < |s| - 1 ==> PairAccepted(s[i], s[i + 1])
  }

  /** `are_all_adjacent`: consecutive pairs of the SORTED list must be ring neighbours. */
  predicate AreAllAdjacent(frames: seq<int>)
  {
    |frames| <= 1 || PairsAccepted(SortInts(frames))
  }

  /** A run of consecutive frame numbers inside 1..8. */
  predicate IsRun(s: seq<int>)
  {
    |s| > 0 && 1 <= s[0] && s[|s| - 1] <= 8 &&
    forall i :: 0 <= i < |s| - 1 ==> s[i + 1] == s[i] + 1
  }

  /** For an ordered pair, the neighbour test means "next frame up" or "1 then 8". */
  predicate Step(f1: int, f2: int)
  {
    (1 <= f1 <= 7 && f2 == f1 + 1) || (f1 == 1 && f2 == 8)
  }

  lemma PairAcceptedCases(f1: int, f2: int)
    requires f1 <= f2
    ensures PairAccepted(f1, f2) <==> Step(f1, f2)
  {
  }

  lemma {:induction false} RunValues(s: seq<int>)
    requires |s| > 0
    requires forall i :: 0 <= i < |s| - 1 ==> s[i + 1] == s[i] + 1
    ensures forall i :: 0 <= i < |s| ==> s[i] == s[0] + i
  {
    if |s| > 1 {
      RunValues(s[..|s| - 1]);
      assert s[|s| - 2] == s[0] + |s| - 2;
    }
  }

  lemma PairsAcceptedForward(s: seq<int>)
    requires |s| >= 2 && Sorted(s) && PairsAccepted(s)
    ensures s == [1, 8] || IsRun(s)
  {
    forall i | 0 <= i < |s| - 1
      ensures Step(s[i], s[i + 1])
    {
      PairAcceptedCases(s[i], s[i + 1]);
    }
    assert forall j :: 0 < j < |s| ==> s[j] != 1 by {
      forall j | 0 < j < |s| ensures s[j] != 1 { assert Step(s[j - 1], s[j]); }
    }
    assert forall j :: 0 <= j < |s| - 1 ==> s[j] != 8 by {
      forall j | 0 <= j < |s| - 1 ensures s[j] != 8 { assert Step(s[j], s[j + 1]); }
    }
    if i :| 0 <= i < |s| - 1 && s[i] == 1 && s[i + 1] == 8 {
      assert i == 0 && i + 1 == |s| - 1;
      assert s == [1, 8];
    } else {
      forall i | 0 <= i < |s| - 1
        ensures s[i + 1] == s[i] + 1 && 1 <= s[i] <= 7
      {
        assert Step(s[i], s[i + 1]);
      }
      assert Step(s[|s| - 2], s[|s| - 1]);
    }
  }

  lemma PairsAcceptedBackward(s: seq<int>)
    requires s == [1, 8] || IsRun(s)
    ensures PairsAccepted(s)
  {
    if s != [1, 8] {
      RunValues(s);
      forall i | 0 <= i < |s| - 1
        ensures PairAccepted(s[i], s[i + 1])
      {
        assert s[|s| - 1] == s[0] + |s| - 1;
        PairAcceptedCases(s[i], s[i + 1]);
      }
    } else {
      PairAcceptedCases(1, 8);
    }
  }

  /**
   * Two or more frames pass the check exactly when, once sorted, they are a
   * run of consecutive frames in 1..8, or exactly the frames 1 and 8. So a
   * repeated frame makes the list invalid, and so does the arc 8, 1, 2.
   */
  lemma AreAllAdjacentMeaning(frames: seq<int>)
    requires |frames| >= 2
    ensures AreAllAdjacent(frames) <==> SortInts(frames) == [1, 8] || IsRun(SortInts(frames))
  {
    var s := SortInts(frames);
    if PairsAccepted(s) {
      PairsAcceptedForward(s);
    }
    if s == [1, 8] || IsRun(s) {
      PairsAcceptedBackward(s);
    }
  }

  // --------------------------------------------------------- clustering

  /** `any(frame in adjacent_pairs.get(f, set()) for f in cluster)`. */
  predicate Touches(cluster: seq<int>, frame: int)
  {
    exists j :: 0 <= j < |cluster| && frame in Neighbours(cluster[j])
  }

  /** Index of the first cluster the frame touches, or the number of clusters. */
  function FirstTouching(clusters: seq<seq<int>>, frame: int): (k: nat)
    ensures k <= |clusters|
    ensures k < |clusters| ==> Touches(clusters[k], frame)
    ensures forall j :: 0 <= j < k ==> !Touches(clusters[j], frame)
  {
    if clusters == [] then 0
    else if Touches(clusters[0], frame) then 0
    else 1 + FirstTouching(clusters[1..], frame)
  }

  /** One step of the greedy pass: join the first touching cluster, else open a new one. */
  function Place(clusters: seq<seq<int>>, frame: int): seq<seq<int>>
  {
    var k := FirstTouching(clusters, frame);
    if k == |clusters| then clusters + [[frame]]
    else clusters[k := clusters[k] + [frame]]
  }

  /** The clusters the single greedy pass builds from the frames, in order. */
  function Clusters(frames: seq<int>): (cs: seq<seq<int>>)
    ensures forall k :: 0 <= k < |cs| ==> |cs[k]| > 0
  {
    if frames == [] then []
    else Place(Clusters(frames[..|frames| - 1]), frames[|frames| - 1])
  }

  /** The clustering loop of `_validate_panorama_deduplication`. */
  method ClusterFrames(frames: seq<int>) returns (clusters: seq<seq<int>>)
    ensures clusters == Clusters(frames)
  {
    clusters := [];
    var i := 0;
    while i < |frames|
      invariant 0 <= i <= |frames|
      invariant clusters == Clusters(frames[..i])
    {
      var frame := frames[i];
      var k := 0;
      while k < |clusters| && !Touches(clusters[k], frame)
        invariant 0 <= k <= |clusters|
        invariant forall j :: 0 <= j < k ==> !Touches(clusters[j], frame)
      {
        k := k + 1;
      }
      assert k == FirstTouching(clusters, frame);
      if k < |clusters| {
        clusters := clusters[k := clusters[k] + [frame]];
      } else {
        clusters := clusters + [[frame]];
      }
      assert frames[..i + 1][..i] == frames[..i];
      i := i + 1;
    }
    assert frames[..i] == frames;
  }

  /** All frames of all clusters, as a multiset. */
  function Pooled(cs: seq<seq<int>>): multiset<int>
  {
    if cs == [] then multiset{} else Pooled(cs[..|cs| - 1]) + multiset(cs[|cs| - 1])
  }

  /** Total number of frames over all clusters. */
  function SizeSum(cs: seq<seq<int>>): nat
  {
    if cs == [] then 0 else SizeSum(cs[..|cs| - 1]) + |cs[|cs| - 1]|
  }

  lemma {:induction false} PooledSize(cs: seq<seq<int>>)
    ensures |Pooled(cs)| == SizeSum(cs)
  {
    if cs != [] {
      PooledSize(cs[..|cs| - 1]);
    }
  }

  lemma {:induction false} PooledAppendAt(cs: seq<seq<int>>, k: nat, frame: int)
    requires k < |cs|
    ensures Pooled(cs[k := cs[k] + [frame]]) == Pooled(cs) + multiset{frame}
  {
    var n := |cs| - 1;
    var d := cs[k := cs[k] + [frame]];
    assert Pooled(d) == Pooled(d[..n]) + multiset(d[n]);
    assert Pooled(cs) == Pooled(cs[..n]) + multiset(cs[n]);
    if k < n {
      assert d[..n] == cs[..n][k := cs[..n][k] + [frame]];
      PooledAppendAt(cs[..n], k, frame);
    } else {
      assert d[..n] == cs[..n];
      assert multiset(d[n]) == multiset(cs[n]) + multiset{frame};
    }
  }

  lemma {:induction false} PooledMember(cs: seq<seq<int>>, k: nat, x: int)
    requires k < |cs| && x in cs[k]
    ensures x in Pooled(cs)
  {
    var n := |cs| - 1;
    if k < n {
      PooledMember(cs[..n], k, x);
    }
  }

  lemma PlacePooled(cs: seq<seq<int>>, frame: int)
    ensures Pooled(Place(cs, frame)) == Pooled(cs) + multiset{frame}
  {
    var k := FirstTouching(cs, frame);
    if k < |cs| {
      PooledAppendAt(cs, k, frame);
    } else {
      assert (cs + [[frame]])[..|cs|] == cs;
    }
  }

  lemma {:induction false} ClustersPooled(frames: seq<int>)
    ensures Pooled(Clusters(frames)) == multiset(frames)
  {
    if frames != [] {
      var n := |frames| - 1;
      var pre := frames[..n];
      var cs := Clusters(pre);
      ClustersPooled(pre);
      assert Clusters(frames) == Place(cs, frames[n]);
      PlacePooled(cs, frames[n]);
      assert frames == pre + [frames[n]];
      assert multiset(frames) == multiset(pre) + multiset{frames[n]};
    }
  }

  /**
   * The clusters partition the frames: together they hold exactly the
   * frames given, so their sizes add up to the number of frames.
   */
  lemma ClustersPartition(frames: seq<int>)
    ensures Pooled(Clusters(frames)) == multiset(frames)
    ensures SizeSum(Clusters(frames)) == |frames|
  {
    ClustersPooled(frames);
    PooledSize(Clusters(frames));
  }

  /** Fed with sorted frames, every cluster comes out in ascending order. */
  lemma {:induction false} ClustersSorted(frames: seq<int>)
    requires Sorted(frames)
    ensures forall k :: 0 <= k < |Clusters(frames)| ==> Sorted(Clusters(frames)[k])
  {
    if frames != [] {
      var n := |frames| - 1;
      var pre, f := frames[..n], frames[n];
      ClustersSorted(pre);
      ClustersPartition(pre);
      var cs := Clusters(pre);
      assert Clusters(frames) == Place(cs, f);
      var t := FirstTouching(cs, f);
      if t < |cs| {
        forall x | x in cs[t]
          ensures x <= f
        {
          PooledMember(cs, t, x);
          assert x in multiset(pre);
          var j :| 0 <= j < n && pre[j] == x;
        }
        AppendSorted(cs[t], f);
        assert Place(cs, f) == cs[t := cs[t] + [f]];
      } else {
        assert Place(cs, f) == cs + [[f]];
      }
    }
  }

  lemma AppendSorted(c: seq<int>, f: int)
    requires Sorted(c) && forall x :: x in c ==> x <= f
    ensures Sorted(c + [f])
  {
    assert forall i :: 0 <= i < |c| ==> c[i] in c;
  }

  lemma NeighboursOfOne()
    ensures Neighbours(1) == {8, 2}
  {
  }

  lemma InsertEightOne()
    ensures Insert(8, [1]) == [1, 8]
  {
    assert [1][1..] == [];
    assert Insert(8, [1]) == [1] + Insert(8, []);
  }

  lemma InsertSevenOneEight()
    ensures Insert(7, [1, 8]) == [1, 7, 8]
  {
    assert [1, 8][1..] == [8];
    assert Insert(7, [8]) == [7, 8];
    assert Insert(7, [1, 8]) == [1] + Insert(7, [8]);
  }

  lemma SortEightOne()
    ensures SortInts([8, 1]) == [1, 8]
  {
    assert [1][1..] == [];
    assert SortInts([1]) == Insert(1, SortInts([])) == [1];
    assert [8, 1][1..] == [1];
    assert SortInts([8, 1]) == Insert(8, SortInts([1]));
    InsertEightOne();
  }

  lemma SortSevenEightOne()
    ensures SortInts([7, 8, 1]) == [1, 7, 8]
  {
    SortEightOne();
    assert [7, 8, 1][1..] == [8, 1];
    assert SortInts([7, 8, 1]) == Insert(7, SortInts([8, 1]));
    InsertSevenOneEight();
  }

  lemma ClusterOne()
    ensures Clusters([1]) == [[1]]
  {
    assert [1][..0] == [];
    assert Clusters([1]) == Place([], 1);
    assert FirstTouching([], 1) == 0;
  }

  lemma ClusterOneSeven()
    ensures Clusters([1, 7]) == [[1], [7]]
  {
    ClusterOne();
    NeighboursOfOne();
    assert [1, 7][..1] == [1];
    assert Clusters([1, 7]) == Place([[1]], 7);
    assert 7 !in Neighbours([1][0]);
    assert !Touches([1], 7);
    assert [[1]][1..] == [];
    assert FirstTouching([[1]], 7) == 1 + FirstTouching([], 7) == 1;
  }

  lemma ClusterOneSevenEight()
    ensures Clusters([1, 7, 8]) == [[1, 8], [7]]
  {
    ClusterOneSeven();
    NeighboursOfOne();
    assert [1, 7, 8][..2] == [1, 7];
    assert Clusters([1, 7, 8]) == Place([[1], [7]], 8);
    assert 8 in Neighbours([1][0]);
    assert Touches([1], 8);
    assert FirstTouching([[1], [7]], 8) == 0;
    assert Place([[1], [7]], 8) == [[1], [7]][0 := [1] + [8]];
    assert [1] + [8] == [1, 8];
  }

  /** The greedy pass never merges clusters: sorted [7, 8, 1] is split as [1, 8] and [7]. */
  lemma SevenEightOne()
    ensures !AreAllAdjacent([7, 8, 1])
    ensures Clusters(SortInts([7, 8, 1])) == [[1, 8], [7]]
  {
    SortSevenEightOne();
    NeighboursOfOne();
    assert !PairAccepted(1, 7);
    ClusterOneSevenEight();
  }

  // ------------------------------------------------------ the direction

  function Sum(frames: seq<int>): int
  {
    if frames == [] then 0 else Sum(frames[..|frames| - 1]) + frames[|frames| - 1]
  }

  function Mean(frames: seq<int>): real
    requires |frames| > 0
  {
    Sum(frames) as real / |frames| as real
  }

  /** The compass band of a (possibly fractional) frame position. */
  function Band(avg: real): string
  {
    if avg <= 1.5 || avg >= 7.5 then "ahead"
    else if avg <= 3.5 then "to_my_right"
    else if avg <= 5.5 then "behind_me"
    else "to_my_left"
  }

  /** `_frames_to_direction`: the band of the arithmetic mean of the frame numbers. */
  function FramesToDirection(frames: seq<int>): string
    requires |frames| > 0
  {
    Band(Mean(frames))
  }

  /** Each single frame maps to the band it faces. */
  lemma SingleFrameDirections()
    ensures FramesToDirection([1]) == "ahead" && FramesToDirection([8]) == "ahead"
    ensures FramesToDirection([2]) == "to_my_right" && FramesToDirection([3]) == "to_my_right"
    ensures FramesToDirection([4]) == "behind_me" && FramesToDirection([5]) == "behind_me"
    ensures FramesToDirection([6]) == "to_my_left" && FramesToDirection([7]) == "to_my_left"
  {
  }

  /**
   * As written, the mean does not wrap around the ring: frames 1 and 8 both
   * face ahead, yet the cluster [1, 8] that `SevenEightOne` produces is
   * reported as behind.
   */
  lemma WrapAroundMeanIsBehind()
    ensures FramesToDirection([1]) == "ahead" && FramesToDirection([8]) == "ahead"
    ensures FramesToDirection([1, 8]) == "behind_me"
  {
    assert Sum([1, 8]) == 9;
  }

  /** Frame positions with the low half of the ring unwrapped past 8 when 1 and 8 are both present. */
  function Unwrapped(frames: seq<int>): seq<int>
  {
    if 1 in frames && 8 in frames
    then seq(|frames|, i requires 0 <= i < |frames| => if frames[i] <= 4 then frames[i] + 8 else frames[i])
    else frames
  }

  /** The direction computed on the ring: an unwrapped mean, folded back into 1..8. */
  function RingDirection(frames: seq<int>): string
    requires |frames| > 0
  {
    var m := Mean(Unwrapped(frames));
    Band(if m > 8.5 then m - 8.0 else m)
  }

  lemma {:induction false} SumBounds(s: seq<int>, lo: int, hi: int)
    requires forall i :: 0 <= i < |s| ==> lo <= s[i] <= hi
    ensures |s| * lo <= Sum(s) <= |s| * hi
  {
    if s != [] {
      SumBounds(s[..|s| - 1], lo, hi);
    }
  }

  lemma CastMul(a: int, b: int)
    ensures (a * b) as real == (a as real) * (b as real)
  {
  }

  lemma DivBounds(sum: real, n: real, lo: real, hi: real)
    requires n > 0.0 && n * lo <= sum <= n * hi
    ensures lo <= sum / n <= hi
  {
    var q := sum / n;
    assert q * n == sum;
  }

  lemma MeanBounds(s: seq<int>, lo: int, hi: int)
    requires |s| > 0
    requires forall i :: 0 <= i < |s| ==> lo <= s[i] <= hi
    ensures lo as real <= Mean(s) <= hi as real
  {
    SumBounds(s, lo, hi);
    CastMul(|s|, lo);
    CastMul(|s|, hi);
    DivBounds(Sum(s) as real, |s| as real, lo as real, hi as real);
  }

  /**
   * Corrected direction: when every frame of a cluster faces the same way,
   * the cluster is reported facing that way, including across frames 8 and 1.
   */
  lemma RingDirectionUnanimous(frames: seq<int>, d: string)
    requires |frames| > 0
    requires forall i :: 0 <= i < |frames| ==> 1 <= frames[i] <= 8 && FramesToDirection([frames[i]]) == d
    ensures RingDirection(frames) == d
  {
    var f0 := frames[0];
    forall i | 0 <= i < |frames| ensures Mean([frames[i]]) == frames[i] as real {
      assert Sum([frames[i]]) == frames[i];
    }
    assert Mean([f0]) == f0 as real;
    var u := Unwrapped(frames);
    if 1 in frames && 8 in frames {
      MeanBounds(u, 8, 9);
    } else if d == "ahead" {
      if 1 in frames {
        MeanBounds(u, 1, 1);
      } else {
        MeanBounds(u, 8, 8);
      }
    } else if d == "to_my_right" {
      MeanBounds(u, 2, 3);
    } else if d == "behind_me" {
      MeanBounds(u, 4, 5);
    } else {
      MeanBounds(u, 6, 7);
    }
  }

  // ------------------------------------------------------ people and ids

  datatype BoundingBox = BoundingBox(frameNumber: int, x: real, y: real, width: real, height: real)

  /** A person as the vision model reports it; `description` stands for the descriptive fields. */
  datatype Person = Person(personId: string, description: string, frames: seq<int>,
                           boxes: seq<BoundingBox>, bestFrame: int, direction: string)

  datatype SceneObject = SceneObject(name: string, frames: seq<int>)

  datatype PanoramaAnalysis = PanoramaAnalysis(people: seq<Person>, totalPeopleCount: int,
                                               objects: seq<SceneObject>)

  /** `f"person_{n}"`. */
  function PersonId(n: nat): string
  {
    "person_" + Text.NatToString(n)
  }

  lemma PersonIdInjective(m: nat, n: nat)
    requires m != n
    ensures PersonId(m) != PersonId(n)
  {
    Text.NatToStringInjective(m, n);
    assert PersonId(m)[7..] == Text.NatToString(m);
    assert PersonId(n)[7..] == Text.NatToString(n);
  }

  /**
   * The bounding boxes that lie in the given frames, in their original order:
   * each kept box keeps all its repeats, and `BoxesInConcat` gives the order.
   */
  function BoxesIn(boxes: seq<BoundingBox>, cluster: seq<int>): (r: seq<BoundingBox>)
    ensures forall b :: b in r <==> b in boxes && b.frameNumber in cluster
    ensures forall b :: multiset(r)[b] == if b.frameNumber in cluster then multiset(boxes)[b] else 0
    ensures |r| <= |boxes|
  {
    if boxes == [] then []
    else
      assert boxes == [boxes[0]] + boxes[1..];
      (if boxes[0].frameNumber in cluster then [boxes[0]] else []) + BoxesIn(boxes[1..], cluster)
  }

  /** Filtering a concatenation filters each part and keeps them in order. */
  lemma {:induction false} BoxesInConcat(a: seq<BoundingBox>, b: seq<BoundingBox>, cluster: seq<int>)
    ensures BoxesIn(a + b, cluster) == BoxesIn(a, cluster) + BoxesIn(b, cluster)
  {
    if a == [] {
      assert a + b == b;
    } else {
      var head := if a[0].frameNumber in cluster then [a[0]] else [];
      assert (a + b)[0] == a[0];
      assert (a + b)[1..] == a[1..] + b;
      calc {
        BoxesIn(a + b, cluster);
        head + BoxesIn(a[1..] + b, cluster);
        { BoxesInConcat(a[1..], b, cluster); }
        head + (BoxesIn(a[1..], cluster) + BoxesIn(b, cluster));
        BoxesIn(a, cluster) + BoxesIn(b, cluster);
      }
    }
  }

  /**
   * The copy made for one cluster of a split person (id assigned later). Its
   * direction is recomputed with `FramesToDirection`, the plain mean, so the
   * cluster [1, 8] is reported behind (see `WrapAroundMeanIsBehind`).
   */
  function SplitPiece(p: Person, cluster: seq<int>): (q: Person)
    requires |cluster| > 0
    ensures q.frames == cluster && q.bestFrame == cluster[0]
    ensures forall b :: b in q.boxes <==> b in p.boxes && b.frameNumber in cluster
    ensures q.direction == FramesToDirection(cluster)
    ensures q.personId == p.personId && q.description == p.description
  {
    p.(frames := cluster, bestFrame := cluster[0],
       boxes := BoxesIn(p.boxes, cluster), direction := FramesToDirection(cluster))
  }

  /** One copy of the person per cluster, in cluster order. */
  function Split(p: Person, cs: seq<seq<int>>): (r: seq<Person>)
    requires forall k :: 0 <= k < |cs| ==> |cs[k]| > 0
    ensures |r| == |cs|
    ensures forall k :: 0 <= k < |cs| ==> r[k] == SplitPiece(p, cs[k])
  {
    if cs == [] then [] else Split(p, cs[..|cs| - 1]) + [SplitPiece(p, cs[|cs| - 1])]
  }

  /** The people one reported person becomes, before renumbering. */
  function Pieces(p: Person): seq<Person>
  {
    if AreAllAdjacent(p.frames) then [p]
    else Split(p, Clusters(SortInts(p.frames)))
  }

  /**
   * A valid person is kept as it is; an invalid one becomes one person per
   * cluster, each holding its cluster's frames in ascending order, the first
   * of them as best frame, only its own boxes and its recomputed direction,
   * and the clusters together hold exactly the person's frames.
   */
  lemma PiecesSpec(p: Person)
    ensures AreAllAdjacent(p.frames) ==> Pieces(p) == [p]
    ensures !AreAllAdjacent(p.frames) ==>
      var cs := Clusters(SortInts(p.frames));
      |Pieces(p)| == |cs| && Pooled(cs) == multiset(p.frames) && SizeSum(cs) == |p.frames|
      && forall k :: 0 <= k < |cs| ==>
           var q := Pieces(p)[k];
           q.frames == cs[k] && |cs[k]| > 0 && Sorted(cs[k]) && q.bestFrame == cs[k][0]
           && q.description == p.description && q.personId == p.personId
           && q.boxes == BoxesIn(p.boxes, cs[k])
           && (forall b :: b in q.boxes <==> b in p.boxes && b.frameNumber in cs[k])
           && q.direction == FramesToDirection(cs[k])
  {
    if !AreAllAdjacent(p.frames) {
      var s := SortInts(p.frames);
      ClustersPartition(s);
      ClustersSorted(s);
    }
  }

  /**
   * As written, a person seen in frames 7, 8 and 1 becomes two people, and
   * the one in frames [1, 8] is reported behind although both frames face ahead.
   */
  lemma SevenEightOneBehind(p: Person)
    requires p.frames == [7, 8, 1]
    ensures |Pieces(p)| == 2
    ensures Pieces(p)[0].frames == [1, 8] && Pieces(p)[0].direction == "behind_me"
    ensures Pieces(p)[1].frames == [7] && Pieces(p)[1].direction == "to_my_left"
  {
    SevenEightOne();
    WrapAroundMeanIsBehind();
    SingleFrameDirections();
  }

  /** All pieces of all people, in the order the loop emits them. */
  function AllPieces(people: seq<Person>): seq<Person>
  {
    if people == [] then []
    else AllPieces(people[..|people| - 1]) + Pieces(people[|people| - 1])
  }

  /** The emitted list with ids person_{first}, person_{first+1}, ... in order. */
  function Renumbered(people: seq<Person>, first: nat): (r: seq<Person>)
    ensures |r| == |people|
    ensures forall i :: 0 <= i < |r| ==> r[i] == people[i].(personId := PersonId(first + i))
  {
    seq(|people|, i requires 0 <= i < |people| => people[i].(personId := PersonId(first + i)))
  }

  /** What `_validate_panorama_deduplication` turns an analysis into. */
  function Deduplicated(a: PanoramaAnalysis): PanoramaAnalysis
  {
    var people := Renumbered(AllPieces(a.people), 1);
    a.(people := people, totalPeopleCount := |people|)
  }

  /**
   * After the repair the ids are person_1 .. person_n in output order and
   * pairwise distinct, the count equals the list length, and the objects
   * are untouched.
   */
  lemma DeduplicatedIds(a: PanoramaAnalysis)
    ensures var r := Deduplicated(a);
      r.totalPeopleCount == |r.people| && r.objects == a.objects
      && (forall i :: 0 <= i < |r.people| ==> r.people[i].personId == PersonId(i + 1))
      && (forall i, j :: 0 <= i < j < |r.people| ==> r.people[i].personId != r.people[j].personId)
  {
    var r := Deduplicated(a);
    forall i, j | 0 <= i < j < |r.people|
      ensures r.people[i].personId != r.people[j].personId
    {
      PersonIdInjective(i + 1, j + 1);
    }
  }

  lemma RenumberedSnoc(xs: seq<Person>, y: Person, first: nat)
    ensures Renumbered(xs + [y], first) == Renumbered(xs, first) + [y.(personId := PersonId(first + |xs|))]
  {
  }

  /** One round of the inner loop, in terms of the renumbered list. */
  lemma EmitSplitStep(p: Person, cs: seq<seq<int>>, j: nat, before: seq<Person>)
    requires forall k :: 0 <= k < |cs| ==> |cs[k]| > 0
    requires j < |cs|
    ensures Renumbered(before + Split(p, cs[..j + 1]), 1)
            == Renumbered(before + Split(p, cs[..j]), 1) + [SplitPiece(p, cs[j]).(personId := PersonId(|before| + j + 1))]
  {
    assert cs[..j + 1][..j] == cs[..j];
    assert Split(p, cs[..j + 1]) == Split(p, cs[..j]) + [SplitPiece(p, cs[j])];
    RenumberedSnoc(before + Split(p, cs[..j]), SplitPiece(p, cs[j]), 1);
    assert before + Split(p, cs[..j + 1]) == before + Split(p, cs[..j]) + [SplitPiece(p, cs[j])];
  }

  /** One round of the outer loop for a person that is kept whole. */
  lemma EmitWholeStep(p: Person, before: seq<Person>)
    requires AreAllAdjacent(p.frames)
    ensures Renumbered(before + Pieces(p), 1) == Renumbered(before, 1) + [p.(personId := PersonId(|before| + 1))]
  {
    RenumberedSnoc(before, p, 1);
  }

  lemma AllPiecesStep(people: seq<Person>, i: nat)
    requires i < |people|
    ensures AllPieces(people[..i + 1]) == AllPieces(people[..i]) + Pieces(people[i])
  {
    assert people[..i + 1][..i] == people[..i];
  }

  /** The inner loop: one renumbered copy per cluster of an invalid person. */
  method EmitSplit(p: Person, out: seq<Person>, counter: nat, ghost before: seq<Person>)
    returns (out': seq<Person>, counter': nat)
    requires !AreAllAdjacent(p.frames)
    requires out == Renumbered(before, 1) && counter == |out| + 1
    ensures out' == Renumbered(before + Pieces(p), 1) && counter' == |out'| + 1
  {
    var clusters := ClusterFrames(SortInts(p.frames));
    out', counter' := EmitClusters(p, clusters, out, counter, before);
  }

  method EmitClusters(p: Person, clusters: seq<seq<int>>, out: seq<Person>, counter: nat, ghost before: seq<Person>)
    returns (out': seq<Person>, counter': nat)
    requires forall k :: 0 <= k < |clusters| ==> |clusters[k]| > 0
    requires out == Renumbered(before, 1) && counter == |out| + 1
    ensures out' == Renumbered(before + Split(p, clusters), 1) && counter' == |out'| + 1
  {
    out', counter' := out, counter;
    var j := 0;
    assert before + Split(p, clusters[..0]) == before;
    while j < |clusters|
      invariant 0 <= j <= |clusters|
      invariant out' == Renumbered(before + Split(p, clusters[..j]), 1)
      invariant counter' == |before| + j + 1
    {
      EmitSplitStep(p, clusters, j, before);
      out' := out' + [SplitPiece(p, clusters[j]).(personId := PersonId(counter'))];
      counter' := counter' + 1;
      j := j + 1;
    }
    assert clusters[..j] == clusters;
  }

  /** `_validate_panorama_deduplication`. */
  method ValidatePanoramaDeduplication(a: PanoramaAnalysis) returns (r: PanoramaAnalysis)
    ensures r == Deduplicated(a)
  {
    var out: seq<Person> := [];
    var counter := 1;
    var i := 0;
    while i < |a.people|
      invariant 0 <= i <= |a.people|
      invariant out == Renumbered(AllPieces(a.people[..i]), 1)
      invariant counter == |out| + 1
    {
      var p := a.people[i];
      AllPiecesStep(a.people, i);
      if AreAllAdjacent(p.frames) {
        EmitWholeStep(p, AllPieces(a.people[..i]));
        out := out + [p.(personId := PersonId(counter))];
        counter := counter + 1;
      } else {
        out, counter := EmitSplit(p, out, counter, AllPieces(a.people[..i]));
      }
      i := i + 1;
    }
    assert a.people[..i] == a.people;
    r := a.(people := out, totalPeopleCount := |out|);
  }
}

=== FILE: recorder.dfy ===
/**
 * The session recorder: records the flight video into numbered sessions,
 * starting on take-off and stopping on landing unless the session was
 * started by hand, and keeps a log of events stamped with frame numbers.
 * The wall clock and the video writer are inputs: a session id is the
 * caller's timestamp string and whether the writer opens (or a frame write
 * fails) is a boolean.
 */
module Recorder {
  import opened Wrappers
  import Text

  /** One `targets_found` entry; `thumbnail` is the saved image's name, when one was saved. */
  datatype Found = Found(targetId: string, targetName: string, confidence: real, frameNumber: nat, thumbnail: Option<string>)

  datatype EventKind = SessionStart(manual: bool) | SessionStop | TargetFound(found: Found) | Takeoff | Land

  datatype Event = Event(kind: EventKind, frameNumber: nat)

  /** The metadata `stop` writes and returns (durations and wall-clock times are not modelled). */
  datatype Metadata = Metadata(sessionId: Option<string>, frameCount: nat, targetsFound: seq<Found>, events: seq<Event>)

  const WriterFailure: string := "Failed to initialize video recording"

  /** Frame numbers never decrease along the log and never pass the current count. */
  predicate Chronological(events: seq<Event>, frameCount: nat)
  {
    (forall i, j | 0 <= i < j < |events| :: events[i].frameNumber <= events[j].frameNumber)
    && (forall i | 0 <= i < |events| :: events[i].frameNumber <= frameCount)
  }

  /** Logging an event at the current frame keeps a chronological log chronological. */
  lemma AppendKeepsChronological(events: seq<Event>, frameCount: nat, kind: EventKind)
    requires Chronological(events, frameCount)
    ensures Chronological(events + [Event(kind, frameCount)], frameCount)
  {
  }

  /** The thumbnail name for the `n`-th find of a target. */
  function ThumbnailName(targetId: string, n: nat): string
  {
    "found_" + targetId + "_" + Text.IntToString(n)
  }

  /** How a call ends: it returns, or it waits forever on a lock its own thread already holds. */
  datatype Completion = Returned | Deadlocked

  /**
   * Whether `record_target_found` returns: it deadlocks exactly when it is
   * given a frame while a session directory is set.
   */
  function RecordCompletion(frameGiven: bool, hasSessionDir: bool): (c: Completion)
    ensures c == Deadlocked <==> frameGiven && hasSessionDir
  {
    if frameGiven && hasSessionDir then Deadlocked else Returned
  }

  /**
   * While a session is recording its directory is set, so recording a find
   * with its frame, as the person search does on a hit, never returns.
   */
  lemma FindWhileRecordingDeadlocks(rec: SessionRecorder)
    requires rec.Valid() && rec.recording
    ensures RecordCompletion(true, rec.sessionId.Some?) == Deadlocked
  {
  }

  class SessionRecorder {
    var recording: bool
    var manualMode: bool
    /** The session id; it is set and cleared together with `session_dir`, so it also stands for that. */
    var sessionId: Option<string>
    /** Whether a video writer is held (`video_writer is not None`). */
    var writerOpen: bool
    var frameCount: nat
    var targetsFound: seq<Found>
    var events: seq<Event>

    /**
     * A writer is held exactly while recording; a recording session has an
     * id, begins its log with its start event, and its log is chronological.
     */
    ghost predicate Valid()
      reads this
    {
      writerOpen == recording
      && (recording ==> sessionId.Some? && |events| > 0 && events[0].kind.SessionStart?
                        && Chronological(events, frameCount))
    }

    constructor()
      ensures Valid()
      ensures !recording && !manualMode && sessionId == None && frameCount == 0
      ensures targetsFound == [] && events == []
    {
      recording := false;
      manualMode := false;
      sessionId := None;
      writerOpen := false;
      frameCount := 0;
      targetsFound := [];
      events := [];
    }

    /**
     * `_stop_internal`: when not recording, nothing. Otherwise the stop event
     * is logged, the writer released, and the session's metadata (with the
     * frame count before the reset) returned; the session fields are reset
     * while the found list and the log are kept.
     */
    method StopInternal() returns (m: Option<Metadata>)
      requires Valid()
      modifies this
      ensures Valid()
      ensures !old(recording) ==> m == None && unchanged(this)
      ensures old(recording) ==>
                && m == Some(Metadata(old(sessionId), old(frameCount), old(targetsFound),
                                      old(events) + [Event(SessionStop, old(frameCount))]))
                && !recording && !manualMode && sessionId == None && frameCount == 0
                && targetsFound == old(targetsFound)
                && events == old(events) + [Event(SessionStop, old(frameCount))]
    {
      if !recording {
        return None;
      }
      events := events + [Event(SessionStop, frameCount)];
      writerOpen := false;
      m := Some(Metadata(sessionId, frameCount, targetsFound, events));
      recording := false;
      sessionId := None;
      frameCount := 0;
      manualMode := false;
    }

    /** `stop` is `_stop_internal` under the lock. */
    method Stop() returns (m: Option<Metadata>)
      requires Valid()
      modifies this
      ensures Valid()
      ensures !old(recording) ==> m == None && unchanged(this)
      ensures old(recording) ==>
                && m == Some(Metadata(old(sessionId), old(frameCount), old(targetsFound),
                                      old(events) + [Event(SessionStop, old(frameCount))]))
                && !recording && !manualMode && sessionId == None && frameCount == 0
                && targetsFound == old(targetsFound)
                && events == old(events) + [Event(SessionStop, old(frameCount))]
    {
      m := StopInternal();
    }

    /**
     * `start`: a running session is stopped first. The new id is taken at
     * once; if the writer does not open, the error is returned and nothing
     * else is reset. Otherwise a fresh session begins whose log is the single
     * start event.
     */
    method Start(manual: bool, stamp: string, writerOpens: bool) returns (r: Result<string, string>)
      requires Valid()
      modifies this
      ensures Valid()
      ensures sessionId == Some(stamp)
      ensures writerOpens ==>
                && r == Ok(stamp) && recording && manualMode == manual && frameCount == 0
                && targetsFound == [] && events == [Event(SessionStart(manual), 0)]
      ensures !writerOpens ==> r == Err(WriterFailure) && !recording && !writerOpen
      ensures !writerOpens && !old(recording) ==>
                frameCount == old(frameCount) && targetsFound == old(targetsFound) && events == old(events)
      ensures !writerOpens && old(recording) ==>
                frameCount == 0 && targetsFound == old(targetsFound)
                && events == old(events) + [Event(SessionStop, old(frameCount))]
    {
      if recording {
        var _ := StopInternal();
      }
      sessionId := Some(stamp);
      if !writerOpens {
        writerOpen := false;
        return Err(WriterFailure);
      }
      writerOpen := true;
      recording := true;
      manualMode := manual;
      frameCount := 0;
      targetsFound := [];
      events := [Event(SessionStart(manual), 0)];
      r := Ok(stamp);
    }

    /** `write_frame`: counts a frame only while recording and only if the write succeeds. */
    method WriteFrame(writeFails: bool) returns (ok: bool)
      requires Valid()
      modifies this`frameCount
      ensures Valid()
      ensures ok <==> old(recording) && writerOpen && !writeFails
      ensures frameCount == if ok then old(frameCount) + 1 else old(frameCount)
    {
      if !recording || !writerOpen {
        return false;
      }
      if writeFails {
        return false;
      }
      frameCount := frameCount + 1;
      ok := true;
    }

    /**
     * `record_target_found` as written: it holds the recorder's lock and,
     * given a frame while a session directory exists, calls `save_thumbnail`,
     * which takes the same non-reentrant lock again, so the call never
     * returns and nothing is recorded. Otherwise the find is appended,
     * stamped with the current frame and without a thumbnail, and logged.
     */
    method RecordTargetFound(targetId: string, targetName: string, confidence: real, frameGiven: bool)
      returns (c: Completion)
      requires Valid()
      modifies this`targetsFound, this`events
      ensures Valid()
      ensures c == RecordCompletion(frameGiven, old(sessionId).Some?)
      ensures c == Deadlocked ==> targetsFound == old(targetsFound) && events == old(events)
      ensures c == Returned ==>
                var f := Found(targetId, targetName, confidence, frameCount, None);
                targetsFound == old(targetsFound) + [f]
                && events == old(events) + [Event(TargetFound(f), frameCount)]
    {
      if frameGiven && sessionId.Some? {
        return Deadlocked;
      }
      var f := Found(targetId, targetName, confidence, frameCount, None);
      targetsFound := targetsFound + [f];
      if recording {
        AppendKeepsChronological(events, frameCount, TargetFound(f));
      }
      events := events + [Event(TargetFound(f), frameCount)];
      c := Returned;
    }

    /**
     * The evidently intended `record_target_found`: the thumbnail is saved
     * under the lock already held, and named when a frame was given, a
     * session directory exists and the image was saved.
     */
    method RecordTargetFoundUnlocked(targetId: string, targetName: string, confidence: real,
                                     frameGiven: bool, imageSaved: bool)
      requires Valid()
      modifies this`targetsFound, this`events
      ensures Valid()
      ensures var thumb := if frameGiven && sessionId.Some? && imageSaved
                           then Some(ThumbnailName(targetId, |old(targetsFound)|)) else None;
              var f := Found(targetId, targetName, confidence, frameCount, thumb);
              targetsFound == old(targetsFound) + [f]
              && events == old(events) + [Event(TargetFound(f), frameCount)]
    {
      var thumb: Option<string> := None;
      if frameGiven && sessionId.Some? && imageSaved {
        thumb := Some(ThumbnailName(targetId, |targetsFound|));
      }
      var f := Found(targetId, targetName, confidence, frameCount, thumb);
      targetsFound := targetsFound + [f];
      if recording {
        AppendKeepsChronological(events, frameCount, TargetFound(f));
      }
      events := events + [Event(TargetFound(f), frameCount)];
    }

    /** `on_takeoff`: starts an automatic session when idle, else logs the take-off. */
    method OnTakeoff(stamp: string, writerOpens: bool) returns (r: Option<Result<string, string>>)
      requires Valid()
      modifies this
      ensures Valid()
      ensures !old(recording) ==> r.Some? && (r.value.Ok? <==> writerOpens) && sessionId == Some(stamp)
      ensures !old(recording) && writerOpens ==>
                && r == Some(Ok(stamp)) && recording && !manualMode && frameCount == 0
                && targetsFound == [] && events == [Event(SessionStart(false), 0)]
      ensures !old(recording) && !writerOpens ==>
                && r == Some(Err(WriterFailure)) && !recording
                && frameCount == old(frameCount) && targetsFound == old(targetsFound) && events == old(events)
      ensures old(recording) ==>
                r == None && events == old(events) + [Event(Takeoff, frameCount)]
                && recording == old(recording) && manualMode == old(manualMode)
                && frameCount == old(frameCount) && sessionId == old(sessionId)
                && targetsFound == old(targetsFound)
    {
      if !recording {
        var s := Start(false, stamp, writerOpens);
        return Some(s);
      }
      AppendKeepsChronological(events, frameCount, Takeoff);
      events := events + [Event(Takeoff, frameCount)];
      r := None;
    }

    /** `on_land`: while recording, logs the landing and ends the session unless it was started by hand. */
    method OnLand()
      requires Valid()
      modifies this
      ensures Valid()
      ensures !old(recording) ==> unchanged(this)
      ensures old(recording) && old(manualMode) ==>
                recording && events == old(events) + [Event(Land, old(frameCount))]
                && frameCount == old(frameCount) && manualMode && sessionId == old(sessionId)
                && targetsFound == old(targetsFound)
      ensures old(recording) && !old(manualMode) ==>
                !recording && !manualMode && sessionId == None && frameCount == 0
                && targetsFound == old(targetsFound)
                && events == old(events) + [Event(Land, old(frameCount)), Event(SessionStop, old(frameCount))]
    {
      if recording {
        AppendKeepsChronological(events, frameCount, Land);
        events := events + [Event(Land, frameCount)];
        if !manualMode {
          var _ := StopInternal();
        }
      }
    }
  }
}

=== FILE: registry.dfy ===
/**
 * The tool registry: tools stored by name in registration order, lookup,
 * the list of schemas offered to the language model, and dispatch of a
 * call by name with the tool's exceptions turned into failed results.
 */
module Registry {
  import opened Wrappers
  import opened Json
  import opened OrderedKeys
  import opened ToolBase

  /** What a tool's own `execute` did: returned a result, or raised with a message. */
  datatype Run = Returned(result: ToolResult) | Raised(message: string)

  class ToolRegistry {
    var tools: map<string, Tool>
    /** The names in registration order (the dictionary's key order). */
    var order: seq<string>

    ghost predicate Valid()
      reads this
    {
      KeysInOrder(tools, order)
    }

    constructor()
      ensures Valid() && tools == map[] && order == []
    {
      tools := map[];
      order := [];
    }

    /** `register`: stored under its name; a second tool of the same name replaces the first in place. */
    method Register(tool: Tool)
      requires Valid()
      modifies this
      ensures Valid()
      ensures tools == old(tools)[tool.name := tool]
      ensures order == if tool.name in old(tools) then old(order) else old(order) + [tool.name]
    {
      if tool.name !in tools {
        order := order + [tool.name];
      }
      tools := tools[tool.name := tool];
    }

    function Get(name: string): (r: Option<Tool>)
      reads this
      ensures r.None? <==> name !in tools
      ensures r.Some? ==> r.value == tools[name] && r.value in tools.Values
    {
      if name in tools then Some(tools[name]) else None
    }

    /** `__contains__`. */
    predicate Contains(name: string)
      reads this
    {
      name in tools
    }

    /** `__len__`. */
    function Len(): (n: nat)
      reads this
      requires Valid()
      ensures n == |order|
    {
      SizeIsOrderLength(tools, order);
      |tools|
    }

    /** `list_all`: one tool per registered name, in registration order. */
    function ListAll(): (r: seq<Tool>)
      reads this
      requires Valid()
      ensures |r| == |order|
      ensures forall i | 0 <= i < |r| :: r[i] == tools[order[i]]
    {
      seq(|order|, i requires 0 <= i < |order| reads this requires Valid() => tools[order[i]])
    }

    /** `get_schemas`: the schema of each tool of `list_all`, in the same order. */
    function GetSchemas(): (r: seq<Value>)
      reads this
      requires Valid()
      ensures |r| == |order|
      ensures forall i | 0 <= i < |r| :: r[i] == Schema(ListAll()[i])
    {
      var all := ListAll();
      seq(|all|, i requires 0 <= i < |all| => Schema(all[i]))
    }

    /**
     * `execute`: an unknown name fails without running anything; otherwise
     * the tool's own result comes back unchanged, and an exception becomes
     * a failed result naming the tool.
     */
    function Execute(name: string, run: Run): (r: ToolResult)
      reads this
      ensures name !in tools ==> r == Plain(false, "Tool '" + name + "' not found")
      ensures name in tools && run.Returned? ==> r == run.result
      ensures name in tools && run.Raised? ==>
                r == Plain(false, "Tool '" + name + "' raised exception: " + run.message)
    {
      match Get(name)
      case None => Plain(false, "Tool '" + name + "' not found")
      case Some(_) =>
        match run
        case Returned(result) => result
        case Raised(e) => Plain(false, "Tool '" + name + "' raised exception: " + e)
    }
  }

  /**
   * Registering a tool makes its name known and retrievable, and the count
   * grows by one exactly when the name was new.
   */
  method RegisterThenLookup(reg: ToolRegistry, tool: Tool)
    requires reg.Valid()
    modifies reg
    ensures reg.Valid()
    ensures reg.Contains(tool.name) && reg.Get(tool.name) == Some(tool)
    ensures reg.Len() == old(reg.Len()) + (if tool.name in old(reg.tools) then 0 else 1)
  {
    reg.Register(tool);
  }
}

=== FILE: safety.dfy ===
/**
 * The abort mechanism and the gate in front of the code sandbox: the global
 * abort flag, the keyword and length screening of generated code, and the
 * early returns of `execute` before and around running it.
 */
module Safety {
  import opened Wrappers
  import Text

  /** The process-wide abort flag, shared by every component that can stop a mission. */
  class AbortFlag {
    var isSet: bool

    constructor()
      ensures !isSet
    {
      isSet := false;
    }

    method Set()
      modifies this
      ensures isSet
    {
      isSet := true;
    }

    /** `clear_abort`: allows new missions. */
    method Clear()
      modifies this
      ensures !isSet
    {
      isSet := false;
    }
  }

  /** The screened substrings, in the order they are tried. */
  const DangerousKeywords: seq<string> := [
    "import ", "from ", "__import__", "eval(", "exec(", "compile(", "open(",
    "file(", "input(", "raw_input(", "os.", "sys.", "subprocess", "socket"
  ]

  const MaxCodeLength: int := 10000

  /** The first keyword whose lowercase form occurs in `codeLower`, if any. */
  function FirstDangerous(keywords: seq<string>, codeLower: string): (r: Option<string>)
    ensures r.None? <==> forall k | k in keywords :: !Text.Contains(codeLower, Text.Lower(k))
    ensures r.Some? ==> exists i | 0 <= i < |keywords| ::
              && keywords[i] == r.value
              && Text.Contains(codeLower, Text.Lower(keywords[i]))
              && forall j | 0 <= j < i :: !Text.Contains(codeLower, Text.Lower(keywords[j]))
  {
    if keywords == [] then None
    else if Text.Contains(codeLower, Text.Lower(keywords[0])) then
      assert keywords[0] in keywords;
      Some(keywords[0])
    else
      var rest := FirstDangerous(keywords[1..], codeLower);
      assert forall k | k in keywords[1..] :: k in keywords;
      if rest.Some? then
        var i :| 0 <= i < |keywords[1..]| && keywords[1..][i] == rest.value
                 && Text.Contains(codeLower, Text.Lower(keywords[1..][i]))
                 && forall j | 0 <= j < i :: !Text.Contains(codeLower, Text.Lower(keywords[1..][j]));
        assert keywords[i + 1] == rest.value;
        rest
      else rest
  }

  /**
   * `_validate_code`: the keyword screen, then the length limit, then the
   * syntax check; `syntaxError` is what compiling the code reports, since the
   * Python compiler is not part of this model.
   */
  function ValidateCode(code: string, syntaxError: Option<string>): (r: Option<string>)
    ensures FirstDangerous(DangerousKeywords, Text.Lower(code)).Some? ==>
              r == Some("Dangerous keyword detected: " + FirstDangerous(DangerousKeywords, Text.Lower(code)).value)
    ensures FirstDangerous(DangerousKeywords, Text.Lower(code)).None? && |code| > MaxCodeLength ==>
              r == Some("Code too long (max 10000 characters)")
    ensures r.None? <==>
              && (forall k | k in DangerousKeywords :: !Text.Contains(Text.Lower(code), Text.Lower(k)))
              && |code| <= MaxCodeLength
              && syntaxError.None?
  {
    var hit := FirstDangerous(DangerousKeywords, Text.Lower(code));
    if hit.Some? then Some("Dangerous keyword detected: " + hit.value)
    else if |code| > MaxCodeLength then Some("Code too long (max 10000 characters)")
    else if syntaxError.Some? then Some("Syntax error: " + syntaxError.value)
    else None
  }

  /** What running the code ended with; the interpreter itself is not part of this model. */
  datatype RunOutcome = Completed | AbortRaised | Raised(message: string)

  /** What `execute` returns, plus the stop it asks of the vehicle. */
  datatype Stop = NoStop | EmergencyStop | Hover
  datatype ExecutionResult = ExecutionResult(success: bool, message: string, ran: bool, stop: Stop)

  function Execute(abortSet: bool, code: string, syntaxError: Option<string>, run: RunOutcome): (r: ExecutionResult)
    ensures abortSet ==> r == ExecutionResult(false, "Execution aborted before start", false, NoStop)
    ensures !abortSet && ValidateCode(code, syntaxError).Some? ==>
              r == ExecutionResult(false, "Safety violation: " + ValidateCode(code, syntaxError).value, false, NoStop)
    ensures r.ran <==> !abortSet && ValidateCode(code, syntaxError).None?
    ensures r.success <==> r.ran && run == Completed
    ensures r.stop == EmergencyStop <==> r.ran && run == AbortRaised
    ensures r.stop == Hover <==> r.ran && run.Raised?
  {
    if abortSet then ExecutionResult(false, "Execution aborted before start", false, NoStop)
    else
      match ValidateCode(code, syntaxError)
      case Some(e) => ExecutionResult(false, "Safety violation: " + e, false, NoStop)
      case None =>
        match run
        case Completed => ExecutionResult(true, "Execution completed", true, NoStop)
        case AbortRaised => ExecutionResult(false, "Execution aborted by user", true, EmergencyStop)
        case Raised(m) => ExecutionResult(false, "Execution error: " + m, true, Hover)
  }

  /** Any code containing "from " (in any letter case) is refused, whatever else it holds. */
  lemma FromAlwaysRejected(code: string, syntaxError: Option<string>)
    requires Text.Contains(Text.Lower(code), "from ")
    ensures ValidateCode(code, syntaxError).Some?
  {
    assert DangerousKeywords[1] == "from ";
    assert Text.Lower("from ") == "from ";
  }
}

=== FILE: safety_tools.dfy ===
/**
 * The safety tools: the vision clearance check with its chain of
 * precondition failures, and the pre-flight check that grades battery,
 * altitude and obstacles into passes, warnings and critical failures.
 *
 * Sensor reads, the camera and the vision model are inputs: a read that
 * raised is `Err(message)`, with `message` standing for `str(e)`.
 */
module SafetyTools {
  import opened Wrappers
  import opened Json
  import opened ToolBase
  import Text

  function I(n: int): string
  {
    Text.IntToString(n)
  }

  /** The first `n` elements, as Python's `xs[:n]`. */
  function Take<T>(xs: seq<T>, n: nat): (r: seq<T>)
    ensures |r| <= n && r <= xs
    ensures |xs| <= n ==> r == xs
  {
    if |xs| <= n then xs else xs[..n]
  }

  // ------------------------------------------------------ check_clearance

  const ClearanceRequirements: map<string, int> :=
    map["flip" := 200, "forward" := 100, "backward" := 100, "lateral" := 80, "vertical" := 100, "general" := 100]

  /** The clearance a maneuver needs, in centimetres; an unknown maneuver needs the general 100. */
  function RequiredClearance(maneuver: string): (cm: int)
    ensures maneuver == "flip" ==> cm == 200
    ensures maneuver == "lateral" ==> cm == 80
    ensures maneuver != "flip" && maneuver != "lateral" ==> cm == 100
  {
    if maneuver in ClearanceRequirements then ClearanceRequirements[maneuver] else 100
  }

  /** One obstacle the vision model reported; `dump` is its serialised record. */
  datatype Obstacle = Obstacle(name: string, position: string, dump: Value)

  /** The vision model's clearance analysis of a frame. */
  datatype ClearanceAnalysis = ClearanceAnalysis(
    isClear: bool,
    score: int,
    front: int, left: int, right: int, above: int, below: int,
    safeForFlip: bool, safeForForward: bool, safeForLateral: bool, safeForVertical: bool,
    obstacles: seq<Obstacle>,
    hazards: seq<string>,
    warnings: seq<string>,
    recommendedAction: string)

  /**
   * What the clearance check finds around it: whether the vision model is
   * configured, whether the video stream exists and runs, the capture
   * (`Ok(false)` for an empty frame), and the analysis of the frame.
   */
  datatype Environment = Environment(
    visionModel: bool,
    videoPresent: bool,
    videoRunning: bool,
    capture: Result<bool, string>,
    analysis: Result<ClearanceAnalysis, string>)

  /** The preconditions in the order they are checked, each with its error code. */
  function Preconditions(env: Environment): (cs: seq<(bool, string)>)
    ensures |cs| == 6
  {
    [ (env.visionModel, "no_grok_client"),
      (env.videoPresent, "no_video_stream"),
      (env.videoRunning, "video_not_running"),
      (env.capture.Ok?, "capture_failed"),
      (env.capture == Ok(true), "empty_frame"),
      (env.analysis.Ok?, "analysis_failed") ]
  }

  function Strs(xs: seq<string>): (r: seq<Value>)
    ensures |r| == |xs| && forall i | 0 <= i < |xs| :: r[i] == Str(xs[i])
  {
    seq(|xs|, i requires 0 <= i < |xs| => Str(xs[i]))
  }

  function Dumps(os: seq<Obstacle>): (r: seq<Value>)
    ensures |r| == |os|
  {
    seq(|os|, i requires 0 <= i < |os| => os[i].dump)
  }

  function Described(os: seq<Obstacle>): (r: seq<string>)
    ensures |r| == |os|
  {
    seq(|os|, i requires 0 <= i < |os| => os[i].name + " (" + os[i].position + ")")
  }

  function Names(os: seq<Obstacle>): (r: seq<string>)
    ensures |r| == |os|
  {
    seq(|os|, i requires 0 <= i < |os| => os[i].name)
  }

  /** The human-readable verdict of a completed analysis. */
  function ClearanceMessage(maneuver: string, a: ClearanceAnalysis): string
  {
    if a.isClear then
      "✅ CLEAR for " + maneuver + "!\n\n"
      + "Safety Score: " + I(a.score) + "/100\n"
      + "Clearance: Front " + I(a.front) + "cm, "
      + "Left " + I(a.left) + "cm, "
      + "Right " + I(a.right) + "cm\n"
      + (if maneuver == "flip" then "\n✅ Safe for flip: YES" else "")
    else
      var listed := Text.Join(Described(Take(a.obstacles, 3)), ", ");
      "⚠️ NOT SAFE for " + maneuver + "!\n\n"
      + "Safety Score: " + I(a.score) + "/100\n"
      + "Obstacles: " + (if listed == [] then "insufficient clearance" else listed) + "\n"
      + "\nRecommendation: " + a.recommendedAction
      + (if a.warnings != [] then "\n\nWarnings:\n• " + Text.Join(Take(a.warnings, 3), "\n• ") else "")
  }

  function ClearanceData(maneuver: string, a: ClearanceAnalysis): (d: map<string, Value>)
    ensures "is_clear" in d && d["is_clear"] == Bool(a.isClear)
    ensures "required_clearance_cm" in d && d["required_clearance_cm"] == Num(RequiredClearance(maneuver) as real)
  {
    map[
      "maneuver_type" := Str(maneuver),
      "required_clearance_cm" := Num(RequiredClearance(maneuver) as real),
      "is_clear" := Bool(a.isClear),
      "safety_score" := Num(a.score as real),
      "clearance" := Obj(map["front" := Num(a.front as real), "left" := Num(a.left as real),
                             "right" := Num(a.right as real), "above" := Num(a.above as real),
                             "below" := Num(a.below as real)]),
      "safe_for" := Obj(map["flip" := Bool(a.safeForFlip), "forward" := Bool(a.safeForForward),
                            "lateral" := Bool(a.safeForLateral), "vertical" := Bool(a.safeForVertical)]),
      "obstacles" := Arr(Dumps(a.obstacles)),
      "hazards" := Arr(Strs(a.hazards)),
      "warnings" := Arr(Strs(a.warnings)),
      "recommended_action" := Str(a.recommendedAction)]
  }

  const NoVisionMessage: string := "❌ Vision AI not available - cannot perform safety check"
  const NoVideoMessage: string := "❌ Video stream not initialized - cannot perform safety check"
  const VideoStoppedMessage: string := "❌ Video stream not running - cannot perform safety check. Try restarting video."
  const EmptyFrameMessage: string := "❌ Camera returned empty frame - cannot perform safety check"

  /**
   * `CheckClearanceTool.execute`. The first failing precondition decides
   * the error; once the analysis completes the check succeeds, whether or
   * not the way is clear.
   */
  function CheckClearance(maneuver: string, env: Environment): (r: ToolResult)
    ensures r.success ==> env.analysis.Ok?
                          && r.data == Obj(ClearanceData(maneuver, env.analysis.value))
                          && r.message == ClearanceMessage(maneuver, env.analysis.value)
    ensures !r.success ==> r.data.Obj? && "error" in r.data.fields
  {
    if !env.visionModel then
      ToolBase.Failure(NoVisionMessage, Obj(map["error" := Str("no_grok_client")]))
    else if !env.videoPresent then
      ToolBase.Failure(NoVideoMessage, Obj(map["error" := Str("no_video_stream")]))
    else if !env.videoRunning then
      ToolBase.Failure(VideoStoppedMessage, Obj(map["error" := Str("video_not_running")]))
    else if env.capture.Err? then
      ToolBase.Failure("❌ Camera capture failed: " + env.capture.error,
        Obj(map["error" := Str("capture_failed"), "exception" := Str(env.capture.error)]))
    else if !env.capture.value then
      ToolBase.Failure(EmptyFrameMessage, Obj(map["error" := Str("empty_frame")]))
    else if env.analysis.Err? then
      ToolBase.Failure("❌ Vision analysis failed: " + env.analysis.error,
        Obj(map["error" := Str("analysis_failed"), "exception" := Str(env.analysis.error)]))
    else
      var a := env.analysis.value;
      Success(ClearanceMessage(maneuver, a), Obj(ClearanceData(maneuver, a)))
  }

  /**
   * The check succeeds iff every precondition holds, and a failure carries
   * the error code of the first precondition that does not.
   */
  lemma ClearanceErrorOrder(maneuver: string, env: Environment)
    ensures var r := CheckClearance(maneuver, env);
            && (r.success <==> forall k | 0 <= k < 6 :: Preconditions(env)[k].0)
            && (!r.success ==>
                  exists k | 0 <= k < 6 ::
                    && !Preconditions(env)[k].0
                    && (forall j | 0 <= j < k :: Preconditions(env)[j].0)
                    && r.data.fields["error"] == Str(Preconditions(env)[k].1))
  {
    var cs := Preconditions(env);
    var k := FirstFailing(env);
    if k < 6 {
      assert CheckClearance(maneuver, env).data.fields["error"] == Str(cs[k].1);
    }
  }

  /** The index of the first precondition that does not hold, 6 when all hold. */
  function FirstFailing(env: Environment): (k: nat)
    ensures k <= 6
    ensures forall j | 0 <= j < k :: Preconditions(env)[j].0
    ensures k < 6 ==> !Preconditions(env)[k].0
  {
    if !env.visionModel then 0
    else if !env.videoPresent then 1
    else if !env.videoRunning then 2
    else if env.capture.Err? then 3
    else if !env.capture.value then 4
    else if env.analysis.Err? then 5
    else 6
  }

  // ------------------------------------------------------ preflight_check

  const BatteryGood: int := 50
  const BatteryWarning: int := 30
  const AltitudeGood: int := 100
  const AltitudeWarning: int := 50
  const SafetyScoreGood: int := 70
  const SafetyScoreWarning: int := 50

  /** What the pre-flight check reads: battery, flying state, height, vision availability and the obstacle scan (`Ok(None)` for an empty frame). */
  datatype Readings = Readings(
    battery: Result<int, string>,
    flying: bool,
    height: Result<int, string>,
    vision: bool,
    scan: Result<Option<ClearanceAnalysis>, string>)

  /** One check's contribution: its report line, warnings, critical failures and data entries. */
  datatype CheckReport = CheckReport(line: string, warnings: seq<string>, critical: seq<string>, data: map<string, Value>)

  function BatteryCheck(battery: Result<int, string>): (c: CheckReport)
    ensures c.critical != [] <==> battery.Err? || battery.value < BatteryWarning
    ensures c.warnings != [] <==> battery.Ok? && BatteryWarning <= battery.value < BatteryGood
    ensures c.data == map["battery" := Num(if battery.Ok? then battery.value as real else -1.0)]
  {
    match battery
    case Err(e) =>
      CheckReport("❌ Battery: Read failed (" + e + ")", [], ["Cannot read battery: " + e], map["battery" := Num(-1.0)])
    case Ok(b) =>
      var d := map["battery" := Num(b as real)];
      if b >= BatteryGood then CheckReport("✅ Battery: " + I(b) + "% (excellent)", [], [], d)
      else if b >= BatteryWarning then
        CheckReport("⚠️ Battery: " + I(b) + "% (moderate - avoid flips)", ["Battery at " + I(b) + "% - flip maneuvers disabled"], [], d)
      else CheckReport("❌ Battery: " + I(b) + "% (CRITICAL - land soon!)", [], ["Battery critically low"], d)
  }

  /** The altitude is graded only in flight; a failed read there is only a warning. */
  function AltitudeCheck(flying: bool, height: Result<int, string>): (c: CheckReport)
    ensures c.critical != [] <==> flying && height.Ok? && height.value < AltitudeWarning
    ensures c.warnings != [] <==> flying && (height.Err? || (AltitudeWarning <= height.value < AltitudeGood))
    ensures c.data == map["is_flying" := Bool(flying),
                           "altitude" := Num(if !flying then 0.0 else if height.Ok? then height.value as real else -1.0)]
  {
    if !flying then
      CheckReport("ℹ️ Altitude: N/A (grounded)", [], [], map["is_flying" := Bool(false), "altitude" := Num(0.0)])
    else match height
      case Err(e) =>
        CheckReport("⚠️ Altitude: Read failed (" + e + ")", ["Cannot read altitude sensor"], [],
          map["is_flying" := Bool(true), "altitude" := Num(-1.0)])
      case Ok(h) =>
        var d := map["is_flying" := Bool(true), "altitude" := Num(h as real)];
        if h >= AltitudeGood then CheckReport("✅ Altitude: " + I(h) + "cm (good for all maneuvers)", [], [], d)
        else if h >= AltitudeWarning then
          CheckReport("⚠️ Altitude: " + I(h) + "cm (gain altitude for flips)", ["Altitude " + I(h) + "cm - need 100cm+ for flips"], [], d)
        else CheckReport("❌ Altitude: " + I(h) + "cm (too low!)", [], ["Altitude critically low (" + I(h) + "cm)"], d)
  }

  /** An analysis grades critical unless it scores at least the warning level. */
  predicate ObstaclesCritical(r: Readings)
  {
    r.vision && r.scan.Ok? && r.scan.value.Some? && r.scan.value.value.score < SafetyScoreWarning
  }

  function ObstacleCheck(vision: bool, scan: Result<Option<ClearanceAnalysis>, string>): (c: CheckReport)
    ensures c.critical != [] <==> vision && scan.Ok? && scan.value.Some? && scan.value.value.score < SafetyScoreWarning
    ensures c.warnings == [] <==> vision && scan.Ok? && scan.value.Some?
                                  && scan.value.value.isClear && scan.value.value.score >= SafetyScoreGood
    ensures "safety_score" in c.data
    ensures c.data["safety_score"] ==
              Num(if vision && scan.Ok? && scan.value.Some? then scan.value.value.score as real else -1.0)
  {
    if !vision then
      CheckReport("⚠️ Obstacles: Vision system unavailable", ["Cannot check obstacles - fly with extra caution!"], [],
        map["vision_available" := Bool(false), "safety_score" := Num(-1.0)])
    else match scan
      case Err(e) =>
        CheckReport("⚠️ Obstacles: Check failed (" + e + ")", ["Vision check failed: " + e], [],
          map["vision_available" := Bool(true), "safety_score" := Num(-1.0)])
      case Ok(None) =>
        CheckReport("⚠️ Obstacles: Camera returned empty frame", ["Could not capture frame for obstacle check"], [],
          map["vision_available" := Bool(true), "safety_score" := Num(-1.0)])
      case Ok(Some(a)) =>
        var d := map["vision_available" := Bool(true), "safety_score" := Num(a.score as real),
                     "obstacles" := Arr(Dumps(a.obstacles))];
        var named := Text.Join(Names(Take(a.obstacles, 2)), ", ");
        if a.isClear && a.score >= SafetyScoreGood then
          CheckReport("✅ Obstacles: Clear (score: " + I(a.score) + "/100)", [], [], d)
        else if a.score >= SafetyScoreWarning then
          var names := if named == [] then "obstacles nearby" else named;
          CheckReport("⚠️ Obstacles: Caution (" + I(a.score) + "/100) - " + names,
            ["Obstacles detected: " + names] + HazardWarnings(Take(a.hazards, 2)), [], d)
        else
          var names := if named == [] then "obstacles" else named;
          CheckReport("❌ Obstacles: DANGER (" + I(a.score) + "/100) - " + names,
            ["Recommendation: " + a.recommendedAction], ["Dangerous obstacles: " + names], d)
  }

  function HazardWarnings(hs: seq<string>): (r: seq<string>)
    ensures |r| == |hs|
  {
    seq(|hs|, i requires 0 <= i < |hs| => "Hazard: " + hs[i])
  }

  /** Any critical finding, stated on the readings. */
  predicate AnyCritical(r: Readings)
  {
    || r.battery.Err? || r.battery.value < BatteryWarning
    || (r.flying && r.height.Ok? && r.height.value < AltitudeWarning)
    || ObstaclesCritical(r)
  }

  datatype Preflight = Preflight(checks: seq<string>, warnings: seq<string>, critical: seq<string>, data: map<string, Value>)

  /** The three checks in order, their lines, warnings and failures concatenated. */
  function Findings(r: Readings): (p: Preflight)
    ensures |p.checks| == 3
    ensures p.critical == [] <==> !AnyCritical(r)
  {
    var b := BatteryCheck(r.battery);
    var a := AltitudeCheck(r.flying, r.height);
    var o := ObstacleCheck(r.vision, r.scan);
    Preflight([b.line, a.line, o.line], b.warnings + a.warnings + o.warnings, b.critical + a.critical + o.critical,
      b.data + a.data + o.data)
  }

  /** The closing advice of a check with no critical failure. */
  datatype Advice = NoAdvice | AllManeuvers | NormalFlight | CarefulFlight
  {
    function Text(): string
    {
      match this
      case NoAdvice => ""
      case AllManeuvers => "\n\n✅ Ready for all maneuvers including flips!"
      case NormalFlight => "\n\n✅ Ready for normal flight. Gain altitude for flips."
      case CarefulFlight => "\n\n✅ Ready for careful flight. Avoid aggressive maneuvers."
    }
  }

  /** The advice, judged on the recorded battery (−1 when unread) and altitude (0 on the ground, −1 when unread). */
  function Recommendation(r: Readings): Advice
  {
    var battery := if r.battery.Ok? then r.battery.value else -1;
    var altitude := if !r.flying then 0 else if r.height.Ok? then r.height.value else -1;
    if AnyCritical(r) then NoAdvice
    else if battery >= 50 && altitude >= 100 then AllManeuvers
    else if battery >= 50 then NormalFlight
    else CarefulFlight
  }

  /** Flips are recommended only to a flying drone with a good battery and a good altitude reading. */
  lemma FlipsNeedFlightAndCharge(r: Readings)
    ensures Recommendation(r) == AllManeuvers <==>
              && !AnyCritical(r)
              && r.battery.Ok? && r.battery.value >= BatteryGood
              && r.flying && r.height.Ok? && r.height.value >= AltitudeGood
  {
  }

  /** Careful-flight advice is given exactly when nothing is critical and the battery is moderate. */
  lemma CarefulMeansModerateBattery(r: Readings)
    ensures Recommendation(r) == CarefulFlight <==>
              !AnyCritical(r) && BatteryWarning <= r.battery.value < BatteryGood
  {
  }

  function Rule(n: nat): (s: string)
    ensures |s| == n
  {
    seq(n, _ => '=')
  }

  function PreflightMessage(p: Preflight, advice: Advice): string
  {
    var allPassed := p.critical == [];
    var status :=
      if allPassed && p.warnings == [] then "✅ PRE-FLIGHT CHECK: ALL CLEAR"
      else if allPassed then "⚠️ PRE-FLIGHT CHECK: PASSED WITH WARNINGS"
      else "❌ PRE-FLIGHT CHECK: FAILED";
    status + "\n" + Rule(40) + "\n\n" + Text.Join(p.checks, "\n")
    + (if p.warnings != [] then "\n\n⚠️ WARNINGS:\n• " + Text.Join(p.warnings, "\n• ") else "")
    + (if p.critical != [] then
         "\n\n❌ CRITICAL ISSUES:\n• " + Text.Join(p.critical, "\n• ") + "\n\n🛑 Resolve critical issues before proceeding!"
       else "")
    + advice.Text()
  }

  /**
   * `PreFlightCheckTool.execute`: the check itself always succeeds;
   * `all_passed` holds iff nothing is critical.
   */
  function PreflightCheck(r: Readings): (t: ToolResult)
    ensures t.success
    ensures t.data.Obj? && "all_passed" in t.data.fields
    ensures t.data.fields["all_passed"] == Bool(!AnyCritical(r))
  {
    var p := Findings(r);
    Success(PreflightMessage(p, Recommendation(r)), Obj(PreflightData(p)))
  }

  /** The check's data: the checks' own entries, then the verdict and the three lists. */
  function PreflightData(p: Preflight): (d: map<string, Value>)
    ensures "all_passed" in d && d["all_passed"] == Bool(p.critical == [])
  {
    p.data + map[
      "all_passed" := Bool(p.critical == []),
      "checks" := Arr(Strs(p.checks)),
      "warnings" := Arr(Strs(p.warnings)),
      "critical_failures" := Arr(Strs(p.critical))]
  }
}

=== FILE: selection.dfy ===
/**
 * The "keep the first strictly smaller" scan the Python code writes out by
 * hand wherever it looks for the closest face: a running best that is only
 * replaced on a strict `<`, starting from `float('inf')`.
 */
module Selection {
  import opened Wrappers

  /** The running best after scanning `xs` in order; `None` stands for the initial infinity. */
  function FirstMin<T>(xs: seq<T>, cost: T -> real): (r: Option<T>)
    ensures r.None? <==> xs == []
  {
    if xs == [] then None
    else
      var p := FirstMin(xs[..|xs| - 1], cost);
      var x := xs[|xs| - 1];
      if p.None? || cost(x) < cost(p.value) then Some(x) else p
  }

  /** Reference definition: the element at position k is no larger than any and smaller than every earlier one. */
  ghost predicate IsFirstMin<T>(xs: seq<T>, cost: T -> real, k: int)
  {
    0 <= k < |xs|
    && (forall j :: 0 <= j < |xs| ==> cost(xs[k]) <= cost(xs[j]))
    && (forall j :: 0 <= j < k ==> cost(xs[k]) < cost(xs[j]))
  }

  /** The scan picks the first of the smallest elements. */
  lemma {:induction false} FirstMinMeaning<T>(xs: seq<T>, cost: T -> real)
    requires xs != []
    ensures exists k :: IsFirstMin(xs, cost, k) && FirstMin(xs, cost) == Some(xs[k])
  {
    var n := |xs| - 1;
    var init := xs[..n];
    if init == [] {
      assert IsFirstMin(xs, cost, 0);
    } else {
      FirstMinMeaning(init, cost);
      var k :| IsFirstMin(init, cost, k) && FirstMin(init, cost) == Some(init[k]);
      assert init[k] == xs[k];
      assert FirstMin(xs, cost) == if cost(xs[n]) < cost(xs[k]) then Some(xs[n]) else Some(xs[k]);
      if cost(xs[n]) < cost(xs[k]) {
        forall j | 0 <= j < n
          ensures cost(xs[n]) < cost(xs[j])
        {
          assert xs[j] == init[j];
        }
        assert IsFirstMin(xs, cost, n);
      } else {
        forall j | 0 <= j < n
          ensures cost(xs[k]) <= cost(xs[j])
        {
          assert xs[j] == init[j];
        }
        forall j | 0 <= j < k
          ensures cost(xs[k]) < cost(xs[j])
        {
          assert xs[j] == init[j];
        }
        assert IsFirstMin(xs, cost, k);
      }
    }
  }

  lemma BelowEarlier<T>(xs: seq<T>, cost: T -> real, m: int, k: int)
    requires IsFirstMin(xs, cost, m) && 0 <= k < m
    ensures cost(xs[m]) < cost(xs[k])
  {
  }

  /** Only one position can be the first minimum. */
  lemma FirstMinUnique<T>(xs: seq<T>, cost: T -> real, k: int, m: int)
    requires IsFirstMin(xs, cost, k) && IsFirstMin(xs, cost, m)
    ensures k == m
  {
    assert cost(xs[k]) <= cost(xs[m]) && cost(xs[m]) <= cost(xs[k]);
    if k < m {
      BelowEarlier(xs, cost, m, k);
      assert false;
    } else if m < k {
      BelowEarlier(xs, cost, k, m);
      assert false;
    }
  }

  /** Appending one element: it wins only when it is strictly smaller than the best so far. */
  lemma FirstMinSnoc<T>(xs: seq<T>, x: T, cost: T -> real)
    ensures FirstMin(xs + [x], cost)
         == if FirstMin(xs, cost).None? || cost(x) < cost(FirstMin(xs, cost).value) then Some(x) else FirstMin(xs, cost)
  {
    assert (xs + [x])[..|xs|] == xs;
  }
}

=== FILE: settings.dfy ===
/**
 * The fixed safety and video limits of the application settings, and the
 * start-up validation of the values read from the environment.
 */
module Settings {
  import Text

  const MaxHeightCm: int := 200
  const MinMoveDistance: int := 20
  const MaxMoveDistance: int := 100
  const LowBatteryThreshold: int := 20

  const VideoWidth: int := 960
  const VideoHeight: int := 720
  const VideoFps: int := 30

  const PortLow: int := 1024
  const PortHigh: int := 65535

  /** `validate`: the API key must be non-empty, then the port must be unprivileged. */
  datatype Validation = Validation(valid: bool, message: string)

  function Validate(apiKey: string, port: int): (r: Validation)
    ensures r.valid <==> apiKey != [] && PortLow <= port <= PortHigh
    ensures r.valid ==> r.message == []
    ensures apiKey == [] ==> r.message == "XAI_API_KEY is not set. Please set it in .env file."
    ensures apiKey != [] && !r.valid ==>
              r.message == "Invalid FLASK_PORT: " + Text.IntToString(port) + ". Must be between 1024 and 65535."
  {
    if apiKey == [] then Validation(false, "XAI_API_KEY is not set. Please set it in .env file.")
    else if port < PortLow || port > PortHigh then
      Validation(false, "Invalid FLASK_PORT: " + Text.IntToString(port) + ". Must be between 1024 and 65535.")
    else Validation(true, [])
  }
}

=== FILE: sorting.dfy ===
/** Python's `sorted()` on a list of integers, as an insertion sort. */
module Sorting {

  predicate Sorted(s: seq<int>)
  {
    forall i, j :: 0 <= i < j < |s| ==> s[i] <= s[j]
  }

  function Insert(x: int, s: seq<int>): (r: seq<int>)
    requires Sorted(s)
    ensures Sorted(r)
    ensures multiset(r) == multiset(s) + multiset{x}
  {
    if s == [] then [x]
    else if x <= s[0] then [x] + s
    else
      var rest := Insert(x, s[1..]);
      InsertBehind(x, s, rest);
      [s[0]] + rest
  }

  /** Putting the head back in front of `x` inserted into the tail. */
  lemma InsertBehind(x: int, s: seq<int>, rest: seq<int>)
    requires Sorted(s) && s != [] && s[0] < x
    requires Sorted(rest) && multiset(rest) == multiset(s[1..]) + multiset{x}
    ensures Sorted([s[0]] + rest)
    ensures multiset([s[0]] + rest) == multiset(s) + multiset{x}
  {
    assert s == [s[0]] + s[1..];
    forall k | 0 <= k < |rest|
      ensures s[0] <= rest[k]
    {
      assert rest[k] in multiset(rest);
      if rest[k] != x {
        assert rest[k] in multiset(s[1..]);
        var i :| 0 <= i < |s[1..]| && s[1..][i] == rest[k];
        assert s[i + 1] == rest[k];
      }
    }
  }

  /** `sorted(s)`: the same elements, in ascending order. */
  function SortInts(s: seq<int>): (r: seq<int>)
    ensures Sorted(r)
    ensures multiset(r) == multiset(s)
    ensures |r| == |s|
  {
    if s == [] then []
    else
      assert s == [s[0]] + s[1..];
      Insert(s[0], SortInts(s[1..]))
  }

  /** A sorted list is its own sorted copy. */
  lemma {:induction false} SortSorted(s: seq<int>)
    requires Sorted(s)
    ensures SortInts(s) == s
  {
    if s != [] {
      SortSorted(s[1..]);
      assert s == [s[0]] + s[1..];
    }
  }
}

=== FILE: state.dfy ===
/**
 * The vehicle's operating-mode state machine: a fixed transition table,
 * EMERGENCY reachable from everywhere, an optional `force` flag, and
 * observers told about every real change of state.
 */
module VehicleState {

  datatype DroneState = Idle | Connected | Hovering | Executing | Searching | Landing | Emergency
  {
    /** The enum member's `.name`, as it appears in messages. */
    function Name(): string
    {
      match this
      case Idle => "IDLE"
      case Connected => "CONNECTED"
      case Hovering => "HOVERING"
      case Executing => "EXECUTING"
      case Searching => "SEARCHING"
      case Landing => "LANDING"
      case Emergency => "EMERGENCY"
    }
  }

  /** The transition table: the states an unforced change may go to. */
  function ValidTargets(s: DroneState): set<DroneState>
  {
    match s
    case Idle => {Connected}
    case Connected => {Hovering, Idle}
    case Hovering => {Executing, Searching, Landing, Emergency, Connected}
    case Executing => {Hovering, Emergency}
    case Searching => {Hovering, Emergency}
    case Landing => {Connected, Emergency}
    case Emergency => {Hovering, Landing, Connected}
  }

  /** The states in which the vehicle is airborne and accepts commands. */
  predicate Flying(s: DroneState)
  {
    s == Hovering || s == Executing || s == Searching
  }

  /** What `transition_to` decides: whether it reports success, and the state afterwards. */
  datatype Step = Step(accepted: bool, next: DroneState)

  function Decide(current: DroneState, target: DroneState, force: bool): (r: Step)
    ensures r.next == (if r.accepted then target else current)
    ensures current == target ==> r.accepted
    ensures target == Emergency ==> r.accepted
    ensures force ==> r.accepted
    ensures current != target && target != Emergency && !force ==>
              (r.accepted <==> target in ValidTargets(current))
  {
    if current == target then Step(true, current)
    else if target == Emergency then Step(true, target)
    else if force || target in ValidTargets(current) then Step(true, target)
    else Step(false, current)
  }

  /** From IDLE the only unforced successors are CONNECTED and EMERGENCY. */
  lemma IdleSuccessors(t: DroneState)
    ensures t != Idle && Decide(Idle, t, false).accepted <==> t == Connected || t == Emergency
  {
  }

  /** From EMERGENCY the only unforced successors are HOVERING, LANDING and CONNECTED. */
  lemma EmergencySuccessors(t: DroneState)
    ensures t != Emergency && Decide(Emergency, t, false).accepted <==>
              t == Hovering || t == Landing || t == Connected
  {
  }

  /** A sequence of states each reached from the previous by an accepted unforced transition. */
  ghost predicate UnforcedRun(p: seq<DroneState>)
  {
    forall i :: 0 < i < |p| ==> Decide(p[i - 1], p[i], false).accepted
  }

  /**
   * Without `force`, the vehicle can only become airborne by entering
   * HOVERING from CONNECTED (take-off) or from EMERGENCY (recovery).
   */
  lemma {:induction false} AirborneOnlyThroughHovering(p: seq<DroneState>)
    requires |p| > 0 && UnforcedRun(p)
    requires !Flying(p[0]) && Flying(p[|p| - 1])
    ensures exists i :: 0 < i < |p| && p[i] == Hovering && !Flying(p[i - 1])
                        && (p[i - 1] == Connected || p[i - 1] == Emergency)
  {
    var n := |p| - 1;
    if Flying(p[n - 1]) {
      AirborneOnlyThroughHovering(p[..n]);
      var i :| 0 < i < n && p[..n][i] == Hovering && !Flying(p[..n][i - 1])
               && (p[..n][i - 1] == Connected || p[..n][i - 1] == Emergency);
      assert p[i] == Hovering && p[i - 1] == p[..n][i - 1];
    } else {
      assert Decide(p[n - 1], p[n], false).accepted;
      assert p[n] == Hovering;
    }
  }

  /** An observer, standing for the callable registered with `on_state_change`. */
  type ObserverId = nat

  /** One delivered notification: an observer called with (old state, new state). */
  datatype Call = Call(observer: ObserverId, previous: DroneState, current: DroneState)

  /** The calls made for one change: every observer once, in registration order. */
  function Notifications(observers: seq<ObserverId>, previous: DroneState, current: DroneState): (r: seq<Call>)
    ensures |r| == |observers|
    ensures forall i :: 0 <= i < |r| ==> r[i] == Call(observers[i], previous, current)
  {
    if observers == [] then []
    else Notifications(observers[..|observers| - 1], previous, current) + [Call(observers[|observers| - 1], previous, current)]
  }

  class StateMachine {
    var state: DroneState
    var observers: seq<ObserverId>
    /** Every observer call made so far, oldest first. */
    var delivered: seq<Call>

    constructor(initial: DroneState)
      ensures state == initial && observers == [] && delivered == []
    {
      state := initial;
      observers := [];
      delivered := [];
    }

    /**
     * `transition_to`: accepted exactly as `Decide` says; a real change
     * notifies every observer once, a same-state request notifies nobody.
     * An observer's exception is swallowed, so it cannot alter the outcome.
     */
    method TransitionTo(target: DroneState, force: bool) returns (ok: bool)
      modifies this`state, this`delivered
      ensures Decide(old(state), target, force) == Step(ok, state)
      ensures delivered == old(delivered) +
                (if state != old(state) then Notifications(observers, old(state), state) else [])
    {
      var current := state;
      if current == target {
        return true;
      }
      if target == Emergency {
        state := target;
        NotifyObservers(current, target);
        return true;
      }
      if force || target in ValidTargets(current) {
        state := target;
        NotifyObservers(current, target);
        return true;
      }
      return false;
    }

    method NotifyObservers(previous: DroneState, current: DroneState)
      modifies this`delivered
      ensures delivered == old(delivered) + Notifications(observers, previous, current)
    {
      var i := 0;
      while i < |observers|
        invariant 0 <= i <= |observers|
        invariant delivered == old(delivered) + Notifications(observers[..i], previous, current)
      {
        assert observers[..i + 1][..i] == observers[..i];
        delivered := delivered + [Call(observers[i], previous, current)];
        i := i + 1;
      }
      assert observers[..i] == observers;
    }

    /** `on_state_change`: observers are kept in registration order. */
    method OnStateChange(observer: ObserverId)
      modifies this`observers
      ensures observers == old(observers) + [observer]
    {
      observers := observers + [observer];
    }

    function IsFlying(): (r: bool)
      reads this
      ensures r <==> state in {Hovering, Executing, Searching}
    {
      Flying(state)
    }

    function CanExecute(): (r: bool)
      reads this
      ensures r <==> state in {Hovering, Executing, Searching}
    {
      Flying(state)
    }
  }
}

=== FILE: tailing.dfy ===
/**
 * The tailing controller: follows a found target by turning towards its face.
 * Time is an explicit `now`, the abort flag a boolean, and the background
 * rotation threads are replaced by a log of the rotations queued.
 */
module Tailing {
  import opened Wrappers
  import opened Selection
  import opened FaceRecognition
  import opened DualVerification

  const FrameWidth: real := 960.0
  const FrameCenterX: real := 480.0
  /** Pixels from the centre inside which the drone does not turn. */
  const DeadZone: real := 100.0
  /** Pixels from the centre inside which it turns slowly. */
  const SlowZone: real := 200.0
  const RotationSlow: int := 10
  const RotationFast: int := 20
  /** Seconds that must pass between two queued rotations. */
  const MinRotationInterval: real := 0.5
  /** Seconds without a sighting before the re-acquisition spin. */
  const LostTimeout: real := 3.0
  /** Seconds without a sighting before tailing stops. */
  const GiveUpTimeout: real := 10.0
  /** Distance below which a detected face is taken for the target. */
  const TrackThreshold: real := 0.5

  // ------------------------------------------------------------- rotation

  /** Horizontal offset of the face centre from the frame centre, in pixels. */
  function Offset(b: Box): real
  {
    (b.x + b.width / 2.0) * FrameWidth - FrameCenterX
  }

  function Abs(x: real): real
  {
    if x < 0.0 then -x else x
  }

  /** `_calculate_rotation`: degrees to turn, positive clockwise. */
  function CalculateRotation(b: Box): (r: int)
    ensures r == 0 <==> Abs(Offset(b)) < DeadZone
    ensures r > 0 <==> Offset(b) >= DeadZone
    ensures r < 0 <==> Offset(b) <= -DeadZone
    ensures r == RotationFast || r == -RotationFast <==> Abs(Offset(b)) >= SlowZone
    ensures r == RotationSlow || r == -RotationSlow <==> DeadZone <= Abs(Offset(b)) < SlowZone
  {
    var offset := Offset(b);
    if Abs(offset) < DeadZone then 0
    else
      var rotation := if Abs(offset) < SlowZone then RotationSlow else RotationFast;
      if offset > 0.0 then rotation else -rotation
  }

  /** The box reflected about the vertical centre line of the frame. */
  function Mirror(b: Box): Box
  {
    Box(1.0 - b.x - b.width, b.y, b.width, b.height)
  }

  /** A face mirrored about the centre line asks for the opposite turn. */
  lemma RotationMirror(b: Box)
    ensures CalculateRotation(Mirror(b)) == -CalculateRotation(b)
  {
    assert Offset(Mirror(b)) == -Offset(b);
  }

  /** The farther right the face, the more clockwise the turn. */
  lemma RotationMonotone(b1: Box, b2: Box)
    requires Offset(b1) <= Offset(b2)
    ensures CalculateRotation(b1) <= CalculateRotation(b2)
  {
  }

  // ----------------------------------------------------------- the state

  /** A target as `get_target` hands it over: name and stored face embeddings. */
  datatype Target = Target(name: string, embeddings: seq<Embedding>)

  /** The controller's fields. */
  datatype Tracker = Tracker(
    active: bool,
    targetId: Option<string>,
    targetName: Option<string>,
    target: Option<seq<Embedding>>,
    lastBox: Option<Box>,
    lastSeen: real,
    lastRotationTime: real,
    framesTracked: nat,
    framesLost: nat)

  /** Active exactly when a target with stored faces is set. */
  predicate Consistent(t: Tracker)
  {
    (t.active <==> t.targetId.Some?) && (t.active <==> t.targetName.Some?) && (t.active <==> t.target.Some?)
    && (t.active ==> t.target.value != [])
  }

  /** What `process_frame` returns. */
  datatype Report =
    | Tracking(bbox: Box, confidence: real, rotation: int)
    | GaveUp
    | Searching(lastBox: Option<Box>, timeLost: real)
    | Lost(lastBox: Option<Box>, timeLost: real)

  /** The result of one call: new fields, the returned value, and the rotation queued if any. */
  datatype Outcome = Outcome(tracker: Tracker, report: Option<Report>, queued: Option<int>)

  /** `start`: refused when already active, for an unknown target, or for one without faces. */
  function Started(t: Tracker, id: string, target: Option<Target>, now: real): (r: (Tracker, bool))
  {
    if t.active || target.None? || target.value.embeddings == [] then (t, false)
    else
      (Tracker(true, Some(id), Some(target.value.name), Some(target.value.embeddings), None, now, 0.0, 0, 0), true)
  }

  /** `stop`: clears the target and the last box, keeps the counters and times. */
  function Stopped(t: Tracker): Tracker
  {
    if !t.active then t
    else t.(active := false, targetId := None, targetName := None, target := None, lastBox := None)
  }

  /**
   * The closest detection under the tracking threshold, with its distance:
   * the scan keeps the first strictly smaller distance below 0.5.
   */
  function Closest(detections: seq<FaceDetection>, embeddings: seq<Embedding>, dist: (Embedding, Embedding) -> real)
    : Option<(FaceDetection, real)>
  {
    TrackSummary(FirstMin(Pairs(detections, embeddings), PairDistance(dist)), dist)
  }

  function TrackSummary(p: Option<(FaceDetection, Embedding)>, dist: (Embedding, Embedding) -> real)
    : Option<(FaceDetection, real)>
  {
    if p.Some? && dist(p.value.0.embedding, p.value.1) < TrackThreshold
    then Some((p.value.0, dist(p.value.0.embedding, p.value.1)))
    else None
  }

  /** One frame once the target's closest face (if any) is known. */
  function Processed(t: Tracker, abort: bool, closest: Option<(FaceDetection, real)>, now: real): (o: Outcome)
  {
    if !t.active || t.target.None? then Outcome(t, None, None)
    else if abort then Outcome(Stopped(t), None, None)
    else if closest.Some? then
      var (det, d) := closest.value;
      var rotation := CalculateRotation(det.bbox);
      var turn := rotation != 0 && now - t.lastRotationTime > MinRotationInterval;
      var t' := t.(lastBox := Some(det.bbox), lastSeen := now, framesTracked := t.framesTracked + 1,
                   lastRotationTime := if turn then now else t.lastRotationTime);
      Outcome(t', Some(Tracking(det.bbox, 1.0 - d, rotation)), if turn then Some(rotation) else None)
    else
      var t1 := t.(framesLost := t.framesLost + 1);
      var lost := now - t.lastSeen;
      if lost > GiveUpTimeout then Outcome(Stopped(t1), Some(GaveUp), None)
      else if lost > LostTimeout then
        var turn := now - t.lastRotationTime > MinRotationInterval;
        Outcome(t1.(lastRotationTime := if turn then now else t.lastRotationTime),
                Some(Searching(t.lastBox, lost)), if turn then Some(RotationSlow) else None)
      else Outcome(t1, Some(Lost(t.lastBox, lost)), None)
  }

  // ----------------------------------------------------------- properties

  lemma StartKeepsConsistent(t: Tracker, id: string, target: Option<Target>, now: real)
    requires Consistent(t)
    ensures Consistent(Started(t, id, target, now).0)
    ensures Started(t, id, target, now).1 <==> !t.active && target.Some? && target.value.embeddings != []
    ensures Started(t, id, target, now).1 ==> Started(t, id, target, now).0.lastRotationTime == 0.0
  {
  }

  /** Every frame keeps the fields consistent, and never lowers a counter. */
  lemma ProcessedKeepsConsistent(t: Tracker, abort: bool, closest: Option<(FaceDetection, real)>, now: real)
    requires Consistent(t)
    ensures var t' := Processed(t, abort, closest, now).tracker;
      Consistent(t') && t'.framesTracked >= t.framesTracked && t'.framesLost >= t.framesLost
  {
  }

  /**
   * Of an active controller's frames without abort, a sighting counts as
   * tracked and anything else as lost: exactly one counter moves, by one.
   */
  lemma OneCounterPerFrame(t: Tracker, closest: Option<(FaceDetection, real)>, now: real)
    requires t.active && t.target.Some?
    ensures var t' := Processed(t, false, closest, now).tracker;
      t'.framesTracked + t'.framesLost == t.framesTracked + t.framesLost + 1
      && (t'.framesTracked == t.framesTracked + 1 <==> closest.Some?)
  {
  }

  /** A rotation is queued only after the minimum interval, and it resets the clock. */
  lemma RateLimited(t: Tracker, abort: bool, closest: Option<(FaceDetection, real)>, now: real)
    ensures var o := Processed(t, abort, closest, now);
      o.queued.Some? ==>
        now - t.lastRotationTime > MinRotationInterval && o.tracker.lastRotationTime == now && o.queued.value != 0
  {
  }

  /** Losing the target only ever spins clockwise, slowly, and only after 3 seconds. */
  lemma SearchSpin(t: Tracker, abort: bool, now: real)
    ensures var o := Processed(t, abort, None, now);
      o.queued.Some? ==> o.queued.value == RotationSlow && now - t.lastSeen > LostTimeout
  {
  }

  /** Giving up happens only after 10 seconds without a sighting, and stops tailing. */
  lemma GiveUpAfterTimeout(t: Tracker, abort: bool, closest: Option<(FaceDetection, real)>, now: real)
    requires Processed(t, abort, closest, now).report == Some(GaveUp)
    ensures now - t.lastSeen > GiveUpTimeout && !Processed(t, abort, closest, now).tracker.active
    ensures closest.None? && !abort
  {
  }

  /** Scanning one more (detection, embedding) pair updates the running best as the Python loop does. */
  lemma TrackStep(done: seq<(FaceDetection, Embedding)>, p: (FaceDetection, Embedding), dist: (Embedding, Embedding) -> real)
    ensures var d := dist(p.0.embedding, p.1);
      var best := TrackSummary(FirstMin(done, PairDistance(dist)), dist);
      TrackSummary(FirstMin(done + [p], PairDistance(dist)), dist)
        == if d < TrackThreshold && (best.None? || d < best.value.1) then Some((p.0, d)) else best
  {
    FirstMinSnoc(done, p, PairDistance(dist));
  }

  /** `get_status`. */
  datatype Status = Status(
    active: bool, targetId: Option<string>, targetName: Option<string>, bbox: Option<Box>,
    confidence: real, lastSeen: real, framesTracked: nat, framesLost: nat, rotationQueued: int)

  function StatusOf(t: Tracker): (s: Status)
    ensures s.confidence == (if t.lastBox.Some? then 0.9 else 0.0)
    ensures s.rotationQueued == 0
  {
    Status(t.active, t.targetId, t.targetName, t.lastBox, if t.lastBox.Some? then 0.9 else 0.0,
           t.lastSeen, t.framesTracked, t.framesLost, 0)
  }

  // --------------------------------------------------------- the class

  class TailingController {
    var active: bool
    var targetId: Option<string>
    var targetName: Option<string>
    var target: Option<seq<Embedding>>
    var lastBox: Option<Box>
    var lastSeen: real
    var lastRotationTime: real
    var framesTracked: nat
    var framesLost: nat
    /** Rotations handed to the background thread, oldest first. */
    var queued: seq<int>

    function State(): Tracker
      reads this
    {
      Tracker(active, targetId, targetName, target, lastBox, lastSeen, lastRotationTime, framesTracked, framesLost)
    }

    constructor()
      ensures State() == Tracker(false, None, None, None, None, 0.0, 0.0, 0, 0) && queued == []
      ensures Consistent(State())
    {
      active := false;
      targetId, targetName, target := None, None, None;
      lastBox := None;
      lastSeen, lastRotationTime := 0.0, 0.0;
      framesTracked, framesLost := 0, 0;
      queued := [];
    }

    method Start(id: string, found: Option<Target>, now: real) returns (ok: bool)
      modifies this
      ensures (State(), ok) == Started(old(State()), id, found, now)
      ensures queued == old(queued)
    {
      if active {
        return false;
      }
      if found.None? {
        return false;
      }
      if found.value.embeddings == [] {
        return false;
      }
      targetId := Some(id);
      targetName := Some(found.value.name);
      target := Some(found.value.embeddings);
      active := true;
      lastBox := None;
      lastSeen := now;
      lastRotationTime := 0.0;
      framesTracked := 0;
      framesLost := 0;
      return true;
    }

    method Stop()
      modifies this
      ensures State() == Stopped(old(State())) && queued == old(queued)
    {
      if !active {
        return;
      }
      active := false;
      targetId := None;
      targetName := None;
      target := None;
      lastBox := None;
    }

    /** The nested loop of `process_frame` that looks for the target among the detections. */
    static method FindTarget(detections: seq<FaceDetection>, embeddings: seq<Embedding>, dist: (Embedding, Embedding) -> real)
      returns (m: Option<(FaceDetection, real)>)
      ensures m == Closest(detections, embeddings, dist)
    {
      m := None;
      var i := 0;
      while i < |detections|
        invariant 0 <= i <= |detections|
        invariant m == TrackSummary(FirstMin(Pairs(detections[..i], embeddings), PairDistance(dist)), dist)
      {
        ghost var done := Pairs(detections[..i], embeddings);
        var det := detections[i];
        var j := 0;
        assert done + DetectionRow(det, embeddings[..0]) == done;
        while j < |embeddings|
          invariant 0 <= j <= |embeddings|
          invariant m == TrackSummary(FirstMin(done + DetectionRow(det, embeddings[..j]), PairDistance(dist)), dist)
        {
          var d := dist(det.embedding, embeddings[j]);
          assert DetectionRow(det, embeddings[..j + 1]) == DetectionRow(det, embeddings[..j]) + [(det, embeddings[j])];
          assert done + DetectionRow(det, embeddings[..j + 1]) == (done + DetectionRow(det, embeddings[..j])) + [(det, embeddings[j])];
          TrackStep(done + DetectionRow(det, embeddings[..j]), (det, embeddings[j]), dist);
          if d < TrackThreshold && (m.None? || d < m.value.1) {
            m := Some((det, d));
          }
          j := j + 1;
        }
        assert embeddings[..j] == embeddings;
        PairsSnoc(detections, embeddings, i);
        i := i + 1;
      }
      assert detections[..i] == detections;
    }

    /** `process_frame`, with the detector's output on this frame passed in. */
    method ProcessFrame(abort: bool, detections: seq<FaceDetection>, dist: (Embedding, Embedding) -> real, now: real)
      returns (r: Option<Report>)
      modifies this
      ensures var o := Processed(old(State()), abort, Closest(detections, old(target).UnwrapOr([]), dist), now);
        State() == o.tracker && r == o.report
        && queued == old(queued) + (if o.queued.Some? then [o.queued.value] else [])
    {
      if !active || target.None? {
        return None;
      }
      if abort {
        Stop();
        return None;
      }
      var closest := FindTarget(detections, target.value, dist);
      if closest.Some? {
        var (det, d) := closest.value;
        lastBox := Some(det.bbox);
        lastSeen := now;
        framesTracked := framesTracked + 1;
        var rotation := CalculateRotation(det.bbox);
        if rotation != 0 && now - lastRotationTime > MinRotationInterval {
          queued := queued + [rotation];
          lastRotationTime := now;
        }
        return Some(Tracking(det.bbox, 1.0 - d, rotation));
      }
      framesLost := framesLost + 1;
      var lost := now - lastSeen;
      if lost > GiveUpTimeout {
        Stop();
        return Some(GaveUp);
      } else if lost > LostTimeout {
        if now - lastRotationTime > MinRotationInterval {
          queued := queued + [RotationSlow];
          lastRotationTime := now;
        }
        return Some(Searching(lastBox, lost));
      }
      return Some(Lost(lastBox, lost));
    }

    function GetStatus(): (s: Status)
      reads this
      ensures s == StatusOf(State())
    {
      StatusOf(State())
    }
  }
}

=== FILE: targets.dfy ===
/**
 * The registry of people to find: targets keyed by id (kept in insertion
 * order, as Python dicts are), a case-insensitive name index, the
 * record-to-dictionary conversion used for persistence, and the matching
 * of detected faces against the targets still being searched for.
 */
module Targets {
  import opened Wrappers
  import opened Json
  import opened FaceRecognition
  import opened Selection
  import opened OrderedKeys
  import Text

  datatype Target = Target(
    id: string,
    name: string,
    description: string,
    referencePhotos: seq<string>,
    faceEmbeddings: seq<Embedding>,
    status: string,
    foundEntityId: Option<string>,
    matchedPhotos: seq<string>,
    matchConfidence: real,
    createdAt: string,
    foundAt: Option<string>)

  // ------------------------------------------------------ record <-> dict

  function StringValues(xs: seq<string>): (r: seq<Value>)
    ensures |r| == |xs|
  {
    if xs == [] then [] else [Str(xs[0])] + StringValues(xs[1..])
  }

  function StringsOf(items: seq<Value>): Option<seq<string>>
  {
    if items == [] then Some([])
    else if !items[0].Str? then None
    else match StringsOf(items[1..])
      case None => None
      case Some(rest) => Some([items[0].s] + rest)
  }

  function NumberValues(xs: seq<real>): (r: seq<Value>)
    ensures |r| == |xs|
  {
    if xs == [] then [] else [Num(xs[0])] + NumberValues(xs[1..])
  }

  function NumbersOf(items: seq<Value>): Option<seq<real>>
  {
    if items == [] then Some([])
    else if !items[0].Num? then None
    else match NumbersOf(items[1..])
      case None => None
      case Some(rest) => Some([items[0].n] + rest)
  }

  function EmbeddingValues(es: seq<Embedding>): (r: seq<Value>)
    ensures |r| == |es|
  {
    if es == [] then [] else [Arr(NumberValues(es[0]))] + EmbeddingValues(es[1..])
  }

  function EmbeddingsOf(items: seq<Value>): Option<seq<Embedding>>
  {
    if items == [] then Some([])
    else if !items[0].Arr? then None
    else match (NumbersOf(items[0].items), EmbeddingsOf(items[1..]))
      case (Some(e), Some(rest)) => Some([e] + rest)
      case _ => None
  }

  function OptionalValue(o: Option<string>): Value
  {
    if o.None? then Null else Str(o.value)
  }

  /** A JSON value read as `Optional[str]`; `None` when it is neither null nor a string. */
  function OptionalOf(v: Value): Option<Option<string>>
  {
    match v
    case Null => Some(None)
    case Str(s) => Some(Some(s))
    case _ => None
  }

  lemma {:induction false} StringsRoundTrip(xs: seq<string>)
    ensures StringsOf(StringValues(xs)) == Some(xs)
  {
    if xs != [] {
      StringsRoundTrip(xs[1..]);
      assert StringValues(xs) == [Str(xs[0])] + StringValues(xs[1..]);
      assert [xs[0]] + xs[1..] == xs;
    }
  }

  lemma {:induction false} NumbersRoundTrip(xs: seq<real>)
    ensures NumbersOf(NumberValues(xs)) == Some(xs)
  {
    if xs != [] {
      NumbersRoundTrip(xs[1..]);
      assert NumberValues(xs) == [Num(xs[0])] + NumberValues(xs[1..]);
      assert [xs[0]] + xs[1..] == xs;
    }
  }

  lemma {:induction false} EmbeddingsRoundTrip(es: seq<Embedding>)
    ensures EmbeddingsOf(EmbeddingValues(es)) == Some(es)
  {
    if es != [] {
      EmbeddingsRoundTrip(es[1..]);
      NumbersRoundTrip(es[0]);
      assert EmbeddingValues(es) == [Arr(NumberValues(es[0]))] + EmbeddingValues(es[1..]);
      assert [es[0]] + es[1..] == es;
    }
  }

  /** `to_dict`. */
  function ToDict(t: Target): (d: map<string, Value>)
    ensures d.Keys == {"id", "name", "description", "reference_photos", "face_embeddings", "status",
                       "found_entity_id", "matched_photos", "match_confidence", "created_at", "found_at"}
  {
    map[
      "id" := Str(t.id),
      "name" := Str(t.name),
      "description" := Str(t.description),
      "reference_photos" := Arr(StringValues(t.referencePhotos)),
      "face_embeddings" := Arr(EmbeddingValues(t.faceEmbeddings)),
      "status" := Str(t.status),
      "found_entity_id" := OptionalValue(t.foundEntityId),
      "matched_photos" := Arr(StringValues(t.matchedPhotos)),
      "match_confidence" := Num(t.matchConfidence),
      "created_at" := Str(t.createdAt),
      "found_at" := OptionalValue(t.foundAt)
    ]
  }

  function ListOf(v: Value): Option<seq<string>>
  {
    if v.Arr? then StringsOf(v.items) else None
  }

  function EmbeddingListOf(v: Value): Option<seq<Embedding>>
  {
    if v.Arr? then EmbeddingsOf(v.items) else None
  }

  /**
   * The record built from its field values, as read from a dictionary; a
   * value of the wrong JSON type gives `None`.
   */
  function FromFields(id: Value, name: Value, description: Value, photos: Value, embeddings: Value, status: Value,
                      entity: Value, matched: Value, confidence: Value, created: Value, foundAt: Value): (r: Option<Target>)
    ensures r.Some? ==> id == Str(r.value.id) && name == Str(r.value.name) && description == Str(r.value.description)
    ensures r.Some? ==> status == Str(r.value.status) && confidence == Num(r.value.matchConfidence)
    ensures r.Some? ==> created == Str(r.value.createdAt)
  {
    var ps, es, ms := ListOf(photos), EmbeddingListOf(embeddings), ListOf(matched);
    var en, fa := OptionalOf(entity), OptionalOf(foundAt);
    if id.Str? && name.Str? && description.Str? && ps.Some? && es.Some? && status.Str?
       && en.Some? && ms.Some? && confidence.Num? && created.Str? && fa.Some?
    then Some(Target(id.s, name.s, description.s, ps.value, es.value, status.s,
                     en.value, ms.value, confidence.n, created.s, fa.value))
    else None
  }

  /**
   * `from_dict`: 'id' and 'name' are required, every other field has a
   * default (the creation time defaulting to `now`). A field of the wrong
   * JSON type also gives `None`, since the typed record cannot hold it.
   */
  function FromDict(data: map<string, Value>, now: string): (r: Option<Target>)
    ensures "id" !in data || "name" !in data ==> r.None?
    ensures r.Some? ==> data["id"] == Str(r.value.id) && data["name"] == Str(r.value.name)
    ensures r.Some? && "description" !in data ==> r.value.description == ""
    ensures r.Some? && "status" !in data ==> r.value.status == "searching"
    ensures r.Some? && "match_confidence" !in data ==> r.value.matchConfidence == 0.0
    ensures r.Some? && "created_at" !in data ==> r.value.createdAt == now
  {
    if "id" !in data || "name" !in data then None
    else
      FromFields(data["id"], data["name"], Get(data, "description", Str("")),
                 Get(data, "reference_photos", Arr([])), Get(data, "face_embeddings", Arr([])),
                 Get(data, "status", Str("searching")), Get(data, "found_entity_id", Null),
                 Get(data, "matched_photos", Arr([])), Get(data, "match_confidence", Num(0.0)),
                 Get(data, "created_at", Str(now)), Get(data, "found_at", Null))
  }

  lemma ToDictLookups(t: Target)
    ensures var d := ToDict(t);
            && d["id"] == Str(t.id) && d["name"] == Str(t.name) && d["description"] == Str(t.description)
            && d["reference_photos"] == Arr(StringValues(t.referencePhotos))
            && d["face_embeddings"] == Arr(EmbeddingValues(t.faceEmbeddings))
            && d["status"] == Str(t.status)
            && d["found_entity_id"] == OptionalValue(t.foundEntityId)
            && d["matched_photos"] == Arr(StringValues(t.matchedPhotos))
            && d["match_confidence"] == Num(t.matchConfidence)
            && d["created_at"] == Str(t.createdAt)
            && d["found_at"] == OptionalValue(t.foundAt)
  {
  }

  /** The field values `to_dict` writes read back as the same target. */
  lemma FromFieldsRoundTrip(t: Target)
    ensures FromFields(Str(t.id), Str(t.name), Str(t.description), Arr(StringValues(t.referencePhotos)),
                       Arr(EmbeddingValues(t.faceEmbeddings)), Str(t.status), OptionalValue(t.foundEntityId),
                       Arr(StringValues(t.matchedPhotos)), Num(t.matchConfidence), Str(t.createdAt),
                       OptionalValue(t.foundAt)) == Some(t)
  {
    StringsRoundTrip(t.referencePhotos);
    StringsRoundTrip(t.matchedPhotos);
    EmbeddingsRoundTrip(t.faceEmbeddings);
  }

  /** Reading back what `to_dict` wrote gives the same target. */
  lemma FromDictToDict(t: Target, now: string)
    ensures FromDict(ToDict(t), now) == Some(t)
  {
    ToDictLookups(t);
    FromFieldsRoundTrip(t);
  }

  /** A record with only 'id' and 'name' gets every documented default. */
  lemma FromDictDefaults(id: string, name: string, now: string)
    ensures FromDict(map["id" := Str(id), "name" := Str(name)], now)
            == Some(Target(id, name, "", [], [], "searching", None, [], 0.0, now, None))
  {
  }

  // ---------------------------------------------------------------- store

  /** The manager's three dictionaries; `order` is the insertion order of `targets`' keys. */
  datatype Store = Store(targets: map<string, Target>, order: seq<string>, nameIndex: map<string, string>)

  /** `order` lists every key of `targets` exactly once. */
  predicate Valid(s: Store)
  {
    KeysInOrder(s.targets, s.order)
  }

  const EmptyStore: Store := Store(map[], [], map[])

  /** `add_target`: a fresh searching record; the lowercase name now points to it. */
  function NewTarget(id: string, name: string, description: string, photos: seq<string>,
                     embeddings: seq<Embedding>, now: string): (t: Target)
    ensures t.status == "searching" && t.matchConfidence == 0.0 && t.matchedPhotos == []
    ensures t.foundEntityId == None && t.foundAt == None
  {
    Target(id, name, description, photos, embeddings, "searching", None, [], 0.0, now, None)
  }

  function Added(s: Store, t: Target): (r: Store)
    ensures r.targets == s.targets[t.id := t]
    ensures r.nameIndex == s.nameIndex[Text.Lower(t.name) := t.id]
  {
    Store(s.targets[t.id := t],
          if t.id in s.targets then s.order else s.order + [t.id],
          s.nameIndex[Text.Lower(t.name) := t.id])
  }

  lemma AddedValid(s: Store, t: Target)
    requires Valid(s)
    ensures Valid(Added(s, t))
  {
  }

  /**
   * `get_target_by_name`: the exact, case-insensitive index lookup first;
   * then, when enabled and the registry is non-empty, the name the language
   * model proposed (`fuzzy`), looked up the same way.
   */
  function IndexLookup(s: Store, name: string): Option<Target>
  {
    var key := Text.Lower(name);
    if key in s.nameIndex && s.nameIndex[key] != [] && s.nameIndex[key] in s.targets
    then Some(s.targets[s.nameIndex[key]])
    else None
  }

  function Lookup(s: Store, name: string, useFuzzy: bool, fuzzy: Option<string>): (r: Option<Target>)
    ensures IndexLookup(s, name).Some? ==> r == IndexLookup(s, name)
    ensures r.Some? ==> r.value in s.targets.Values
  {
    var key := Text.Lower(name);
    if key in s.nameIndex && s.nameIndex[key] != [] then
      (if s.nameIndex[key] in s.targets then Some(s.targets[s.nameIndex[key]]) else None)
    else if useFuzzy && s.targets != map[] && fuzzy.Some? then IndexLookup(s, fuzzy.value)
    else None
  }

  /** Once added under a non-empty id, a target is found under any spelling with the same lowercase form. */
  lemma LookupAfterAdd(s: Store, t: Target, query: string, useFuzzy: bool, fuzzy: Option<string>)
    requires t.id != []
    requires Text.Lower(query) == Text.Lower(t.name)
    ensures Lookup(Added(s, t), query, useFuzzy, fuzzy) == Some(t)
  {
  }

  /** `update_target`'s `setattr` loop, for the string-valued attributes a caller can pass. */
  function Apply(t: Target, kwargs: map<string, string>): Target
  {
    t.(id := if "id" in kwargs then kwargs["id"] else t.id,
       name := if "name" in kwargs then kwargs["name"] else t.name,
       description := if "description" in kwargs then kwargs["description"] else t.description,
       status := if "status" in kwargs then kwargs["status"] else t.status,
       createdAt := if "created_at" in kwargs then kwargs["created_at"] else t.createdAt,
       foundEntityId := if "found_entity_id" in kwargs then Some(kwargs["found_entity_id"]) else t.foundEntityId,
       foundAt := if "found_at" in kwargs then Some(kwargs["found_at"]) else t.foundAt)
  }

  /** Only the named attributes change: photos, embeddings and confidence are kept, a name or status given is taken. */
  lemma ApplySets(t: Target, kwargs: map<string, string>)
    ensures var r := Apply(t, kwargs);
            && r.referencePhotos == t.referencePhotos && r.faceEmbeddings == t.faceEmbeddings
            && r.matchedPhotos == t.matchedPhotos && r.matchConfidence == t.matchConfidence
            && r.name == (if "name" in kwargs then kwargs["name"] else t.name)
            && r.status == (if "status" in kwargs then kwargs["status"] else t.status)
  {
  }

  /** Keyword arguments that name none of the attributes leave the target as it was. */
  lemma ApplyNothing(t: Target, kwargs: map<string, string>)
    requires kwargs.Keys !! {"id", "name", "description", "status", "created_at", "found_entity_id", "found_at"}
    ensures Apply(t, kwargs) == t
  {
  }

  /**
   * `update_target`: unknown id gives `None` and no change. A changed name
   * first deletes the old lowercase index entry, which raises `KeyError`
   * when that entry is gone, and then points the new lowercase name at the id.
   */
  function Updated(s: Store, id: string, kwargs: map<string, string>): (r: Result<(Store, Option<Target>), string>)
    ensures id !in s.targets ==> r == Ok((s, None))
    ensures r.Err? <==> id in s.targets && "name" in kwargs && kwargs["name"] != s.targets[id].name
                        && Text.Lower(s.targets[id].name) !in s.nameIndex
    ensures r.Ok? && id in s.targets ==> r.value.1 == Some(Apply(s.targets[id], kwargs))
                                         && r.value.0.targets == s.targets[id := Apply(s.targets[id], kwargs)]
                                         && r.value.0.order == s.order
    ensures r.Ok? && id in s.targets && !("name" in kwargs && kwargs["name"] != s.targets[id].name) ==>
              r.value.0.nameIndex == s.nameIndex
    ensures r.Ok? && id in s.targets && "name" in kwargs && kwargs["name"] != s.targets[id].name ==>
              && Text.Lower(kwargs["name"]) in r.value.0.nameIndex && r.value.0.nameIndex[Text.Lower(kwargs["name"])] == id
              && (forall k | k in s.nameIndex && k != Text.Lower(s.targets[id].name) && k != Text.Lower(kwargs["name"]) ::
                    k in r.value.0.nameIndex && r.value.0.nameIndex[k] == s.nameIndex[k])
              && (forall k | k in r.value.0.nameIndex && k != Text.Lower(kwargs["name"]) :: k in s.nameIndex)
  {
    if id !in s.targets then Ok((s, None))
    else
      var t := s.targets[id];
      var renamed := "name" in kwargs && kwargs["name"] != t.name;
      if renamed && Text.Lower(t.name) !in s.nameIndex then Err("KeyError")
      else
        var index := if renamed then (s.nameIndex - {Text.Lower(t.name)})[Text.Lower(kwargs["name"]) := id]
                     else s.nameIndex;
        var t' := Apply(t, kwargs);
        Ok((Store(s.targets[id := t'], s.order, index), Some(t')))
  }

  /** After a rename the new spelling finds the target, and the old lowercase key is gone unless it is the new one. */
  lemma RenameMovesIndex(s: Store, id: string, kwargs: map<string, string>)
    requires Updated(s, id, kwargs).Ok?
    requires id in s.targets && "name" in kwargs && kwargs["name"] != s.targets[id].name
    requires id != []
    ensures var s' := Updated(s, id, kwargs).value.0;
            && IndexLookup(s', kwargs["name"]) == Some(Apply(s.targets[id], kwargs))
            && (Text.Lower(s.targets[id].name) != Text.Lower(kwargs["name"]) ==>
                  Text.Lower(s.targets[id].name) !in s'.nameIndex)
  {
  }

  lemma UpdatedValid(s: Store, id: string, kwargs: map<string, string>)
    requires Valid(s) && Updated(s, id, kwargs).Ok?
    ensures Valid(Updated(s, id, kwargs).value.0)
  {
  }

  /**
   * `delete_target`: unknown id gives false and no change; otherwise the id
   * leaves the map and the lowercase name leaves the index, even when that
   * entry points at another target.
   */
  function Deleted(s: Store, id: string): (r: (Store, bool))
    ensures r.1 <==> id in s.targets
    ensures !r.1 ==> r.0 == s
    ensures r.1 ==> id !in r.0.targets && Text.Lower(s.targets[id].name) !in r.0.nameIndex
    ensures r.1 ==> forall k | k != id :: (k in r.0.targets <==> k in s.targets)
    ensures r.1 ==> forall k | k in r.0.targets :: r.0.targets[k] == s.targets[k]
    ensures r.1 ==> forall k | k in s.nameIndex && k != Text.Lower(s.targets[id].name) ::
                      k in r.0.nameIndex && r.0.nameIndex[k] == s.nameIndex[k]
    ensures r.1 ==> r.0.nameIndex.Keys <= s.nameIndex.Keys
    ensures r.1 ==> r.0.order == Without(s.order, id)
  {
    if id !in s.targets then (s, false)
    else
      var key := Text.Lower(s.targets[id].name);
      (Store(s.targets - {id}, Without(s.order, id),
             if key in s.nameIndex then s.nameIndex - {key} else s.nameIndex), true)
  }

  lemma DeletedValid(s: Store, id: string)
    requires Valid(s)
    ensures Valid(Deleted(s, id).0)
  {
    WithoutDistinct(s.order, id);
  }

  function Max(a: real, b: real): real
  {
    if a >= b then a else b
  }

  /**
   * `mark_found`: status 'found', the entity link, the time found, the
   * larger of the old and new confidence, and the saved frame's path if one
   * was written.
   */
  function MarkedFound(s: Store, id: string, entityId: Option<string>, photo: Option<string>,
                       confidence: real, now: string): (r: (Store, Option<Target>))
    ensures id !in s.targets ==> r == (s, None)
    ensures id in s.targets ==>
              && r.1.Some?
              && r.0.targets == s.targets[id := r.1.value]
              && r.0.order == s.order && r.0.nameIndex == s.nameIndex
              && r.1.value.status == "found"
              && r.1.value.foundEntityId == entityId
              && r.1.value.foundAt == Some(now)
              && r.1.value.matchConfidence >= confidence
              && r.1.value.matchConfidence >= s.targets[id].matchConfidence
              && (r.1.value.matchConfidence == confidence || r.1.value.matchConfidence == s.targets[id].matchConfidence)
              && r.1.value.faceEmbeddings == s.targets[id].faceEmbeddings
              && r.1.value.matchedPhotos == s.targets[id].matchedPhotos + (if photo.Some? then [photo.value] else [])
              && r.1.value.(status := s.targets[id].status, foundEntityId := s.targets[id].foundEntityId,
                            foundAt := s.targets[id].foundAt, matchConfidence := s.targets[id].matchConfidence,
                            matchedPhotos := s.targets[id].matchedPhotos) == s.targets[id]
  {
    if id !in s.targets then (s, None)
    else
      var t := s.targets[id];
      var t' := t.(status := "found", foundEntityId := entityId, foundAt := Some(now),
                   matchConfidence := Max(t.matchConfidence, confidence),
                   matchedPhotos := if photo.Some? then t.matchedPhotos + [photo.value] else t.matchedPhotos);
      (Store(s.targets[id := t'], s.order, s.nameIndex), Some(t'))
  }

  // --------------------------------------------------------------- counts

  /** How many of the listed ids name a target whose status is in `statuses`. */
  function CountStatus(targets: map<string, Target>, ids: seq<string>, statuses: set<string>): (n: nat)
    ensures n <= |ids|
  {
    if ids == [] then 0
    else (if ids[0] in targets && targets[ids[0]].status in statuses then 1 else 0)
         + CountStatus(targets, ids[1..], statuses)
  }

  function FoundCount(s: Store): nat
  {
    CountStatus(s.targets, s.order, {"found", "confirmed"})
  }

  function SearchingCount(s: Store): nat
  {
    CountStatus(s.targets, s.order, {"searching"})
  }

  lemma {:induction false} CountDisjoint(targets: map<string, Target>, ids: seq<string>, a: set<string>, b: set<string>)
    requires a !! b
    ensures CountStatus(targets, ids, a) + CountStatus(targets, ids, b) <= |ids|
  {
    if ids != [] {
      CountDisjoint(targets, ids[1..], a, b);
    }
  }

  /** `total_count` is the number of targets, and no target is counted both found and searching. */
  lemma CountsBounded(s: Store)
    requires Valid(s)
    ensures |s.targets| == |s.order|
    ensures FoundCount(s) + SearchingCount(s) <= |s.targets|
  {
    SizeIsOrderLength(s.targets, s.order);
    CountDisjoint(s.targets, s.order, {"found", "confirmed"}, {"searching"});
  }

  // ------------------------------------------------------------- matching

  /** `(t.id, t.face_embeddings)` for the targets with embeddings still being searched for, in insertion order. */
  function SearchRows(targets: map<string, Target>, ids: seq<string>): (r: TargetEmbeddings)
    ensures |r| <= |ids|
  {
    if ids == [] then []
    else
      var rest := SearchRows(targets, ids[1..]);
      if ids[0] in targets && targets[ids[0]].faceEmbeddings != [] && targets[ids[0]].status == "searching"
      then [(targets[ids[0]].id, targets[ids[0]].faceEmbeddings)] + rest
      else rest
  }

  function RowIds(rows: TargetEmbeddings): set<string>
  {
    set i | 0 <= i < |rows| :: rows[i].0
  }

  lemma {:induction false} CandidateIds(rows: TargetEmbeddings, c: (string, Embedding))
    requires c in Candidates(rows)
    ensures c.0 in RowIds(rows)
  {
    if rows != [] {
      var n := |rows| - 1;
      CandidatesSnoc(rows, n);
      assert rows[..n + 1] == rows;
      if c in Candidates(rows[..n]) {
        CandidateIds(rows[..n], c);
        var i :| 0 <= i < n && rows[..n][i].0 == c.0;
        assert rows[i].0 == c.0;
      } else {
        RowMembers(rows[n].0, rows[n].1, c);
      }
    }
  }

  lemma {:induction false} RowMembers(id: string, embs: seq<Embedding>, c: (string, Embedding))
    requires c in Row(id, embs)
    ensures c.0 == id
  {
    if embs != [] {
      var n := |embs| - 1;
      RowSnoc(id, embs, n);
      assert embs[..n + 1] == embs;
      if c in Row(id, embs[..n]) {
        RowMembers(id, embs[..n], c);
      }
    }
  }

  /** Targets whose key is their own id, as every target added through the manager is. */
  predicate KeysMatchIds(targets: map<string, Target>)
  {
    forall k | k in targets :: targets[k].id == k
  }

  lemma {:induction false} SearchRowsQualify(targets: map<string, Target>, ids: seq<string>, tid: string)
    requires KeysMatchIds(targets)
    requires tid in RowIds(SearchRows(targets, ids))
    ensures tid in targets && targets[tid].status == "searching" && targets[tid].faceEmbeddings != []
  {
    if ids != [] {
      var rest := SearchRows(targets, ids[1..]);
      var rows := SearchRows(targets, ids);
      var i :| 0 <= i < |rows| && rows[i].0 == tid;
      if ids[0] in targets && targets[ids[0]].faceEmbeddings != [] && targets[ids[0]].status == "searching" {
        if i > 0 {
          assert rest[i - 1].0 == tid;
          SearchRowsQualify(targets, ids[1..], tid);
        }
      } else {
        SearchRowsQualify(targets, ids[1..], tid);
      }
    }
  }

  datatype TargetMatch = TargetMatch(target: Target, confidence: real, bbox: Box)

  /** What `match_frame` appends for one detection. */
  function MatchOne(targets: map<string, Target>, rows: TargetEmbeddings, d: FaceDetection,
                    dist: (Embedding, Embedding) -> real): seq<TargetMatch>
  {
    match BestMatch(d.embedding, rows, dist)
    case None => []
    case Some(m) => if m.0 in targets then [TargetMatch(targets[m.0], m.1, d.bbox)] else []
  }

  function Matches(targets: map<string, Target>, rows: TargetEmbeddings, ds: seq<FaceDetection>,
                   dist: (Embedding, Embedding) -> real): seq<TargetMatch>
  {
    if ds == [] then []
    else Matches(targets, rows, ds[..|ds| - 1], dist) + MatchOne(targets, rows, ds[|ds| - 1], dist)
  }

  /**
   * Every match `match_frame` reports names a target with face data that is
   * still being searched for, with a confidence of at least 0.5.
   */
  lemma {:induction false} MatchesSound(s: Store, ds: seq<FaceDetection>, dist: (Embedding, Embedding) -> real, m: TargetMatch)
    requires KeysMatchIds(s.targets)
    requires m in Matches(s.targets, SearchRows(s.targets, s.order), ds, dist)
    ensures m.target in s.targets.Values
    ensures m.target.status == "searching" && m.target.faceEmbeddings != []
    ensures m.confidence >= MinConfidence
  {
    var rows := SearchRows(s.targets, s.order);
    var n := |ds| - 1;
    if m in Matches(s.targets, rows, ds[..n], dist) {
      MatchesSound(s, ds[..n], dist, m);
    } else {
      var d := ds[n];
      var b := BestMatch(d.embedding, rows, dist);
      var id := b.value.0;
      var conf := b.value.1;
      BestMatchSound(d.embedding, rows, dist, id, conf);
      var k :| IsFirstMin(Candidates(rows), DistanceFrom(d.embedding, dist), k) && Candidates(rows)[k].0 == id
               && conf == MatchConfidence(dist(d.embedding, Candidates(rows)[k].1));
      CandidateIds(rows, Candidates(rows)[k]);
      SearchRowsQualify(s.targets, s.order, id);
    }
  }

  class TargetManager {
    var targets: map<string, Target>
    var order: seq<string>
    var nameIndex: map<string, string>

    function Snapshot(): Store
      reads this
    {
      Store(targets, order, nameIndex)
    }

    constructor()
      ensures Snapshot() == EmptyStore
    {
      targets := map[];
      order := [];
      nameIndex := map[];
    }

    /**
     * `add_target`; `id` stands for the generated `target_<8 hex digits>`
     * and `photos`/`embeddings` for what the photo copying and face
     * extraction produced.
     */
    method AddTarget(id: string, name: string, description: string, photos: seq<string>,
                     embeddings: seq<Embedding>, now: string) returns (t: Target)
      modifies this
      ensures t == NewTarget(id, name, description, photos, embeddings, now)
      ensures Snapshot() == Added(old(Snapshot()), t)
    {
      t := NewTarget(id, name, description, photos, embeddings, now);
      if id !in targets {
        order := order + [id];
      }
      targets := targets[id := t];
      nameIndex := nameIndex[Text.Lower(name) := id];
    }

    function GetTarget(id: string): (r: Option<Target>)
      reads this
      ensures r.Some? <==> id in targets
      ensures r.Some? ==> r.value == targets[id]
    {
      if id in targets then Some(targets[id]) else None
    }

    function GetTargetByName(name: string, useFuzzy: bool, fuzzy: Option<string>): (r: Option<Target>)
      reads this
      ensures r == Lookup(Snapshot(), name, useFuzzy, fuzzy)
    {
      Lookup(Snapshot(), name, useFuzzy, fuzzy)
    }

    method UpdateTarget(id: string, kwargs: map<string, string>) returns (r: Result<Option<Target>, string>)
      modifies this
      ensures match Updated(old(Snapshot()), id, kwargs)
              case Ok(v) => r == Ok(v.1) && Snapshot() == v.0
              case Err(e) => r == Err(e) && Snapshot() == old(Snapshot())
    {
      if id !in targets {
        return Ok(None);
      }
      var t := targets[id];
      if "name" in kwargs && kwargs["name"] != t.name {
        if Text.Lower(t.name) !in nameIndex {
          return Err("KeyError");
        }
        nameIndex := nameIndex - {Text.Lower(t.name)};
        nameIndex := nameIndex[Text.Lower(kwargs["name"]) := id];
      }
      var t' := Apply(t, kwargs);
      targets := targets[id := t'];
      r := Ok(Some(t'));
    }

    method DeleteTarget(id: string) returns (deleted: bool)
      modifies this
      ensures (Snapshot(), deleted) == Deleted(old(Snapshot()), id)
    {
      if id !in targets {
        return false;
      }
      var key := Text.Lower(targets[id].name);
      targets := targets - {id};
      order := Without(order, id);
      if key in nameIndex {
        nameIndex := nameIndex - {key};
      }
      deleted := true;
    }

    method MarkFound(id: string, entityId: Option<string>, photo: Option<string>, confidence: real, now: string)
      returns (r: Option<Target>)
      modifies this
      ensures (Snapshot(), r) == MarkedFound(old(Snapshot()), id, entityId, photo, confidence, now)
    {
      if id !in targets {
        return None;
      }
      var t := targets[id];
      var t' := t.(status := "found", foundEntityId := entityId, foundAt := Some(now),
                   matchConfidence := Max(t.matchConfidence, confidence),
                   matchedPhotos := if photo.Some? then t.matchedPhotos + [photo.value] else t.matchedPhotos);
      targets := targets[id := t'];
      r := Some(t');
    }

    /**
     * `match_frame`: nothing when the face library is unavailable or no
     * target qualifies; otherwise each detection (from `extract_all_faces`)
     * is matched against the qualifying targets, in detection order.
     */
    method MatchFrame(available: bool, detections: seq<FaceDetection>, dist: (Embedding, Embedding) -> real)
      returns (matches: seq<TargetMatch>)
      ensures !available || SearchRows(targets, order) == [] ==> matches == []
      ensures available ==> matches == Matches(targets, SearchRows(targets, order), detections, dist)
    {
      if !available {
        return [];
      }
      var rows := SearchRows(targets, order);
      if rows == [] {
        assert forall i | 0 <= i <= |detections| :: Matches(targets, rows, detections[..i], dist) == [] by {
          forall i | 0 <= i <= |detections| ensures Matches(targets, rows, detections[..i], dist) == [] {
            NoRowsNoMatches(targets, detections[..i], dist);
          }
        }
        assert detections[..|detections|] == detections;
        return [];
      }
      matches := [];
      var i := 0;
      while i < |detections|
        invariant 0 <= i <= |detections|
        invariant matches == Matches(targets, rows, detections[..i], dist)
      {
        assert detections[..i + 1][..i] == detections[..i];
        var found := FindBestMatch(detections[i].embedding, rows, dist);
        if found.Some? && found.value.0 in targets {
          matches := matches + [TargetMatch(targets[found.value.0], found.value.1, detections[i].bbox)];
        }
        i := i + 1;
      }
      assert detections[..i] == detections;
    }

    /** `total_count`; `found_count` and `searching_count` are `FoundCount` and `SearchingCount` of the snapshot. */
    function TotalCount(): nat
      reads this
    {
      |targets|
    }
  }

  lemma {:induction false} NoRowsNoMatches(targets: map<string, Target>, ds: seq<FaceDetection>, dist: (Embedding, Embedding) -> real)
    ensures Matches(targets, [], ds, dist) == []
  {
    if ds != [] {
      NoRowsNoMatches(targets, ds[..|ds| - 1], dist);
    }
  }
}

=== FILE: text.dfy ===
/**
 * String helpers with the Python semantics the model relies on:
 * ASCII case mapping, substring search, `str(int)`, `str.split` / `str.join`
 * on a single separator character, and `str.strip()` on the characters
 * for which `str.isspace()` holds.
 */
module Text {

  // ---------------------------------------------------------------- case

  function LowerChar(c: char): char
  {
    if 'A' <= c <= 'Z' then (c as int + 32) as char else c
  }

  function UpperChar(c: char): char
  {
    if 'a' <= c <= 'z' then (c as int - 32) as char else c
  }

  /** `str.lower()` restricted to ASCII letters. */
  function Lower(s: string): (r: string)
    ensures |r| == |s|
    ensures forall i :: 0 <= i < |s| ==> r[i] == LowerChar(s[i])
  {
    if s == [] then [] else [LowerChar(s[0])] + Lower(s[1..])
  }

  /** `str.upper()` restricted to ASCII letters. */
  function Upper(s: string): (r: string)
    ensures |r| == |s|
    ensures forall i :: 0 <= i < |s| ==> r[i] == UpperChar(s[i])
  {
    if s == [] then [] else [UpperChar(s[0])] + Upper(s[1..])
  }

  lemma LowerIdempotent(s: string)
    ensures Lower(Lower(s)) == Lower(s)
  {
  }

  // ----------------------------------------------------------- substrings

  /** Python's `sub in s`. */
  predicate Contains(s: string, sub: string)
  {
    exists i :: 0 <= i <= |s| - |sub| && sub <= s[i..]
  }

  /** Python's `s.startswith(p)`. */
  predicate StartsWith(s: string, p: string)
  {
    p <= s
  }

  // -------------------------------------------------------------- numbers

  function DigitChar(d: nat): char
    requires d < 10
  {
    "0123456789"[d]
  }

  predicate IsDigit(c: char)
  {
    '0' <= c <= '9'
  }

  function DigitValue(c: char): (d: nat)
    requires IsDigit(c)
    ensures d < 10 && DigitChar(d) == c
  {
    c as int - '0' as int
  }

  /** `str(n)` for a non-negative integer: decimal digits, no leading zero. */
  function NatToString(n: nat): (r: string)
    ensures |r| > 0
    ensures forall i :: 0 <= i < |r| ==> IsDigit(r[i])
    ensures r[0] == '0' ==> n == 0
  {
    if n < 10 then [DigitChar(n)] else NatToString(n / 10) + [DigitChar(n % 10)]
  }

  /** `str(n)` for any integer. */
  function IntToString(n: int): (r: string)
    ensures |r| > 0
    ensures n < 0 <==> r[0] == '-'
  {
    if n < 0 then "-" + NatToString(-n) else NatToString(n)
  }

  /** Reads back a string of decimal digits (the inverse of `NatToString`). */
  function ParseDigits(s: string): nat
    requires forall i :: 0 <= i < |s| ==> IsDigit(s[i])
  {
    if s == [] then 0 else 10 * ParseDigits(s[..|s| - 1]) + DigitValue(s[|s| - 1])
  }

  lemma {:induction false} ParseNatToString(n: nat)
    ensures ParseDigits(NatToString(n)) == n
  {
    if n >= 10 {
      var r := NatToString(n);
      assert r[..|r| - 1] == NatToString(n / 10);
      ParseNatToString(n / 10);
    }
  }

  /** Different numbers print differently, so printed counters are distinct ids. */
  lemma NatToStringInjective(m: nat, n: nat)
    requires m != n
    ensures NatToString(m) != NatToString(n)
  {
    ParseNatToString(m);
    ParseNatToString(n);
  }

  // -------------------------------------------------------- split / join

  /** Python's `sep.join(parts)`. */
  function Join(parts: seq<string>, sep: string): string
  {
    if |parts| == 0 then ""
    else if |parts| == 1 then parts[0]
    else parts[0] + sep + Join(parts[1..], sep)
  }

  /**
   * Python's `s.split(c)` for a one-character separator, read from the left:
   * a separator opens a new, empty piece, any other character extends the first one.
   */
  function Split(s: string, c: char): (r: seq<string>)
    ensures |r| > 0
  {
    if s == [] then [""]
    else
      var rest := Split(s[1..], c);
      if s[0] == c then [""] + rest else [[s[0]] + rest[0]] + rest[1..]
  }

  /** Text without the separator is one piece. */
  lemma {:induction false} SplitNoSeparator(s: string, c: char)
    requires forall i :: 0 <= i < |s| ==> s[i] != c
    ensures Split(s, c) == [s]
  {
    if s != [] {
      SplitNoSeparator(s[1..], c);
      assert [s[0]] + s[1..] == s;
    }
  }

  lemma JoinCons(a: char, r: seq<string>, sep: string)
    requires |r| > 0
    ensures Join([[a] + r[0]] + r[1..], sep) == [a] + Join(r, sep)
  {
    var t := [[a] + r[0]] + r[1..];
    assert t[1..] == r[1..];
  }

  /** Splitting on `c` and joining back with `c` gives the original text. */
  lemma {:induction false} JoinSplit(s: string, c: char)
    ensures Join(Split(s, c), [c]) == s
  {
    if s != [] {
      var rest := Split(s[1..], c);
      JoinSplit(s[1..], c);
      if s[0] == c {
        assert ([""] + rest)[1..] == rest;
      } else {
        JoinCons(s[0], rest, [c]);
      }
      assert s == [s[0]] + s[1..];
    }
  }

  /** One step of `Split`: the first character either opens a new piece or extends the first one. */
  lemma SplitCons(h: char, t: string, c: char)
    ensures Split([h] + t, c) == if h == c then [""] + Split(t, c) else [[h] + Split(t, c)[0]] + Split(t, c)[1..]
  {
    assert ([h] + t)[0] == h && ([h] + t)[1..] == t;
  }

  /** The step of `Split` over text whose pieces are known to be `a + b`. */
  lemma SplitConsAppend(h: char, t: string, a: seq<string>, b: seq<string>, c: char)
    requires |a| > 0 && Split(t, c) == a + b
    ensures Split([h] + t, c) == (if h == c then [""] + a else [[h] + a[0]] + a[1..]) + b
  {
    SplitCons(h, t, c);
    if h != c {
      assert (a + b)[0] == a[0];
      assert (a + b)[1..] == a[1..] + b;
    }
  }

  /** Splitting at a separator splits the two sides independently. */
  lemma {:induction false} SplitConcat(x: string, y: string, c: char)
    ensures Split(x + [c] + y, c) == Split(x, c) + Split(y, c)
  {
    if x == [] {
      assert x + [c] + y == [c] + y;
      SplitCons(c, y, c);
      assert Split(x, c) == [""];
    } else {
      var h, rest := x[0], x[1..];
      SplitConcat(rest, y, c);
      assert x + [c] + y == [h] + (rest + [c] + y);
      assert x == [h] + rest;
      SplitConsAppend(h, rest + [c] + y, Split(rest, c), Split(y, c), c);
      SplitCons(h, rest, c);
    }
  }

  // --------------------------------------------------------------- strip

  /**
   * The characters Python's `str.strip()` removes, those for which
   * `str.isspace()` holds: the ASCII controls tab to carriage return and
   * 0x1C to 0x1F, the space, NEL, no-break space, and the Unicode spaces and
   * line and paragraph separators.
   */
  predicate IsSpace(c: char)
  {
    || c == ' ' || '\t' <= c <= '\r' || '\U{1C}' <= c <= '\U{1F}'
    || c == '\U{85}' || c == '\U{A0}' || c == '\U{1680}' || '\U{2000}' <= c <= '\U{200A}'
    || c == '\U{2028}' || c == '\U{2029}' || c == '\U{202F}' || c == '\U{205F}' || c == '\U{3000}'
  }

  function StripLeft(s: string): (r: string)
    ensures |r| <= |s| && r == s[|s| - |r|..]
    ensures r != [] ==> !IsSpace(r[0])
    ensures forall i :: 0 <= i < |s| - |r| ==> IsSpace(s[i])
  {
    if s != [] && IsSpace(s[0]) then StripLeft(s[1..]) else s
  }

  function StripRight(s: string): (r: string)
    ensures |r| <= |s| && r == s[..|r|]
    ensures r != [] ==> !IsSpace(r[|r| - 1])
    ensures forall i :: |r| <= i < |s| ==> IsSpace(s[i])
  {
    if s != [] && IsSpace(s[|s| - 1]) then StripRight(s[..|s| - 1]) else s
  }

  /** Python's `s.strip()`. */
  function Strip(s: string): (r: string)
  {
    StripRight(StripLeft(s))
  }

  /** The stripped text neither starts nor ends with whitespace. */
  lemma StripEnds(s: string)
    ensures var r := Strip(s); r != [] ==> !IsSpace(r[0]) && !IsSpace(r[|r| - 1])
  {
    var l := StripLeft(s);
    var r := StripRight(l);
    if r != [] {
      assert r == l[..|r|];
      assert r[0] == l[0];
    }
  }

  /** The stripped text is the slice of the original after the leading whitespace. */
  lemma StripSlice(s: string)
    ensures var r, a := Strip(s), |s| - |StripLeft(s)|;
      0 <= a <= |s| - |r| && r == s[a..a + |r|]
  {
    var l := StripLeft(s);
    var r := StripRight(l);
    InnerSlice(s, l, r, s[..|s| - |l|], l[|r|..]);
  }

  /**
   * The stripped text is a slice of the original with no whitespace at
   * either end, and only whitespace was removed around it.
   */
  lemma StripSpec(s: string)
    ensures var r, a := Strip(s), |s| - |StripLeft(s)|;
      (r != [] ==> !IsSpace(r[0]) && !IsSpace(r[|r| - 1]))
      && 0 <= a <= |s| - |r| && r == s[a..a + |r|]
      && (forall i :: 0 <= i < a ==> IsSpace(s[i]))
      && (forall i :: a + |r| <= i < |s| ==> IsSpace(s[i]))
  {
    StripEnds(s);
    StripSlice(s);
    var l := StripLeft(s);
    var a := |s| - |l|;
    assert l == s[a..];
    forall i | a + |Strip(s)| <= i < |s|
      ensures IsSpace(s[i])
    {
      assert s[i] == l[i - a];
    }
  }

  /** A prefix `r` of a suffix `l` of `s` is the slice of `s` that starts where `l` does. */
  lemma InnerSlice(s: string, l: string, r: string, front: string, back: string)
    requires |l| <= |s| && l == s[|s| - |l|..] && |r| <= |l| && r == l[..|r|]
    requires front == s[..|s| - |l|] && back == l[|r|..]
    ensures s == front + r + back
    ensures r == s[|front|..|front| + |r|]
    ensures forall i :: |front| + |r| <= i < |s| ==> s[i] == back[i - |front| - |r|]
  {
    assert l == r + back;
    assert s == front + l;
  }

  lemma StripIdempotent(s: string)
    ensures Strip(Strip(s)) == Strip(s)
  {
    var r := Strip(s);
    StripSpec(s);
    assert StripLeft(r) == r;
  }
}

=== FILE: tool_base.dfy ===
/**
 * What every tool shares: the result record it returns, the checks made
 * when a tool is constructed, and its function-calling schema.
 */
module ToolBase {
  import opened Wrappers
  import opened Json

  /** `ToolResult`; `data` is `None` (here `Null`) unless given. */
  datatype ToolResult = ToolResult(success: bool, message: string, data: Value)

  function Failure(message: string, data: Value): (r: ToolResult)
    ensures !r.success && r.message == message && r.data == data
  {
    ToolResult(false, message, data)
  }

  function Success(message: string, data: Value): (r: ToolResult)
    ensures r.success && r.message == message && r.data == data
  {
    ToolResult(true, message, data)
  }

  /** `ToolResult(success, message)` with the data left at its default. */
  function Plain(success: bool, message: string): (r: ToolResult)
    ensures r.data == Null
  {
    ToolResult(success, message, Null)
  }

  /** The class-level declarations of a tool. */
  datatype Tool = Tool(className: string, name: string, description: string, parameters: map<string, Value>)

  /** `BaseTool.__init__`: the name is checked first, then the description. */
  function Construct(t: Tool): (r: Result<Tool, string>)
    ensures r.Ok? <==> t.name != [] && t.description != []
    ensures r.Ok? ==> r.value == t
    ensures t.name == [] ==> r == Err(t.className + " must define 'name'")
    ensures t.name != [] && t.description == [] ==> r == Err(t.className + " must define 'description'")
  {
    if t.name == [] then Err(t.className + " must define 'name'")
    else if t.description == [] then Err(t.className + " must define 'description'")
    else Ok(t)
  }

  const EmptyParameters: map<string, Value> :=
    map["type" := Str("object"), "properties" := Obj(map[]), "required" := Arr([])]

  /** `to_openai_schema`. */
  function Schema(t: Tool): (r: Value)
    ensures r.Obj? && r.fields.Keys == {"type", "function"}
    ensures r.fields["type"] == Str("function")
    ensures r.fields["function"] == Obj(map[
              "name" := Str(t.name),
              "description" := Str(t.description),
              "parameters" := Obj(if t.parameters == map[] then EmptyParameters else t.parameters)])
  {
    Obj(map[
      "type" := Str("function"),
      "function" := Obj(map[
        "name" := Str(t.name),
        "description" := Str(t.description),
        "parameters" := Obj(if t.parameters != map[] then t.parameters else EmptyParameters)])])
  }

  /** The schema names the tool, and a tool without parameters advertises an empty object schema. */
  lemma SchemaNamesTool(t: Tool)
    ensures Schema(t).fields["function"].fields["name"] == Str(t.name)
    ensures t.parameters == map[] ==>
              Schema(t).fields["function"].fields["parameters"].fields["properties"] == Obj(map[])
    ensures t.parameters != map[] ==> Schema(t).fields["function"].fields["parameters"] == Obj(t.parameters)
  {
  }
}

=== FILE: vision_tools.dfy ===
/**
 * The vision search tools: `search` turns through the headings
 * `rotation_step * i` asking the vision model whether the described target
 * is in view, and `look_around` describes the four cardinal directions.
 *
 * Each step's abort flag, frame capture and vision answer are inputs
 * (`observe(i)` for step `i`); a capture or a model call that raised is
 * `Err(message)`. So is whether the flag is seen set during the one-second
 * `smart_sleep` after the step's rotation, which raises
 * "Mission aborted during wait". The drone is the `DroneController` model.
 */
module VisionTools {
  import opened Wrappers
  import opened Json
  import opened VehicleState
  import opened Controller
  import opened ToolBase
  import Text

  /** `n` copies of the command `c`. */
  function Repeat(c: Command, n: nat): (cs: seq<Command>)
    ensures |cs| == n && forall i | 0 <= i < n :: cs[i] == c
  {
    if n == 0 then [] else Repeat(c, n - 1) + [c]
  }

  // ---------------------------------------------------------------- search

  /** The vision model's structured answer to "is the target in this frame?". */
  datatype SearchVerdict = SearchVerdict(
    found: bool, confidence: string, description: string, estimatedDistance: Value, recommendedAction: string)

  /**
   * One step: the abort flag, the capture (`Ok(false)` for no frame), the
   * model's answer, and whether the flag is set during the wait that
   * follows the step's rotation.
   */
  datatype Look = Look(aborted: bool, capture: Result<bool, string>, verdict: Result<SearchVerdict, string>,
                       waitAborted: bool)

  const WaitAborted: string := "Mission aborted during wait"

  /** Only a "high" or "medium" sighting ends the search. */
  predicate Confident(v: SearchVerdict)
  {
    v.found && (v.confidence == "high" || v.confidence == "medium")
  }

  /** A step that lets the search go on. */
  predicate Quiet(l: Look)
  {
    && !l.aborted
    && l.capture.Ok?
    && (l.capture.value ==> l.verdict.Ok? && !Confident(l.verdict.value))
  }

  /** The number of headings, `360 // rotation_step`; a negative count leaves `range` empty. */
  function NumSteps(rotationStep: int): (n: nat)
    requires rotationStep != 0
    ensures rotationStep > 0 ==> n * rotationStep <= 360 < (n + 1) * rotationStep
    ensures rotationStep < 0 ==> n == 0
  {
    if rotationStep > 0 then 360 / rotationStep else 0
  }

  /** Every heading visited lies within the first full turn. */
  lemma HeadingsWithinTurn(rotationStep: int, i: nat)
    requires rotationStep > 0 && i < NumSteps(rotationStep)
    ensures 0 <= rotationStep * i < 360
  {
    var n := NumSteps(rotationStep);
    assert i + 1 <= n;
    assert rotationStep * (i + 1) <= rotationStep * n;
  }

  datatype SearchEnd =
    | AbortedAt(step: nat)
    | AbortedInWait(step: nat)
    | FailedAt(step: nat, error: string)
    | FoundAt(step: nat, verdict: SearchVerdict)
    | NotFound

  function StopStep(e: SearchEnd, steps: nat): nat
  {
    if e.NotFound? then steps else if e.AbortedInWait? then e.step + 1 else e.step
  }

  /** The search from step `i` of `steps`, and how many turns it makes (after each captured frame but the last). */
  function SearchFrom(observe: nat -> Look, steps: nat, i: nat): (SearchEnd, nat)
    decreases steps - i
  {
    if i >= steps then (NotFound, 0)
    else
      var l := observe(i);
      if l.aborted then (AbortedAt(i), 0)
      else if l.capture.Err? then (FailedAt(i, l.capture.error), 0)
      else if !l.capture.value then SearchFrom(observe, steps, i + 1)
      else if l.verdict.Err? then (FailedAt(i, l.verdict.error), 0)
      else if Confident(l.verdict.value) then (FoundAt(i, l.verdict.value), 0)
      else if i < steps - 1 && l.waitAborted then (AbortedInWait(i), 1)
      else
        var rest := SearchFrom(observe, steps, i + 1);
        (rest.0, rest.1 + if i < steps - 1 then 1 else 0)
  }

  /** The search stops at the first step that is not quiet, and the first confident sighting wins. */
  lemma {:induction false} SearchEnds(observe: nat -> Look, steps: nat, i: nat)
    requires i <= steps
    ensures var e := SearchFrom(observe, steps, i).0;
            && i <= StopStep(e, steps) <= steps
            && (forall j | i <= j < StopStep(e, steps) :: Quiet(observe(j)))
            && (forall j | i <= j < StopStep(e, steps) && j < steps - 1 && observe(j).capture == Ok(true)
                  && !e.AbortedInWait? :: !observe(j).waitAborted)
            && (e.AbortedAt? ==> observe(e.step).aborted)
            && (e.AbortedInWait? ==> e.step < steps - 1 && observe(e.step).capture == Ok(true)
                                     && observe(e.step).waitAborted)
            && (e.FoundAt? ==> !observe(e.step).aborted && observe(e.step).capture == Ok(true)
                               && observe(e.step).verdict == Ok(e.verdict) && Confident(e.verdict))
            && (e.FailedAt? ==> !Quiet(observe(e.step)) && !observe(e.step).aborted)
    decreases steps - i
  {
    if i < steps {
      var l := observe(i);
      if !l.aborted && l.capture.Ok?
         && (!l.capture.value || (l.verdict.Ok? && !Confident(l.verdict.value) && !(i < steps - 1 && l.waitAborted))) {
        SearchEnds(observe, steps, i + 1);
      }
    }
  }

  /** Every turn of a search is made after a step whose frame was captured and judged. */
  lemma {:induction false} SearchTurnsBounded(observe: nat -> Look, steps: nat, i: nat)
    requires i <= steps
    ensures SearchFrom(observe, steps, i).1 <= StopStep(SearchFrom(observe, steps, i).0, steps) - i
    ensures SearchFrom(observe, steps, i).1 < steps - i || steps == i
    decreases steps - i
  {
    if i < steps {
      var l := observe(i);
      if !l.aborted && l.capture.Ok?
         && (!l.capture.value || (l.verdict.Ok? && !Confident(l.verdict.value) && !(i < steps - 1 && l.waitAborted))) {
        SearchTurnsBounded(observe, steps, i + 1);
        SearchEnds(observe, steps, i + 1);
      }
    }
  }

  datatype SearchRun =
    | NoVideo
    | NotFlying
    | ZeroStep
    | Ran(end: SearchEnd, rotations: nat)

  /** The checks before the scan, in order, then the scan itself. */
  function SearchRunOf(rotationStep: int, videoReady: bool, flying: bool, observe: nat -> Look): (run: SearchRun)
    ensures run.Ran? <==> videoReady && flying && rotationStep != 0
    ensures run.Ran? ==> (run.end, run.rotations) == SearchFrom(observe, NumSteps(rotationStep), 0)
  {
    if !videoReady then NoVideo
    else if !flying then NotFlying
    else if rotationStep == 0 then ZeroStep
    else
      var s := SearchFrom(observe, NumSteps(rotationStep), 0);
      Ran(s.0, s.1)
  }

  /** The tool's reply; only a confident sighting is a success. */
  function SearchReport(target: string, rotationStep: int, run: SearchRun): (r: ToolResult)
    ensures r.success <==> run.Ran? && run.end.FoundAt?
    ensures run.Ran? && run.end.FoundAt? ==>
              r.data.Obj? && "angle" in r.data.fields && r.data.fields["angle"] == Num((rotationStep * run.end.step) as real)
    ensures run.Ran? && run.end.AbortedAt? ==> r.message == "Search aborted by user"
    ensures run.Ran? && run.end.AbortedInWait? ==> r.message == WaitAborted
  {
    match run
    case NoVideo => Plain(false, "Video stream not available")
    case NotFlying => Plain(false, "Drone must be flying to search")
    case ZeroStep => Plain(false, "Search failed: integer division or modulo by zero")
    case Ran(AbortedAt(_), _) => Plain(false, "Search aborted by user")
    case Ran(AbortedInWait(_), _) => Plain(false, WaitAborted)
    case Ran(FailedAt(_, e), _) => Plain(false, "Search failed: " + e)
    case Ran(FoundAt(i, v), _) =>
      Success("✅ Found " + target + "! " + v.description,
        Obj(map[
          "found" := Bool(true),
          "angle" := Num((rotationStep * i) as real),
          "estimated_distance" := v.estimatedDistance,
          "confidence" := Str(v.confidence),
          "description" := Str(v.description),
          "target" := Str(target),
          "recommended_action" := Str(v.recommendedAction)]))
    case Ran(NotFound, _) =>
      ToolBase.Failure("Could not find " + target + " after searching 360°",
        Obj(map["found" := Bool(false), "target" := Str(target)]))
  }

  /** The scan loop of `SearchTool.execute`, once the drone is known to be flying. */
  method SearchLoop(drone: DroneController, rotationStep: int, observe: nat -> Look) returns (e: SearchEnd, rotations: nat)
    requires rotationStep != 0 && Flying(drone.machine.state)
    modifies drone`commands, drone.machine
    ensures (e, rotations) == SearchFrom(observe, NumSteps(rotationStep), 0)
    ensures drone.commands == old(drone.commands) + Repeat(RotationCommand(rotationStep), rotations)
    ensures Flying(drone.machine.state)
    ensures drone.machine.observers == old(drone.machine.observers)
  {
    var steps := NumSteps(rotationStep);
    rotations := 0;
    var i: nat := 0;
    while i < steps
      invariant i <= steps
      invariant SearchFrom(observe, steps, 0) == (SearchFrom(observe, steps, i).0, SearchFrom(observe, steps, i).1 + rotations)
      invariant Flying(drone.machine.state)
      invariant drone.machine.observers == old(drone.machine.observers)
      invariant drone.commands == old(drone.commands) + Repeat(RotationCommand(rotationStep), rotations)
      decreases steps - i
    {
      var l := observe(i);
      if l.aborted {
        return AbortedAt(i), rotations;
      }
      if l.capture.Err? {
        return FailedAt(i, l.capture.error), rotations;
      }
      if l.capture.value {
        if l.verdict.Err? {
          return FailedAt(i, l.verdict.error), rotations;
        }
        if Confident(l.verdict.value) {
          return FoundAt(i, l.verdict.value), rotations;
        }
        if i < steps - 1 {
          var _ := drone.Rotate(rotationStep);
          rotations := rotations + 1;
          if l.waitAborted {
            return AbortedInWait(i), rotations;
          }
        }
      }
      i := i + 1;
    }
    e := NotFound;
  }

  /**
   * `SearchTool.execute`: `videoReady` is "the video stream exists and is
   * running". A zero step fails on the division, as the tool's exception
   * handler reports it.
   */
  method Search(drone: DroneController, target: string, rotationStep: int, videoReady: bool, observe: nat -> Look)
    returns (r: ToolResult)
    modifies drone`commands, drone.machine
    ensures var run := SearchRunOf(rotationStep, videoReady, Flying(old(drone.machine.state)), observe);
            && r == SearchReport(target, rotationStep, run)
            && drone.commands == old(drone.commands) + (if run.Ran? then Repeat(RotationCommand(rotationStep), run.rotations) else [])
    ensures drone.machine.observers == old(drone.machine.observers)
  {
    if !videoReady {
      return SearchReport(target, rotationStep, NoVideo);
    }
    if !drone.machine.IsFlying() {
      return SearchReport(target, rotationStep, NotFlying);
    }
    if rotationStep == 0 {
      return SearchReport(target, rotationStep, ZeroStep);
    }
    var e, rotations := SearchLoop(drone, rotationStep, observe);
    r := SearchReport(target, rotationStep, Ran(e, rotations));
  }

  // ----------------------------------------------------------- look_around

  /** The four directions in the order visited, with their capitalised labels. */
  const DirectionNames: seq<string> := ["ahead", "right", "behind", "left"]
  const DirectionLabels: seq<string> := ["Ahead", "Right", "Behind", "Left"]
  const LookTurn: int := 90

  /**
   * One direction: the abort flag, the capture, the model's one-line
   * summary, and whether the flag is set during the wait after the turn.
   */
  datatype Glance = Glance(aborted: bool, capture: Result<bool, string>, summary: Result<string, string>,
                           waitAborted: bool)

  datatype LookEnd =
    | LookAborted(step: nat)
    | LookAbortedInWait(step: nat)
    | LookFailed(step: nat, error: string)
    | Described(descriptions: seq<(nat, string)>)

  /** The look-around from direction `i`, with the summaries gathered so far; a turn follows every direction but the last. */
  function LookFrom(observe: nat -> Glance, i: nat, descs: seq<(nat, string)>): (LookEnd, nat)
    decreases 4 - i
  {
    if i >= 4 then (Described(descs), 0)
    else
      var g := observe(i);
      if g.aborted then (LookAborted(i), 0)
      else if g.capture.Err? then (LookFailed(i, g.capture.error), 0)
      else if g.capture.value && g.summary.Err? then (LookFailed(i, g.summary.error), 0)
      else if i < 3 && g.waitAborted then (LookAbortedInWait(i), 1)
      else
        var descs' := if g.capture.value then descs + [(i, g.summary.value)] else descs;
        var rest := LookFrom(observe, i + 1, descs');
        (rest.0, rest.1 + if i < 3 then 1 else 0)
  }

  /** A completed look-around turns exactly three times, a stopped one once per direction it left. */
  lemma {:induction false} LookTurns(observe: nat -> Glance, i: nat, descs: seq<(nat, string)>)
    requires i <= 4
    ensures var (e, turns) := LookFrom(observe, i, descs);
            && (e.Described? ==> turns == 3 - (if i < 3 then i else 3))
            && (e.LookAborted? || e.LookFailed? ==> i <= e.step < 4 && turns == e.step - i)
            && (e.LookAbortedInWait? ==> i <= e.step < 3 && turns == e.step + 1 - i && observe(e.step).waitAborted)
    decreases 4 - i
  {
    if i < 4 {
      var g := observe(i);
      if !g.aborted && g.capture.Ok? && !(g.capture.value && g.summary.Err?) && !(i < 3 && g.waitAborted) {
        var descs' := if g.capture.value then descs + [(i, g.summary.value)] else descs;
        LookTurns(observe, i + 1, descs');
      }
    }
  }

  /** The summaries are gathered in direction order, one per captured frame. */
  lemma {:induction false} LookDescriptionsOrdered(observe: nat -> Glance, i: nat, descs: seq<(nat, string)>)
    requires i <= 4
    requires forall k | 0 <= k < |descs| :: descs[k].0 < i
    requires forall k, m | 0 <= k < m < |descs| :: descs[k].0 < descs[m].0
    ensures var e := LookFrom(observe, i, descs).0;
            e.Described? ==>
              && descs <= e.descriptions
              && (forall k | 0 <= k < |e.descriptions| :: e.descriptions[k].0 < 4)
              && (forall k, m | 0 <= k < m < |e.descriptions| :: e.descriptions[k].0 < e.descriptions[m].0)
              && (forall k | |descs| <= k < |e.descriptions| ::
                    observe(e.descriptions[k].0).capture == Ok(true)
                    && observe(e.descriptions[k].0).summary == Ok(e.descriptions[k].1))
    decreases 4 - i
  {
    if i < 4 {
      var g := observe(i);
      if !g.aborted && g.capture.Ok? && !(g.capture.value && g.summary.Err?) && !(i < 3 && g.waitAborted) {
        var descs' := if g.capture.value then descs + [(i, g.summary.value)] else descs;
        LookDescriptionsOrdered(observe, i + 1, descs');
      }
    }
  }

  function Lines(descs: seq<(nat, string)>): (r: seq<string>)
    ensures |r| == |descs|
  {
    seq(|descs|, k requires 0 <= k < |descs| =>
      (if descs[k].0 < 4 then DirectionLabels[descs[k].0] else "") + ": " + descs[k].1)
  }

  function DirectionsMap(descs: seq<(nat, string)>): map<string, Value>
  {
    if descs == [] then map[]
    else
      var last := descs[|descs| - 1];
      DirectionsMap(descs[..|descs| - 1])[(if last.0 < 4 then DirectionNames[last.0] else "") := Str(last.1)]
  }

  datatype LookRun = LookNoVideo | LookNotFlying | LookRan(end: LookEnd, rotations: nat)

  function LookAroundRun(videoReady: bool, flying: bool, observe: nat -> Glance): (run: LookRun)
    ensures run.LookRan? <==> videoReady && flying
    ensures run.LookRan? ==> (run.end, run.rotations) == LookFrom(observe, 0, [])
  {
    if !videoReady then LookNoVideo
    else if !flying then LookNotFlying
    else
      var l := LookFrom(observe, 0, []);
      LookRan(l.0, l.1)
  }

  function LookReport(run: LookRun): (r: ToolResult)
    ensures r.success <==> run.LookRan? && run.end.Described?
    ensures run.LookRan? && run.end.LookAborted? ==> r.message == "Look around aborted"
    ensures run.LookRan? && run.end.LookAbortedInWait? ==> r.message == WaitAborted
  {
    match run
    case LookNoVideo => Plain(false, "Video stream not available")
    case LookNotFlying => Plain(false, "Drone must be flying to look around")
    case LookRan(LookAborted(_), _) => Plain(false, "Look around aborted")
    case LookRan(LookAbortedInWait(_), _) => Plain(false, WaitAborted)
    case LookRan(LookFailed(_, e), _) => Plain(false, "Look around failed: " + e)
    case LookRan(Described(descs), _) =>
      Success(Text.Join(Lines(descs), "\n"), Obj(map["directions" := Obj(DirectionsMap(descs))]))
  }

  method LookLoop(drone: DroneController, observe: nat -> Glance) returns (e: LookEnd, rotations: nat)
    requires Flying(drone.machine.state)
    modifies drone`commands, drone.machine
    ensures (e, rotations) == LookFrom(observe, 0, [])
    ensures drone.commands == old(drone.commands) + Repeat(RotationCommand(LookTurn), rotations)
    ensures drone.machine.observers == old(drone.machine.observers)
  {
    var descs: seq<(nat, string)> := [];
    rotations := 0;
    var i: nat := 0;
    while i < 4
      invariant i <= 4
      invariant LookFrom(observe, 0, []) == (LookFrom(observe, i, descs).0, LookFrom(observe, i, descs).1 + rotations)
      invariant Flying(drone.machine.state)
      invariant drone.machine.observers == old(drone.machine.observers)
      invariant drone.commands == old(drone.commands) + Repeat(RotationCommand(LookTurn), rotations)
    {
      var g := observe(i);
      if g.aborted {
        return LookAborted(i), rotations;
      }
      if g.capture.Err? {
        return LookFailed(i, g.capture.error), rotations;
      }
      if g.capture.value && g.summary.Err? {
        return LookFailed(i, g.summary.error), rotations;
      }
      if i < 3 {
        var _ := drone.Rotate(LookTurn);
        rotations := rotations + 1;
        if g.waitAborted {
          return LookAbortedInWait(i), rotations;
        }
      }
      if g.capture.value {
        descs := descs + [(i, g.summary.value)];
      }
      i := i + 1;
    }
    e := Described(descs);
  }

  /** `LookAroundTool.execute`. */
  method LookAround(drone: DroneController, videoReady: bool, observe: nat -> Glance) returns (r: ToolResult)
    modifies drone`commands, drone.machine
    ensures var run := LookAroundRun(videoReady, Flying(old(drone.machine.state)), observe);
            && r == LookReport(run)
            && drone.commands == old(drone.commands) + (if run.LookRan? then Repeat(RotationCommand(LookTurn), run.rotations) else [])
    ensures drone.machine.observers == old(drone.machine.observers)
  {
    if !videoReady {
      return LookReport(LookNoVideo);
    }
    if !drone.machine.IsFlying() {
      return LookReport(LookNotFlying);
    }
    var e, rotations := LookLoop(drone, observe);
    r := LookReport(LookRan(e, rotations));
  }
}

=== FILE: wrappers.dfy ===
/** Optional values and results shared by every module of the model. */
module Wrappers {
  /** Python's `None` versus a present value. */
  datatype Option<T> = None | Some(value: T)
  {
    function UnwrapOr(default: T): (r: T)
      ensures Some? ==> r == value
      ensures None? ==> r == default
    {
      if Some? then value else default
    }
  }

  /** A return value, or the exception the Python code raises instead. */
  datatype Result<T, E> = Ok(value: T) | Err(error: E)
}
